=== FILE: README.md ===
# Alt-text import pipeline — a Dafny model

This project models the backend of the alt-text generator, centred on the path that
brings a reviewed alt-text workbook back into the published learning objects (LOs):

- **Parsers.** The Excel parser reads a worksheet as a cell function. The JSON parser
  works on an already parsed document.
- **Standardiser.** Normalises paths, strings, booleans and grade labels.
- **Validator.** Applies a declarative rule table and collects every violation.
- **Error collector.** Four buckets and three counters.
- **File updater.** Groups rows by LO title and builds each LO's document key. It rewrites
  matching `<img>` tags in each LO's HTML, in a best-effort loop over an abstract document
  store.
- **`processFile`.** The pipeline driver that chains the steps above.

Beside the pipeline it models the pure kernels of four request handlers:

- the LO export (`img` extraction, alt-text fallback, de-duplication, statistics);
- the project list (storage prefixes to projects);
- the error middleware (`AppError` and its response table);
- the browser-side upload check.

Loose JavaScript values are one sum type, `JsValue.Value`, with JavaScript's truthiness,
`typeof`, property reads and `String()`. A thrown exception is a `Results.Fail` carrying
the exception's message. Storage, the vision service, URL parsing and clocks are
parameters.

Modules, one per file:

- **Support.** `Results`, `JsString`, `JsValue`, `Sequences`, `Sorting` and
  `PropertyOrder`. `PropertyOrder` holds the order in which `Object.entries` lists keys.
- **Services.** `Standardization`, `Validation`, `ErrorCollection`, `HtmlPatch`,
  `FileUpdate`, `FileProcessing`, `ExcelParser` and `JsonParser`.
- **Handlers.** `LoExport`, `ProjectList`, `ErrorResponses` and `ImportCheck`.

## Model

| member | source | states |
|---|---|---|
| JsString.Trim | backend/services/standardizationService.js:36 | `trim()`: the result is the input with JavaScript white space removed at both ends, and is empty exactly when the input is all white space |
| JsString.TrimIdempotent | backend/services/standardizationService.js:36 | trimming twice is trimming once |
| JsString.TrimLowerCommute | backend/services/standardizationService.js:93 | trimming and ASCII lower-casing commute, so `toLowerCase().trim()` equals `trim().toLowerCase()` |
| JsString.ToLower | backend/services/standardizationService.js:68 | `toLowerCase()` keeps the length and maps every character through the ASCII lower-case map |
| JsString.IndexOf | backend/api/syntarax/projects.js:43 | the first occurrence of a pattern: it occurs there, nowhere before, and `None` means nowhere at all |
| JsString.ReplaceFirst | backend/api/syntarax/projects.js:43 | `replace(string, string)`: only the first occurrence is replaced, and the text is unchanged when there is none |
| JsString.LastIndexOf | frontend/js/modules/ImportHandler.js:29 | the last position holding a character, with no later one; `None` exactly when the character is absent |
| JsString.CollapseSlashes | backend/services/standardizationService.js:49 | `replace(/\/+/g, "/")`: no `//` remains, the non-slash characters and the first and last characters are kept, and text without `//` is unchanged |
| JsString.CollapseDoubled | backend/services/standardizationService.js:49 | a doubled `/` anywhere collapses like a single one; with the identity on text without `//`, this fixes the result for every input, so each run of `/` becomes exactly one `/` |
| JsString.StripOuterSlashes | backend/services/fileProcessingService.js:95-98 | removing the leading and the trailing runs of `/`: the result neither starts nor ends with `/`, and it is the input minus a run of slashes on each side |
| JsString.NatTextRoundTrip | backend/services/validationService.js:81 | the decimal text of a number reads back as that number |
| JsString.NatTextInjective | backend/services/validationService.js:81 | distinct row numbers give distinct `Row n` labels |
| JsString.NatTextIsNumeric | backend/services/standardizationService.js:74 | `isNaN` is false for the printed form of every natural number |
| JsString.NumericLead | backend/services/validationService.js:121-122 | numeric text, once trimmed, begins with a digit, a sign, `.` or `I` (of `Infinity`) |
| JsValue.TypeOf | backend/services/validationService.js:56 | `typeof` is `"object"` exactly for `null`, arrays and objects |
| JsValue.Get | backend/services/validationService.js:137 | reading a property gives its value when the object owns it and `undefined` otherwise |
| JsValue.ToStr | backend/services/standardizationService.js:36 | `String()` of a string is itself and of a number is its decimal text |
| Sorting.SortBy | backend/api/syntarax/projects.js:51 | `sort` with a total-preorder comparator: the result is sorted and a permutation of the input |
| PropertyOrder.OwnKeysOrder | backend/services/fileUpdateService.js:37 | `Object.entries` order: array-index keys first in ascending numeric order, then the other keys in insertion order, as a permutation of the keys |
| PropertyOrder.NoIndexKeysKeepOrder | backend/services/fileUpdateService.js:37 | when no key is an array index, entries come in insertion order |
| PropertyOrder.OwnKeysOrderDistinct | backend/services/fileUpdateService.js:37 | the key order keeps distinct keys distinct and lists exactly the keys |
| Standardization.StandardizeString | backend/services/standardizationService.js:34-37 | `null`/`undefined` give `""`; anything else gives the trim of its `String()` form |
| Standardization.StandardizeStringIdempotent | backend/services/standardizationService.js:34-37 | standardising a standardised string changes nothing |
| Standardization.NormalizePath | backend/services/standardizationService.js:42-53 | after the four rewrites, the path is empty or starts with `/`, and has no `\`, no `//` and no trailing `/`; the non-slash characters are those of the input with `\` turned into `/` |
| Standardization.NormalizeBackslash | backend/services/standardizationService.js:43 | a `\` anywhere in a path is read exactly as a `/` |
| Standardization.NormalizeDoubled | backend/services/standardizationService.js:49 | a doubled `/` anywhere in a path is read exactly as one `/` |
| Standardization.NormalizeLead | backend/services/standardizationService.js:46 | a path without a leading separator reads as the same path with `/` in front |
| Standardization.NormalizeTrailing | backend/services/standardizationService.js:52 | a canonical path with one `/` added at the end normalises back to itself |
| Standardization.StandardizePath | backend/services/standardizationService.js:39-55 | a falsy input gives `""`; it throws exactly for a truthy non-string; a string gives a canonical path with the same non-slash characters, and a canonical string is returned as it is |
| Standardization.StandardizePathIdempotent | backend/services/standardizationService.js:39-55 | standardising a standardised path changes nothing |
| Standardization.NormalizeCanonical | backend/services/standardizationService.js:42-53 | the rewrites leave an already canonical path unchanged |
| Standardization.StandardizeBoolean | backend/services/standardizationService.js:90-98 | true exactly for boolean `true`, the number 1, and strings whose trimmed lower-case form is `true`, `yes` or `1` |
| Standardization.GradeAlias | backend/services/standardizationService.js:79-85 | the alias table: defined exactly for `k`, `kindergarten`, `pk`, `pre-k` and `pre k`, giving `Kindergarten` or `Pre-K` |
| Standardization.GradeLabel | backend/services/standardizationService.js:73-87 | a numeric key gives `Grade <key>`; any other key gives its alias, if it has one |
| Standardization.StandardizeGradeLevel | backend/services/standardizationService.js:63-88 | falsy gives `""`; a key with a label gives the label; otherwise `Grade ` plus the trimmed original, which throws for a non-string |
| Standardization.NumericGrade | backend/services/standardizationService.js:63-88 | a positive number or a number's decimal text gives `Grade <n>`; the number 0 gives `""` |
| Standardization.PrefixedNumericGrade | backend/services/standardizationService.js:69-75 | `Grade n`, `grade n`, `gr n` and `g n` all give `Grade n` |
| Standardization.StandardizeMetadata | backend/services/standardizationService.js:14-20 | it throws exactly when the metadata is nullish or the grade or link standardisation throws; otherwise the grade is the standardised grade level (or of `6` when that is falsy) and the link is the standardised link |
| Standardization.MissingGradeIsSix | backend/services/standardizationService.js:16 | metadata with a falsy grade level is standardised to `Grade 6` |
| Standardization.StandardizeItem | backend/services/standardizationService.js:25-31 | it throws exactly when the row is nullish or its image source throws; otherwise the title and texts are the standardised strings of the row's fields, the image source is the standardised path, and `isDecorative` the standardised boolean |
| Standardization.StandardRecordRoundTrip | backend/services/standardizationService.js:25-31 | a row that is already standard standardises to itself |
| Standardization.StandardizeItems | backend/services/standardizationService.js:25-31 | `map`: it fails exactly when some row fails; otherwise it keeps length and order, row by row |
| Standardization.StandardizeAltTextData | backend/services/standardizationService.js:22-32 | a non-array gives `[]`; an array is mapped row by row; every output row is standard and carries only the five kept fields |
| Standardization.StandardizeData | backend/services/standardizationService.js:2-12 | input that is not a successful parse is returned unchanged; otherwise every other property is kept and `metadata` and `altTextData` are replaced by their standardised forms |
| Standardization.StandardizedSections | backend/services/standardizationService.js:7-11 | the standardised document holds exactly the standardised metadata and rows |
| Validation.NonBlankText | backend/services/validationService.js:28 | `value.trim().length > 0`: throws for a non-string, and is otherwise true exactly for text that is not all white space |
| Validation.RunCheck | backend/services/validationService.js:38-41 | it throws exactly when `trim` reaches a non-string; otherwise it passes exactly for a rule without a check, for the alt-text check on a row whose `isDecorative` is `true`, and for text that is not all white space |
| Validation.RuleErrors | backend/services/validationService.js:136-172 | an absent field draws `<field> is required` if required and nothing otherwise; a present one throws exactly when its check throws, and otherwise draws the type message exactly when `typeof` differs, then the rule's message (or `Invalid <field>`) exactly when the check fails, all behind the row prefix |
| Validation.SectionErrors | backend/services/validationService.js:136-175 | every rule is checked with no early exit; it succeeds exactly when every rule does, with at most two prefixed messages per rule |
| Validation.SectionGathers | backend/services/validationService.js:136-175 | applying the rules one after another is gathering their outcomes in table order |
| Validation.ValidateSection | backend/services/validationService.js:133-176 | a nullish row throws the read error of the first field; otherwise the result is the rules' outcomes gathered in table order, at most two prefixed messages per rule |
| Validation.IsValidGradeLevel | backend/services/validationService.js:117-125 | numbers are valid; non-strings other than numbers are invalid; a string is valid exactly when it is numeric once lower-cased with its first `grade` removed |
| Validation.ValidateMetadata | backend/services/validationService.js:93-115 | the grade-format message appears exactly when a grade is present and invalid; the link message appears exactly when the link is falsy |
| Validation.StandardMetadataErrors | backend/services/validationService.js:93-115 | for standardised metadata, the exact message list |
| Validation.NumericLabelValid | backend/services/validationService.js:117-123 | every `Grade <n>` label the standardiser produces is valid |
| Validation.LetterLedGradeInvalid | backend/services/validationService.js:117-123 | a string that starts with a letter other than `g` is not a valid grade |
| Validation.AliasLabelsRejected | backend/services/validationService.js:97-103 | the standardiser's own `Kindergarten` and `Pre-K` labels draw the grade-format message |
| Validation.RowOutcomes | backend/services/validationService.js:77-84 | each row is validated under its own `Row <index + 1>` label |
| Validation.Gather | backend/services/validationService.js:77-84 | the whole succeeds exactly when every outcome does |
| Validation.GatherMeaning | backend/services/validationService.js:77-84 | on success, the messages are every outcome's messages concatenated in order; on failure, the message is that of the first outcome that threw |
| Validation.GatherAppend | backend/services/validationService.js:77-84 | gathering two runs of rows is gathering each and concatenating |
| Validation.RowMessages | backend/services/validationService.js:78-83 | every message of row `i` starts with `Row <i + 1>` |
| Validation.ValidateRows | backend/services/validationService.js:77-84 | it fails exactly when some row throws; every message starts with `Row `; a single row is its section's result under `Row <start + 1>` |
| Validation.ValidateRowsAppend | backend/services/validationService.js:77-84 | validating two runs of rows numbers the second run after the first and concatenates the messages |
| Validation.RowSectionErrors | backend/services/validationService.js:72-85 | a non-array and an empty array each draw their one message; otherwise the result is exactly the row validation's messages, or its error |
| Validation.ValidateData | backend/services/validationService.js:52-91 | a falsy or non-object input gives exactly `Invalid data structure`; otherwise the errors are the metadata's messages followed by the rows' messages, and `valid` holds exactly when there are none |
| Validation.StandardRowErrors | backend/services/validationService.js:20-48 | for a standardised row, the exact messages: the image-source message when the source is blank, and the alt-text message when the row is not decorative and its edited text is blank |
| Validation.PresentFieldPasses | backend/services/validationService.js:161-172 | a present field of the right type with no check draws no message |
| ErrorCollection.KindNamed | backend/services/errorCollectionService.js:3-8 | the bucket names: a name maps to the kind that has it, and to nothing when no kind has it |
| ErrorCollection.KindNameRoundTrip | backend/services/errorCollectionService.js:3-8 | each kind's name maps back to that kind |
| ErrorCollection.NewCollector | backend/services/errorCollectionService.js:2-17 | the constructor's state: all buckets empty, no clock readings, and the counter invariant holds |
| ErrorCollection.StartProcessing | backend/services/errorCollectionService.js:19-21 | only the start reading changes; a processing time exists afterwards exactly when the end was recorded |
| ErrorCollection.EndProcessing | backend/services/errorCollectionService.js:23-25 | only the end reading changes; after a start, the processing time is the difference of the readings |
| ErrorCollection.StackOf | backend/services/errorCollectionService.js:32 | the entry's stack trace is the details' `stack`, or `null` when that is falsy; nullish details give `null` |
| ErrorCollection.AddError | backend/services/errorCollectionService.js:27-43 | a known kind appends exactly the returned entry to its bucket and leaves the other buckets alone; only `critical` and `validation` count as failures; an unknown kind changes nothing; an inherited name throws; omitted details are stored as `null` |
| ErrorCollection.IncrementSuccess | backend/services/errorCollectionService.js:45-48 | both counters grow by one and nothing else changes |
| ErrorCollection.ProcessingTime | backend/services/errorCollectionService.js:66-69 | defined exactly when both readings exist, and then the difference in seconds |
| ErrorCollection.HasErrors | backend/services/errorCollectionService.js:89-91 | true exactly when the critical or the validation bucket is non-empty |
| ErrorCollection.HasErrorsIffFailures | backend/services/errorCollectionService.js:89-91 | under the invariant, `hasErrors` is exactly `failureCount > 0` |
| ErrorCollection.Clear | backend/services/errorCollectionService.js:93-107 | the state is exactly the constructor's again |
| ErrorCollection.FormatEntry | backend/services/errorCollectionService.js:75-83 | message and details are kept; the stack trace appears only in development |
| ErrorCollection.FormatBucket | backend/services/errorCollectionService.js:75-83 | one formatted entry per entry, in order |
| ErrorCollection.KindsFrom | backend/services/errorCollectionService.js:73-74 | the non-empty kinds, in bucket order |
| ErrorCollection.FormatErrors | backend/services/errorCollectionService.js:71-87 | each listed kind carries its formatted bucket, in bucket order |
| ErrorCollection.ReportedIff | backend/services/errorCollectionService.js:71-87 | a kind is listed exactly when its bucket is non-empty |
| ErrorCollection.ErrorSummary | backend/services/errorCollectionService.js:50-64 | the processing time, the processed, success and failure counters and the formatted errors are the collector's; each count is its bucket's length; under the invariant, `failureCount` is the sum of the critical and validation counts |
| ErrorCollection.StepKeepsValid | backend/services/errorCollectionService.js:2-107 | every operation keeps `failureCount` equal to the number of critical plus validation entries and `totalProcessed == successCount` |
| ErrorCollection.RunKeepsValid | backend/services/errorCollectionService.js:2-107 | so does every sequence of operations |
| ErrorCollection.KnownKindsCount | backend/services/errorCollectionService.js:37-39 | over known kinds and successes, `failureCount` grows by the number of critical and validation additions |
| HtmlPatch.MatchLength | backend/services/fileUpdateService.js:101-104 | a match is `<img`, up to the first `>`, whose inside holds `src=`, a quote, an optional `/`, the path and a quote; it ends at that `>` |
| HtmlPatch.NoMatchUnchanged | backend/services/fileUpdateService.js:113 | with no matching tag, the HTML is returned unchanged |
| HtmlPatch.ReplaceStep | backend/services/fileUpdateService.js:113 | the global replacement step: a match at the front becomes the replacement and the search resumes after it; otherwise the first character is kept and the search moves on by one |
| HtmlPatch.ReplaceSplits | backend/services/fileUpdateService.js:113 | text ending with `>` and what follows it are rewritten independently, so every tag is rewritten wherever it stands |
| HtmlPatch.MatchThenRest | backend/services/fileUpdateService.js:101-113 | a whole match in front of the rest becomes the replacement, and the rest is rewritten after it |
| HtmlPatch.TagInDocument | backend/services/fileUpdateService.js:101-113 | a tag for the path after text that holds no match and ends with `>` is replaced in place, and the search goes on after it |
| HtmlPatch.PlainTextKept | backend/services/fileUpdateService.js:113 | text without `<` passes through, and replacement continues after it |
| HtmlPatch.TagReplaced | backend/services/fileUpdateService.js:101-113 | an `<img …>` tag with the path in either quote style, with or without a leading `/`, is replaced whole, its other attributes dropped |
| HtmlPatch.WholeMatchReplaced | backend/services/fileUpdateService.js:113 | text that is one match becomes exactly the replacement |
| HtmlPatch.WholeTagMatches | backend/services/fileUpdateService.js:101-104 | an `<img` tag without an inner `>` whose inside names the path matches through its closing `>` |
| HtmlPatch.NormalizedSource | backend/services/fileUpdateService.js:97 | one leading `/` is removed, and only one |
| HtmlPatch.Replacement | backend/services/fileUpdateService.js:106-109 | the replacement tag: `src` plus `role="presentation" alt=""` for a decorative image, else `src` plus the edited alt text |
| HtmlPatch.UpdateHtmlContent | backend/services/fileUpdateService.js:90-136 | with no images the HTML is unchanged; one image is the global replacement of its tag pattern |
| HtmlPatch.UpdateSequential | backend/services/fileUpdateService.js:93-113 | images apply in list order to the accumulated HTML: updating with `a + b` is updating with `a`, then `b` |
| HtmlPatch.ReplacementStable | backend/services/fileUpdateService.js:101-113 | re-applying an image to its own replacement tag changes nothing |
| HtmlPatch.SourceNamed | backend/services/fileUpdateService.js:97-109 | the replacement's `src` names the image's path |
| FileUpdate.AddToGroup | backend/services/fileUpdateService.js:151-154 | adding a row throws exactly when its title names an inherited property |
| FileUpdate.GroupByLO | backend/services/fileUpdateService.js:149-157 | grouping throws exactly when some title names an inherited property |
| FileUpdate.GroupsExact | backend/services/fileUpdateService.js:149-157 | each title's group is exactly its rows, in input order; the titles are distinct and are exactly the rows' titles |
| FileUpdate.GroupCount | backend/services/fileUpdateService.js:149-157 | the group sizes add up to the number of rows |
| FileUpdate.Entries | backend/services/fileUpdateService.js:37 | `Object.entries` of the groups: the titles in property order, each with its group |
| FileUpdate.EntriesVisitEachGroup | backend/services/fileUpdateService.js:33-37 | the loop visits every title exactly once, with exactly that title's rows |
| FileUpdate.ConstructLoPath | backend/services/fileUpdateService.js:159-161 | the key starts with `dev`, ends with `/index.html` and has no `//`; apart from slashes it is `dev` + link + `/` + title + `/index.html`, and it is exactly that when the join has no `//` |
| FileUpdate.LoPathBaseSlash | backend/services/fileUpdateService.js:159-161 | a link ending in `/` gives the same key as without that `/` |
| FileUpdate.LoPathTitleSlash | backend/services/fileUpdateService.js:159-161 | a title starting with `/` gives the same key as without that `/` |
| FileUpdate.PlainLoPath | backend/services/fileUpdateService.js:159-161 | for a canonical link and a title without `/`, the key is exactly the template |
| FileUpdate.Fetch | backend/services/fileUpdateService.js:80-88 | the store returns the stored document unless the key is missing or set to fail |
| FileUpdate.Save | backend/services/fileUpdateService.js:138-147 | saving writes the content under the key unless the key is set to fail |
| FileUpdate.UpdateLo | backend/services/fileUpdateService.js:38-66 | one LO is updated exactly when its document can be fetched and saved, and the saved document is the patched HTML; a failure leaves the store alone |
| FileUpdate.UpdateLoop | backend/services/fileUpdateService.js:37-67 | one outcome per LO |
| FileUpdate.LoopTitles | backend/services/fileUpdateService.js:37-67 | outcome `i` is about LO `i`, so a failing LO never stops the others |
| FileUpdate.UpdateLoopSplits | backend/services/fileUpdateService.js:37-67 | the loop over `a + b` is the loop over `a`, then over `b` from the resulting store |
| FileUpdate.OutcomesPartition | backend/services/fileUpdateService.js:57-65 | every outcome is either an updated title or a title-and-error entry, never both |
| FileUpdate.UpdateFiles | backend/services/fileUpdateService.js:18-78 | `success` is false exactly when grouping throws, and then nothing is updated and one error is reported; otherwise the results are those of the loop; `filesProcessed` is the number of updated files |
| FileUpdate.EveryGroupReported | backend/services/fileUpdateService.js:37-67 | every group ends up updated or reported, exactly once |
| FileProcessing.RejectionSummary | backend/services/fileProcessingService.js:34-85 | the failure summary: one `validation` category whose count equals the number of entries and the failure count; nothing processed |
| FileProcessing.PrepareRecord | backend/services/fileProcessingService.js:105-112 | the image source gains a leading `/` only when it lacks one, the title is trimmed, and the other fields are unchanged |
| FileProcessing.PrepareRecords | backend/services/fileProcessingService.js:105-112 | the rows keep their count and order |
| FileProcessing.PreparedUnchanged | backend/services/fileProcessingService.js:105-112 | validated standard rows pass the fix-up unchanged |
| FileProcessing.ProjectPath | backend/services/fileProcessingService.js:95-98 | the link without its leading and trailing runs of `/` |
| FileProcessing.CanonicalProjectPath | backend/services/fileProcessingService.js:95-98 | for a standardised link, the project path is the link minus its first character |
| FileProcessing.ProcessFile | backend/services/fileProcessingService.js:14-138 | a parse failure is rejected with the parser's message and the store untouched; a rejection never touches the store and has at least one message; a completion comes from a successful parse whose standardised link and rows it carries, with a link and at least one row, and mirrors the updater's `success` and `filesProcessed`; for a parsed workbook it fails exactly when standardising or validating throws, it is rejected exactly when validation reports the upload invalid, with validation's own messages, and a valid upload is the completed update |
| FileProcessing.ProcessParsed | backend/services/fileProcessingService.js:56-133 | fails exactly when standardising or validating throws; rejected exactly when validation reports the upload invalid, carrying validation's messages and the untouched store; a valid upload is the completed update of the standardised rows |
| FileProcessing.CheckUpload | backend/services/fileProcessingService.js:56-62 | the validator's verdict on the standardised data; it fails exactly when either step throws |
| FileProcessing.CompleteUpload | backend/services/fileProcessingService.js:56-126 | validated data completes: its standardised rows and link go to the updater, whose store and result are kept |
| FileProcessing.SilentRowsHaveSources | backend/services/fileProcessingService.js:62-65 | standard rows that draw no message all have an image source |
| FileProcessing.ValidatedUpload | backend/services/fileProcessingService.js:56-65 | data that passes validation has a link and at least one row, and every row has an image source |
| ExcelParser.Cell | backend/services/excelParser.js:63 | cells outside the sheet are empty |
| ExcelParser.CellText | backend/services/excelParser.js:65-75 | a cell's text: empty for an empty cell, the text for a text cell |
| ExcelParser.ReadRowRoundTrip | backend/services/excelParser.js:64-79 | a row written as text in columns A to F and booleans in G and H reads back as itself |
| ExcelParser.KeepCells | backend/services/excelParser.js:83-89 | a row is kept for text in D or F or `true` in H, and for any number in D or F, even 0; empty D and F without `true` in H drop it |
| ExcelParser.OnlyBooleanTrue | backend/services/excelParser.js:76-78 | `"true"`, `"TRUE"` and `1` in the decorative column do not make a row decorative |
| ExcelParser.ScanRows | backend/services/excelParser.js:51-92 | rows are read consecutively from the start row while column A is non-empty, and the scan stops at the first empty one |
| ExcelParser.GapEndsScan | backend/services/excelParser.js:63-92 | nothing below the first empty column-A cell is ever read |
| ExcelParser.LinkValue | backend/services/excelParser.js:13-14 | the link cell's text: a falsy link becomes `""` |
| ExcelParser.NormalizeLink | backend/services/excelParser.js:22-31 | a non-empty link always ends up starting with `/` |
| ExcelParser.HostLinkStripped | backend/services/excelParser.js:23-30 | a link of the host followed by a trimmed path becomes that path |
| ExcelParser.AtHostLinkStripped | backend/services/excelParser.js:23-30 | the same with the `@` that pasted links carry |
| ExcelParser.GradeText | backend/services/excelParser.js:17 | an empty B1 gives `"6"`; text is kept |
| ExcelParser.ReadMetadata | backend/services/excelParser.js:12-31 | the grade is B1's text; the link is empty or starts with `/`; it throws exactly when B2 holds a truthy non-string |
| ExcelParser.ParseExcelFile | backend/services/excelParser.js:3-114 | any failure gives the fixed message; a parse keeps exactly the scanned rows that pass the filter, and `totalProcessed` is their number |
| ExcelParser.ParsedRowsInOrder | backend/services/excelParser.js:83-89 | the kept rows are the filter of the scanned rows, in order |
| ExcelParser.EmptyFirstRow | backend/services/excelParser.js:63 | an empty first data row gives no rows |
| ExcelParser.ResultValue | backend/services/excelParser.js:97-112 | the JavaScript result object carries `success`, `metadata` and `altTextData` |
| JsonParser.OrEmpty | backend/services/jsonParser.js:33-38 | a falsy field defaults to `""`, a truthy one is kept |
| JsonParser.ReadJsonRow | backend/services/jsonParser.js:21-41 | a nullish row throws a read error; otherwise a row is accepted exactly when it has an image source and has edited text or a defined `isDecorative`, and fields default and coerce as the code does |
| JsonParser.RowSurvives | backend/services/jsonParser.js:21-43 | a row reaches the output exactly when it has an image source and either edited alt text or a truthy `isDecorative` |
| JsonParser.ReadRows | backend/services/jsonParser.js:20-42 | all rows read, or the first bad row's message |
| JsonParser.ErrorText | backend/services/jsonParser.js:55-57 | the error's message, or the default when it is empty: never empty |
| JsonParser.ReadMetadata | backend/services/jsonParser.js:12-17 | the four metadata fields are copied unchanged |
| JsonParser.ParseJsonFile | backend/services/jsonParser.js:1-60 | it parses exactly when the document is well formed; missing sections give the structure error; the output keeps exactly the kept rows, and `totalProcessed` is their number |
| JsonParser.FirstBadRowDecides | backend/services/jsonParser.js:20-59 | the first bad row rejects the whole file with its message |
| JsonParser.RowRoundTrip | backend/services/jsonParser.js:32-41 | a row in read form reads back as itself |
| JsonParser.DocumentRoundTrip | backend/services/jsonParser.js:1-60 | a document written from metadata and kept rows parses back to exactly them |
| JsonParser.DecorativeFalseDropped | backend/services/jsonParser.js:23-43 | `isDecorative: false` with no edited text passes the row check but is filtered out |
| LoExport.LastSrc | backend/api/syntara/export.js:71 | the last usable `src="` before a bound, which the greedy `[^>]+` picks |
| LoExport.MatchImg | backend/api/syntara/export.js:71 | a match starts with `<img`, ends at a `>`, and captures a non-empty `src` without `"` |
| LoExport.CaptureAt | backend/api/syntara/export.js:71 | the captured tag and source of a usable `src=` |
| LoExport.ImgTags | backend/api/syntara/export.js:70-72 | `matchAll`: every captured source is non-empty and has no `"` |
| LoExport.TagFound | backend/api/syntara/export.js:70-72 | a well-formed `<img … src="x" …>` tag in front of the rest is found as one match capturing `x`, and the search goes on after it |
| LoExport.NoImgNoTags | backend/api/syntara/export.js:70-72 | HTML without `<img` has no matches |
| LoExport.SingleQuotedIgnored | backend/api/syntara/export.js:71 | only double-quoted sources are extracted: HTML without `"` has no matches |
| LoExport.AltOf | backend/api/syntara/export.js:78-79 | the existing alt text never contains `"` |
| LoExport.ProjectDir | backend/api/syntara/export.js:85-88 | `split("/").slice(0, -1).join("/")`: everything before the last `/`, or `""` when there is none |
| LoExport.ProjectDirOfFile | backend/api/syntara/export.js:85-89 | the directory of `dir/file` is `dir` |
| LoExport.DescribeImage | backend/api/syntara/export.js:76-159 | a non-empty existing alt text wins over the vision result and over both placeholders; image data is present exactly when the vision call succeeded |
| LoExport.UniqueByUrl | backend/api/syntara/export.js:163-168 | exactly the entries at the first index of their URL, in their original order: distinct URLs, the same set of URLs, only input images |
| LoExport.UniqueKeepsFirsts | backend/api/syntara/export.js:163-168 | every kept image is the first with its URL |
| LoExport.UniqueKeepsEveryFirst | backend/api/syntara/export.js:163-168 | every first occurrence is kept |
| LoExport.UniqueKeepsDistinct | backend/api/syntara/export.js:163-168 | a list with distinct URLs is kept as it is |
| LoExport.UniqueIdempotent | backend/api/syntara/export.js:163-168 | de-duplicating twice is de-duplicating once |
| LoExport.DocumentKey | backend/api/syntara/export.js:52-53 | the key is the URL's path minus its first character; an unparsable URL throws `Invalid URL` |
| LoExport.DescribeDocument | backend/api/syntara/export.js:69-168 | the images have distinct non-empty URLs; every extracted source is listed, and every entry is the description of the first tag with its source |
| LoExport.ExportLo | backend/api/syntara/export.js:50-188 | a nullish LO is rejected with the read error; otherwise the report carries the LO's id and name; it succeeds exactly when the key parses and the document exists, with that document's described images, and otherwise reports `Invalid URL` or the missing-key message |
| LoExport.ErrorText | backend/api/syntara/export.js:213 | the error's message, or the default when it is empty: never empty |
| LoExport.HandleExport | backend/api/syntara/export.js:24-215 | `OPTIONS` is a preflight; other verbs but `POST` get 405; a missing project id or an empty LO list is a 500; a `POST` is exported exactly when the body is present, the project id truthy and the LO list a non-empty array; an export has one report per LO, and successes plus failures equal the total |
| LoExport.ExportAll | backend/api/syntara/export.js:49-189 | one report per LO, in order |
| LoExport.StatsOf | backend/api/syntara/export.js:192-199 | the total is the number of LOs; successes plus failures equal the total |
| ProjectList.Status | backend/api/syntarax/projects.js:19-57 | 200 exactly for a list and 405 exactly for a wrong method |
| ProjectList.ProjectOf | backend/api/syntarax/projects.js:42-49 | the id is the name, the path is the prefix, the name is no longer than the prefix, and a prefix without `/` is its own name |
| ProjectList.FolderName | backend/api/syntarax/projects.js:43 | the prefix `dev/<n>/` gives the name `n` |
| ProjectList.ProjectsOf | backend/api/syntarax/projects.js:42-49 | one project per prefix, in order |
| ProjectList.SortedProjects | backend/api/syntarax/projects.js:42-51 | sorted by name, a permutation of the named projects, and exactly the projects with non-empty names |
| ProjectList.ListProjects | backend/api/syntarax/projects.js:19-57 | 405 exactly for a non-`GET` request; 500 exactly when the listing fails or has no prefixes; otherwise the sorted projects |
| ProjectList.ListedFolders | backend/api/syntarax/projects.js:42-53 | the names listed for folders `dev/<n>/` are exactly the non-empty folder names |
| ErrorResponses.NewAppError | backend/middleware/errorHandler.js:1-10 | the message is `String(message)`, a string message kept as is, and `""` for an undefined one; `status` is `fail` exactly when the code's text starts with `4`, else `error`; `isOperational` is true |
| ErrorResponses.FailByLeadingDigit | backend/middleware/errorHandler.js:5 | for a non-negative code, `fail` exactly when its first digit is 4 |
| ErrorResponses.FailForClientCodes | backend/middleware/errorHandler.js:5 | among three-digit codes exactly the 4xx ones are `fail`; negative codes are `error` |
| ErrorResponses.EffectiveCode | backend/middleware/errorHandler.js:13 | a falsy code defaults to 500 |
| ErrorResponses.EffectiveStatus | backend/middleware/errorHandler.js:14 | a falsy status defaults to `error` |
| ErrorResponses.HandleError | backend/middleware/errorHandler.js:12-64 | the table in order (validation 400, file size 400, missing resource 404, then the error's own code); the stack is shown only in development; production hides non-operational messages; no body reports success |
| ErrorResponses.AppErrorAnswered | backend/middleware/errorHandler.js:1-63 | an `AppError` with a non-zero code is answered with that code and its message as text in either environment, `""` when the message was undefined |
| ImportCheck.Extension | frontend/js/modules/ImportHandler.js:28-29 | the lower-cased name's text after its last `.`, or the whole name when it has none |
| ImportCheck.ExtensionOfDotted | frontend/js/modules/ImportHandler.js:28-29 | `base.ext` has extension `ext`, lower-cased |
| ImportCheck.ValidateFile | frontend/js/modules/ImportHandler.js:15-39 | the checks run in order (presence, size, type), each with its message; it passes exactly when all three hold |
| ImportCheck.DottedUploads | frontend/js/modules/ImportHandler.js:28-36 | a file of allowed size passes exactly when its extension, in any case, is `xlsx` or `json` |
| ImportCheck.SizeBoundary | frontend/js/modules/ImportHandler.js:22-25 | exactly 50 MB passes and one byte more is refused |
| ImportCheck.BareTypeName | frontend/js/modules/ImportHandler.js:28-36 | a file named `json` with no dot passes |
| ImportCheck.LastExtensionCounts | frontend/js/modules/ImportHandler.js:29 | `book.xlsx.zip` is refused |

## Left out

- **Clocks and dates.** The clocks and dates are left out: `standardizeDate`, the `generatedDate` fields, `isValidDate`, error timestamps and `toISOString`. Clock readings are integer parameters of `ErrorCollection.StartProcessing` and `ErrorCollection.EndProcessing`.
- **Storage, vision and I/O.**
  - Storage is a map with per-key fetch and save failures: `FileUpdate.Store`, and `LoExport.Env`.
  - `new URL(...).pathname` is an abstract partial function, as are the vision service's results per image key.
  - Response bodies, base64 encoding and MIME types are left out.
  - Reading the uploaded file in `processFile` is left out: it receives the worksheet, or `None` when the workbook cannot be loaded.
- **Foreign parsing.** `JSON.parse` is the input of `JsonParser.ParseJsonFile`. ExcelJS cell reads are a cell function. A hyperlink cell is an object whose `text` property `ExcelParser.LinkValue` reads; rich-text and formula cell objects are not modelled beyond their `String()` form.
- **Concurrency.** `Promise.all` and `Promise.allSettled` are modelled as sequential maps, since only the collected results matter.
- **HTTP plumbing.** CORS headers, logging, UI and DOM code, and the streamed import events of the browser module are left out.
- **Comparator.** `localeCompare` is an abstract total preorder on names.
- ProjectList.SortedProjects: it promises the order by name and the set of projects, but not the stability of `Array.prototype.sort`. In the code two projects whose names compare equal keep their listing order; the model does not say which comes first.
- **String conversion.** `JsValue.ToStr` prints every object as `[object Object]`; an own or inherited `toString` is not modelled, and symbols are not values of the model.
- **Case mapping.** `JsString.ToLower` maps ASCII letters only; Unicode case mapping is left out.
- **Numbers.** Numbers are integers. Fractions and `NaN` are left out, as are number-to-string conversions beyond decimal integers.
- **Error objects.**
  - `errorHandler` writes the defaults back into the error object; only the response is modelled.
  - The stack is an opaque value.
- **Storage prefixes.** A storage `CommonPrefixes` entry is modelled by its `Prefix` string.
- HtmlPatch.UpdateHtmlContent: the tag pattern is matched with the path taken literally, and patching never fails. In the code the path is spliced unescaped into `new RegExp` (fileUpdateService.js line 101). A `.` then matches any character. Parentheses and `+` change the pattern, so a path such as `photo(1).png` or `a+b.png` does not match its own text and its tag is left alone. An unbalanced `(`, `)` or `[` makes the constructor throw, and the loop's `catch` reports that LO as failed, which `FileUpdate.UpdateLo` never does for a patching step.
- HtmlPatch.MatchLength: a match ends at the first `>` after `<img`, so a path that contains `>` never matches. In the code the literal path sits between the two `[^>]*` runs of the pattern (fileUpdateService.js line 101), so `<img src="a>b">` does match the path `a>b` and its tag is replaced.
- HtmlPatch.Replacement: `$` patterns in the replacement string are not interpreted.
- Standardization.StandardizeGradeLevel: a key that names an inherited property of the alias table is not modelled. In the code the lookup then finds an inherited function.
- FileUpdate.UpdateFiles: when a grouping title names an inherited property, the model takes it as the throw that `push` causes. Other prototype effects are not modelled.
- ErrorCollection.ProcessingTime: it computes the exact quotient. The code's floating-point division is not modelled.

## Notes on the code as written

- **No figures in the update step.** The update step replaces whole `<img>` tags with a
  fixed shape and produces no `figure`, `figcaption` or per-image counters.
  `updateSummary.imageResults` in `processFile` is therefore always `undefined`, and the
  model carries no such field.
- **Every fetched document is saved back**, whether or not any tag changed.
- **`updateFiles` ignores `projectPath`.** It reads only `relativeLink`, so
  `FileProcessing.ProjectPath` is computed and handed over but never used.
- **Standardised alias grades fail validation.** The standardiser turns `k` and `pk`
  into `Kindergarten` and `Pre-K`, and the validator then rejects those labels
  (`Validation.AliasLabelsRejected`). An upload with such a grade is therefore always
  rejected.
- **The export's `!src` branch cannot happen.** The `img` pattern requires a non-empty
  source, so that branch never runs.

=== FILE: error_collection.dfy ===
/** The error collector (backend/services/errorCollectionService.js): four buckets of
    errors and a set of counters describing one import. The collector is a value here;
    each operation returns the updated collector. Clock readings are parameters. */
module ErrorCollection {
  import opened Results
  import opened JsValue
  import PropertyOrder

  /** One recorded error (its timestamp is not modelled). */
  datatype ErrorEntry = ErrorEntry(message: string, details: Value, stackTrace: Value)

  datatype Collector = Collector(
    critical: seq<ErrorEntry>,
    validation: seq<ErrorEntry>,
    warning: seq<ErrorEntry>,
    info: seq<ErrorEntry>,
    startTime: Option<int>,   // milliseconds
    endTime: Option<int>,
    totalProcessed: nat,
    successCount: nat,
    failureCount: nat)
  {
    /** The counters agree with the buckets: every critical or validation error was one
        failure, and every processed item was a success. */
    predicate Valid() {
      failureCount == |critical| + |validation| && totalProcessed == successCount
    }
  }

  /** The four buckets, in the order they were created. */
  datatype Kind = Critical | Validation | Warning | Info

  function KindName(k: Kind): string {
    match k
    case Critical => "critical"
    case Validation => "validation"
    case Warning => "warning"
    case Info => "info"
  }

  /** The bucket a string names, if any. */
  function KindNamed(name: string): (r: Option<Kind>)
    ensures r.Some? ==> KindName(r.value) == name
    ensures r.None? ==> forall k: Kind :: KindName(k) != name
  {
    if name == "critical" then Some(Critical)
    else if name == "validation" then Some(Validation)
    else if name == "warning" then Some(Warning)
    else if name == "info" then Some(Info)
    else None
  }

  /** Each bucket is found again under its own name. */
  lemma KindNameRoundTrip(k: Kind)
    ensures KindNamed(KindName(k)) == Some(k)
  {
    match k
    case Critical =>
    case Validation => assert |KindName(k)| == 10;
    case Warning => assert |KindName(k)| == 7;
    case Info => assert |KindName(k)| == 4;
  }

  /** The position of a bucket among the four. */
  function Rank(k: Kind): nat {
    match k
    case Critical => 0
    case Validation => 1
    case Warning => 2
    case Info => 3
  }

  function Bucket(c: Collector, k: Kind): seq<ErrorEntry> {
    match k
    case Critical => c.critical
    case Validation => c.validation
    case Warning => c.warning
    case Info => c.info
  }

  /** Errors of these kinds count as failures. */
  predicate IsFailureKind(k: Kind) {
    k == Critical || k == Validation
  }

  /** A collector with empty buckets and zero counters. */
  function NewCollector(): (c: Collector)
    ensures c.Valid()
    ensures forall k: Kind :: Bucket(c, k) == []
    ensures c.startTime.None? && c.endTime.None?
  {
    Collector([], [], [], [], None, None, 0, 0, 0)
  }

  /** `startProcessing`: records the start; a processing time exists from then on exactly
      when the end was recorded too. Nothing else changes. */
  function StartProcessing(c: Collector, now: int): (r: Collector)
    ensures r.startTime == Some(now)
    ensures ProcessingTime(r).Some? <==> c.endTime.Some?
    ensures r.(startTime := c.startTime) == c
  {
    c.(startTime := Some(now))
  }

  /** `endProcessing`: records the end; after a start, the processing time is the
      difference of the two readings. Nothing else changes. */
  function EndProcessing(c: Collector, now: int): (r: Collector)
    ensures r.endTime == Some(now)
    ensures ProcessingTime(r).Some? <==> c.startTime.Some?
    ensures c.startTime.Some? ==> ProcessingTime(r).value * 1000.0 == (now - c.startTime.value) as real
    ensures r.(endTime := c.endTime) == c
  {
    c.(endTime := Some(now))
  }

  /** `details?.stack || null`. */
  function StackOf(details: Value): (r: Value)
    ensures IsNullish(details) ==> r == Null
    ensures r == Null || (r == Get(details, "stack") && Truthy(r))
  {
    if IsNullish(details) then Null
    else
      var stack := Get(details, "stack");
      if Truthy(stack) then stack else Null
  }

  /** `details = null`: a default parameter replaces an omitted (`undefined`) argument
      and keeps every other value. */
  function DetailsOrNull(details: Value): (r: Value)
    ensures r != Undefined
    ensures details != Undefined ==> r == details
  {
    if details == Undefined then Null else details
  }

  /** `addError`: the entry is appended to the bucket named `kind`, and a critical or
      validation error counts as a failure. An unknown kind records nothing; a kind that
      names a property every object inherits finds a function instead of a bucket, and the
      `push` call throws. */
  function AddError(c: Collector, kind: string, message: string, details: Value): (r: Result<(Collector, ErrorEntry)>)
    ensures r.Fail? <==> kind in PropertyOrder.InheritedNames
    ensures r.Ok? ==> r.value.1 == ErrorEntry(message, DetailsOrNull(details), StackOf(details))
    ensures r.Ok? ==> r.value.1.details != Undefined && r.value.1.stackTrace != Undefined
    ensures r.Ok? && KindNamed(kind).None? ==> r.value.0 == c
    ensures r.Ok? && KindNamed(kind).Some? ==>
      var k := KindNamed(kind).value;
      && Bucket(r.value.0, k) == Bucket(c, k) + [r.value.1]
      && (forall other: Kind :: other != k ==> Bucket(r.value.0, other) == Bucket(c, other))
      && r.value.0.failureCount == c.failureCount + (if IsFailureKind(k) then 1 else 0)
      && r.value.0.totalProcessed == c.totalProcessed && r.value.0.successCount == c.successCount
      && r.value.0.startTime == c.startTime && r.value.0.endTime == c.endTime
  {
    var entry := ErrorEntry(message, DetailsOrNull(details), StackOf(details));
    if kind == "critical" then Ok((c.(critical := c.critical + [entry], failureCount := c.failureCount + 1), entry))
    else if kind == "validation" then Ok((c.(validation := c.validation + [entry], failureCount := c.failureCount + 1), entry))
    else if kind == "warning" then Ok((c.(warning := c.warning + [entry]), entry))
    else if kind == "info" then Ok((c.(info := c.info + [entry]), entry))
    else if kind in PropertyOrder.InheritedNames then Fail(NotAFunction("this.errors[type].push"))
    else Ok((c, entry))
  }

  /** `incrementSuccess`. */
  function IncrementSuccess(c: Collector): (r: Collector)
    ensures r.successCount == c.successCount + 1 && r.totalProcessed == c.totalProcessed + 1
    ensures r.(successCount := c.successCount, totalProcessed := c.totalProcessed) == c
  {
    c.(successCount := c.successCount + 1, totalProcessed := c.totalProcessed + 1)
  }

  /** `getProcessingTime`: the seconds between the two clock readings, once both exist. */
  function ProcessingTime(c: Collector): (r: Option<real>)
    ensures r.Some? <==> c.startTime.Some? && c.endTime.Some?
    ensures r.Some? ==> r.value * 1000.0 == (c.endTime.value - c.startTime.value) as real
  {
    if c.startTime.None? || c.endTime.None? then None
    else Some((c.endTime.value - c.startTime.value) as real / 1000.0)
  }

  /** `hasErrors`: a critical or a validation error was recorded. */
  function HasErrors(c: Collector): (r: bool)
    ensures r <==> c.critical != [] || c.validation != []
  {
    |c.critical| > 0 || |c.validation| > 0
  }

  /** A well-formed collector has errors exactly when it counted a failure. */
  lemma HasErrorsIffFailures(c: Collector)
    requires c.Valid()
    ensures HasErrors(c) <==> c.failureCount > 0
  {
  }

  /** `clear`: back to the state of a new collector. */
  function Clear(c: Collector): (r: Collector)
    ensures r.Valid() && !HasErrors(r)
    ensures r == NewCollector()
  {
    NewCollector()
  }

  // ---------------------------------------------------------------------------
  // Reports

  /** An error as reported: the stack trace is only shown in development. */
  datatype FormattedError = FormattedError(message: string, details: Value, stackTrace: Value)

  function FormatEntry(e: ErrorEntry, development: bool): (r: FormattedError)
    ensures r.message == e.message && r.details == e.details
    ensures r.stackTrace == if development then e.stackTrace else Undefined
  {
    FormattedError(e.message, e.details, if development then e.stackTrace else Undefined)
  }

  function FormatBucket(entries: seq<ErrorEntry>, development: bool): (r: seq<FormattedError>)
    ensures |r| == |entries|
    ensures forall i :: 0 <= i < |entries| ==> r[i] == FormatEntry(entries[i], development)
  {
    seq(|entries|, i requires 0 <= i < |entries| => FormatEntry(entries[i], development))
  }

  function KindOfRank(n: nat): (k: Kind)
    requires n < 4
    ensures Rank(k) == n
  {
    if n == 0 then Critical else if n == 1 then Validation else if n == 2 then Warning else Info
  }

  /** The kinds of rank `n` or more whose bucket holds an error, in bucket order. */
  function KindsFrom(c: Collector, n: nat): (ks: seq<Kind>)
    ensures forall k :: k in ks <==> Bucket(c, k) != [] && Rank(k) >= n
    ensures forall i, j :: 0 <= i < j < |ks| ==> Rank(ks[i]) < Rank(ks[j])
    decreases 4 - n
  {
    if n >= 4 then []
    else
      var k := KindOfRank(n);
      var rest := KindsFrom(c, n + 1);
      if Bucket(c, k) == [] then rest
      else
        assert forall i :: 0 <= i < |rest| ==> Rank(k) < Rank(rest[i]) by {
          forall i | 0 <= i < |rest| ensures Rank(k) < Rank(rest[i]) {
            assert rest[i] in rest;
          }
        }
        [k] + rest
  }

  /** `formatErrors`: the non-empty buckets, in bucket order, each with its errors
      formatted in the order they were added. */
  function FormatErrors(c: Collector, development: bool): (r: seq<(string, seq<FormattedError>)>)
    ensures forall i :: 0 <= i < |r| ==>
      (KindNamed(r[i].0).Some? && r[i].1 == FormatBucket(Bucket(c, KindNamed(r[i].0).value), development))
    ensures forall i, j :: 0 <= i < j < |r| ==> Rank(KindNamed(r[i].0).value) < Rank(KindNamed(r[j].0).value)
  {
    var ks := KindsFrom(c, 0);
    forall k: Kind ensures KindNamed(KindName(k)) == Some(k) {
      KindNameRoundTrip(k);
    }
    seq(|ks|, i requires 0 <= i < |ks| => (KindName(ks[i]), FormatBucket(Bucket(c, ks[i]), development)))
  }

  /** A bucket is in the report exactly when it holds an error. */
  lemma ReportedIff(c: Collector, development: bool, k: Kind)
    ensures Reported(FormatErrors(c, development), k) <==> Bucket(c, k) != []
  {
    var ks := KindsFrom(c, 0);
    var r := FormatErrors(c, development);
    if Bucket(c, k) != [] {
      assert k in ks;
      var i :| 0 <= i < |ks| && ks[i] == k;
      assert r[i].0 == KindName(k);
    }
    if Reported(r, k) {
      var i :| 0 <= i < |r| && r[i].0 == KindName(k);
      KindNameRoundTrip(ks[i]);
      KindNameRoundTrip(k);
    }
  }

  /** The report lists bucket `k`. */
  predicate Reported(r: seq<(string, seq<FormattedError>)>, k: Kind) {
    exists i :: 0 <= i < |r| && r[i].0 == KindName(k)
  }

  datatype ErrorCounts = ErrorCounts(critical: nat, validation: nat, warning: nat, info: nat)

  datatype Summary = Summary(
    processingTime: Option<real>,
    totalProcessed: nat,
    successCount: nat,
    failureCount: nat,
    errorCounts: ErrorCounts,
    errors: seq<(string, seq<FormattedError>)>)

  /** `getErrorSummary`. */
  function ErrorSummary(c: Collector, development: bool): (r: Summary)
    ensures r.errorCounts == ErrorCounts(|c.critical|, |c.validation|, |c.warning|, |c.info|)
    ensures c.Valid() ==> r.failureCount == r.errorCounts.critical + r.errorCounts.validation
    ensures r.errors == FormatErrors(c, development)
    ensures r.processingTime == ProcessingTime(c)
    ensures r.totalProcessed == c.totalProcessed && r.successCount == c.successCount
    ensures r.failureCount == c.failureCount
  {
    Summary(ProcessingTime(c), c.totalProcessed, c.successCount, c.failureCount,
      ErrorCounts(|c.critical|, |c.validation|, |c.warning|, |c.info|), FormatErrors(c, development))
  }

  // ---------------------------------------------------------------------------
  // Sessions

  /** One call on the collector. */
  datatype Op =
    | Start(now: int)
    | End(now: int)
    | Add(kind: string, message: string, details: Value)
    | Success
    | Reset

  function Step(c: Collector, op: Op): Result<Collector> {
    match op
    case Start(now) => Ok(StartProcessing(c, now))
    case End(now) => Ok(EndProcessing(c, now))
    case Add(kind, message, details) =>
      var added :- AddError(c, kind, message, details);
      Ok(added.0)
    case Success => Ok(IncrementSuccess(c))
    case Reset => Ok(Clear(c))
  }

  /** A sequence of calls; the first that throws ends the session. */
  function Run(c: Collector, ops: seq<Op>): Result<Collector>
    decreases |ops|
  {
    if ops == [] then Ok(c)
    else
      var next :- Step(c, ops[0]);
      Run(next, ops[1..])
  }

  /** Every call keeps the counters in agreement with the buckets. */
  lemma StepKeepsValid(c: Collector, op: Op)
    requires c.Valid() && Step(c, op).Ok?
    ensures Step(c, op).value.Valid()
  {
    if op.Add? && KindNamed(op.kind).Some? {
      var r := AddError(c, op.kind, op.message, op.details).value.0;
      assert Bucket(r, Critical) == r.critical && Bucket(c, Critical) == c.critical;
      assert Bucket(r, Validation) == r.validation && Bucket(c, Validation) == c.validation;
    }
  }

  /** Any session that does not throw keeps the counters in agreement with the buckets. */
  lemma {:induction false} RunKeepsValid(c: Collector, ops: seq<Op>)
    requires c.Valid() && Run(c, ops).Ok?
    ensures Run(c, ops).value.Valid()
    decreases |ops|
  {
    if ops != [] {
      StepKeepsValid(c, ops[0]);
      RunKeepsValid(Step(c, ops[0]).value, ops[1..]);
    }
  }

  /** A session that only records successes and errors of the known kinds never throws,
      and its failure count is the number of critical and validation errors it added. */
  lemma {:induction false} KnownKindsCount(c: Collector, ops: seq<Op>)
    requires forall i :: 0 <= i < |ops| ==> ops[i].Success? || (ops[i].Add? && KindNamed(ops[i].kind).Some?)
    ensures Run(c, ops).Ok?
    ensures Run(c, ops).value.failureCount == c.failureCount + FailureOps(ops)
    decreases |ops|
  {
    if ops != [] {
      KnownKindsCount(Step(c, ops[0]).value, ops[1..]);
    }
  }

  function FailureOps(ops: seq<Op>): nat {
    if ops == [] then 0
    else (if ops[0].Add? && ops[0].kind in {"critical", "validation"} then 1 else 0) + FailureOps(ops[1..])
  }
}

=== FILE: error_responses.dfy ===
/** The Express error middleware of backend/middleware/errorHandler.js: the `AppError`
    class and the table that turns any thrown error into a JSON response. Errors are
    loose JavaScript objects, so every property the handler reads is a `Value`; whether
    the server runs in development is an input. */
module ErrorResponses {
  import opened Results
  import opened JsString
  import opened JsValue

  /** The properties of a thrown error the handler reads. `isOperational` is only set by
      `AppError`; `code` is set by the upload middleware. */
  datatype ErrorObject = ErrorObject(
    name: Value,
    message: Value,
    code: Value,
    statusCode: Value,
    status: Value,
    stack: Value,
    isOperational: Value)

  /** A JSON error body. `details`, `stack` and `status` are present only in some rows of
      the table. */
  datatype Body = Body(success: bool, error: Value, details: Option<Value>, stack: Option<Value>, status: Option<Value>)

  datatype Response = Response(statusCode: Value, body: Body)

  const ValidationName := "ValidationError"
  const FileSizeCode := "LIMIT_FILE_SIZE"
  const MissingKeyName := "NoSuchKey"
  const MissingBucketName := "NoSuchBucket"
  const DefaultStatusCode := 500
  const InternalError := "Internal server error"

  // ---------------------------------------------------------------------------
  // AppError

  /** The first decimal digit of `n`. */
  function LeadingDigit(n: nat): (d: nat)
    ensures d < 10
    ensures n > 0 ==> d > 0
    decreases n
  {
    if n < 10 then n else LeadingDigit(n / 10)
  }

  /** `new AppError(message, statusCode)`: the name stays the inherited `"Error"`, the
      status is `"fail"` when the code's text begins with `4` and `"error"` otherwise, and
      the error is marked operational. `super(message)` stores `String(message)`; an
      undefined message stores nothing, and the inherited `""` is read instead. */
  function NewAppError(message: Value, statusCode: Value, stack: Value): (e: ErrorObject)
    ensures e.name == Str("Error") && e.statusCode == statusCode
    ensures e.message.Str?
    ensures message == Undefined ==> e.message == Str("")
    ensures message != Undefined ==> e.message == Str(ToStr(message))
    ensures message.Str? ==> e.message == message
    ensures e.code == Undefined && e.stack == stack
    ensures e.status == Str("fail") || e.status == Str("error")
    ensures e.status == Str("fail") <==> StartsWith(ToStr(statusCode), "4")
    ensures e.isOperational == Bool(true)
  {
    var status := if StartsWith(ToStr(statusCode), "4") then "fail" else "error";
    var text := if message == Undefined then "" else ToStr(message);
    ErrorObject(Str("Error"), Str(text), Undefined, statusCode, Str(status), stack, Bool(true))
  }

  lemma {:induction false} LeadingDigitText(n: nat)
    ensures NatText(n)[0] == DigitChar(LeadingDigit(n))
    decreases n
  {
    if n >= 10 {
      LeadingDigitText(n / 10);
      assert NatText(n)[0] == NatText(n / 10)[0];
    }
  }

  /** For a non-negative numeric code the status is `"fail"` exactly when the code's
      first digit is 4 (so 40 and 4000 count as client errors too). */
  lemma FailByLeadingDigit(message: Value, n: nat, stack: Value)
    ensures NewAppError(message, Num(n), stack).status == Str("fail") <==> LeadingDigit(n) == 4
  {
    var text := ToStr(Num(n));
    assert text == NatText(n);
    LeadingDigitText(n);
    assert StartsWith(text, "4") <==> text[0] == '4' by {
      assert text[..1] == [text[0]];
    }
  }

  /** Among the three-digit HTTP codes exactly the 4xx ones make a `"fail"`; a negative
      code's text begins with `-` and makes an `"error"`. */
  lemma FailForClientCodes(message: Value, n: int, stack: Value)
    ensures 100 <= n < 1000 ==> (NewAppError(message, Num(n), stack).status == Str("fail") <==> 400 <= n < 500)
    ensures n < 0 ==> NewAppError(message, Num(n), stack).status == Str("error")
  {
    if 100 <= n < 1000 {
      FailByLeadingDigit(message, n, stack);
      assert LeadingDigit(n) == LeadingDigit(n / 10) == LeadingDigit(n / 100) == n / 100;
    }
    if n < 0 {
      var text := ToStr(Num(n));
      assert text[..1] == "-";
    }
  }

  // ---------------------------------------------------------------------------
  // The response table

  /** `err.statusCode || 500`. */
  function EffectiveCode(err: ErrorObject): (c: Value)
    ensures Truthy(c)
    ensures Truthy(err.statusCode) ==> c == err.statusCode
  {
    if Truthy(err.statusCode) then err.statusCode else Num(DefaultStatusCode)
  }

  /** `err.status || "error"`. */
  function EffectiveStatus(err: ErrorObject): (s: Value)
    ensures Truthy(s)
    ensures Truthy(err.status) ==> s == err.status
  {
    if Truthy(err.status) then err.status else Str("error")
  }

  /** The error is one the storage client raises for a missing object or bucket. */
  predicate IsMissingResource(err: ErrorObject) {
    err.name == Str(MissingKeyName) || err.name == Str(MissingBucketName)
  }

  /** `errorHandler`: validation errors and oversized uploads are 400s, missing storage
      resources are 404s (in that order of precedence); anything else keeps its own code
      (500 when it has none) and shows its stack only in development, and in production
      its message only when it is operational. No body reports success. */
  function HandleError(err: ErrorObject, development: bool): (r: Response)
    ensures !r.body.success
    ensures err.name == Str(ValidationName) ==>
      r == Response(Num(400), Body(false, Str("Validation Error"), Some(err.message), None, None))
    ensures err.name != Str(ValidationName) && err.code == Str(FileSizeCode) ==>
      r == Response(Num(400), Body(false, Str("File size limit exceeded"), Some(Str("Maximum file size is 50MB")), None, None))
    ensures err.name != Str(ValidationName) && err.code != Str(FileSizeCode) && IsMissingResource(err) ==>
      r == Response(Num(404), Body(false, Str("Resource not found"), Some(err.message), None, None))
    ensures err.name != Str(ValidationName) && err.code != Str(FileSizeCode) && !IsMissingResource(err) ==>
      && r.statusCode == EffectiveCode(err)
      && r.body.details.None?
      && (r.body.stack.Some? <==> development)
      && (development ==> r.body.stack == Some(err.stack) && r.body.status == Some(EffectiveStatus(err)) && r.body.error == err.message)
      && (!development ==> r.body.status.None? && r.body.error == if Truthy(err.isOperational) then err.message else Str(InternalError))
  {
    if err.name == Str(ValidationName) then
      Response(Num(400), Body(false, Str("Validation Error"), Some(err.message), None, None))
    else if err.code == Str(FileSizeCode) then
      Response(Num(400), Body(false, Str("File size limit exceeded"), Some(Str("Maximum file size is 50MB")), None, None))
    else if IsMissingResource(err) then
      Response(Num(404), Body(false, Str("Resource not found"), Some(err.message), None, None))
    else if development then
      Response(EffectiveCode(err), Body(false, err.message, None, Some(err.stack), Some(EffectiveStatus(err))))
    else
      Response(EffectiveCode(err), Body(false, if Truthy(err.isOperational) then err.message else Str(InternalError), None, None, None))
  }

  /** An `AppError` with a non-zero code that none of the special rows catch is answered
      with its own code and its message as text, in either environment (`""` for an
      undefined message); in development its `status` is the one the constructor derived
      from the code. */
  lemma AppErrorAnswered(message: Value, n: int, stack: Value, development: bool)
    requires n != 0
    ensures var e := NewAppError(message, Num(n), stack);
      var r := HandleError(e, development);
      && r.statusCode == Num(n)
      && r.body.error == e.message
      && (message == Undefined ==> r.body.error == Str(""))
      && (message != Undefined ==> r.body.error == Str(ToStr(message)))
      && (development ==> r.body.status == Some(e.status))
  {
  }
}

=== FILE: excel_parser.dfy ===
/** The worksheet reader of backend/services/excelParser.js (`parseExcelFile`). The
    workbook library is abstracted away: the first worksheet is a grid of cell values, and
    a workbook that cannot be loaded, or has no first worksheet, is `None`. */
module ExcelParser {
  import opened Results
  import opened JsString
  import opened JsValue
  import opened Sequences

  /** A worksheet: row `r` (counting from 1) is `rows[r - 1]`, column A is index 0.
      Every cell outside the grid is empty. */
  datatype Sheet = Sheet(rows: seq<seq<Value>>)

  /** `worksheet.getCell(...).value`: `null` for an empty cell. */
  function Cell(sheet: Sheet, col: nat, row: nat): (v: Value)
    ensures row == 0 || row > |sheet.rows| ==> v == Null
  {
    if 1 <= row <= |sheet.rows| && col < |sheet.rows[row - 1]| then sheet.rows[row - 1][col] else Null
  }

  const ColA := 0
  const ColB := 1
  const ColC := 2
  const ColD := 3
  const ColE := 4
  const ColF := 5
  const ColG := 6
  const ColH := 7

  /** The first data row; rows 1 to 3 hold the metadata and row 8 the headers. */
  const FirstDataRow := 9

  /** `cell.value?.toString() || ""`. */
  function CellText(v: Value): (r: string)
    ensures IsNullish(v) ==> r == ""
    ensures v.Str? ==> r == v.s
  {
    if IsNullish(v) then "" else ToStr(v)
  }

  /** One spreadsheet row as `parseExcelFile` reads it. */
  datatype ExcelRow = ExcelRow(
    loTitle: string,
    imageSource: string,
    generatedAltText: string,
    editedAltText: string,
    generatedVisualDescription: string,
    editedVisualDescription: string,
    needsVisualDescription: bool,
    isDecorative: bool)

  /** Columns A to F are read as text; G and H count only when they hold the boolean
      `true` itself. */
  function ReadRow(sheet: Sheet, row: nat): ExcelRow {
    ExcelRow(
      CellText(Cell(sheet, ColA, row)),
      CellText(Cell(sheet, ColB, row)),
      CellText(Cell(sheet, ColC, row)),
      CellText(Cell(sheet, ColD, row)),
      CellText(Cell(sheet, ColE, row)),
      CellText(Cell(sheet, ColF, row)),
      Cell(sheet, ColG, row) == Bool(true),
      Cell(sheet, ColH, row) == Bool(true))
  }

  /** A row's cells as the spreadsheet would hold a row read as `x`: text in columns A
      to F and booleans in G and H. */
  function RowCells(x: ExcelRow): seq<Value> {
    [Str(x.loTitle), Str(x.imageSource), Str(x.generatedAltText), Str(x.editedAltText),
     Str(x.generatedVisualDescription), Str(x.editedVisualDescription),
     Bool(x.needsVisualDescription), Bool(x.isDecorative)]
  }

  /** Reading back a row written as text and booleans gives the row itself. */
  lemma ReadRowRoundTrip(x: ExcelRow, above: seq<seq<Value>>)
    ensures ReadRow(Sheet(above + [RowCells(x)]), |above| + 1) == x
  {
    var sheet := Sheet(above + [RowCells(x)]);
    assert sheet.rows[|above|] == RowCells(x);
  }

  /** Which rows the filter keeps, by their cells: text in column D or F, or `true` in
      column H. A number in column D keeps the row even when it is 0, since its text is
      never empty; empty cells and a non-boolean H drop it. */
  lemma KeepCells(sheet: Sheet, row: nat)
    ensures var d, f, h := Cell(sheet, ColD, row), Cell(sheet, ColF, row), Cell(sheet, ColH, row);
      && ((d.Str? && d.s != "") || (f.Str? && f.s != "") || h == Bool(true) ==> Keep(ReadRow(sheet, row)))
      && (d.Num? || f.Num? ==> Keep(ReadRow(sheet, row)))
      && ((IsNullish(d) || d == Str("")) && (IsNullish(f) || f == Str("")) && h != Bool(true) ==> !Keep(ReadRow(sheet, row)))
  {
  }

  /** A cell holding text or a number that merely looks true does not make a row
      decorative, although the standardizer would read the same text as true. */
  lemma OnlyBooleanTrue(sheet: Sheet, row: nat)
    requires Cell(sheet, ColH, row) in {Str("true"), Str("TRUE"), Num(1)}
    ensures !ReadRow(sheet, row).isDecorative
  {
  }

  /** Row `n` has a non-empty column A and reads as `x`. */
  ghost predicate RowReadAt(sheet: Sheet, n: nat, x: ExcelRow) {
    Truthy(Cell(sheet, ColA, n)) && x == ReadRow(sheet, n)
  }

  /** `r` lists the rows of `sheet` from `row` on, each with a non-empty column A. */
  ghost predicate ReadFrom(sheet: Sheet, row: nat, r: seq<ExcelRow>) {
    forall i :: 0 <= i < |r| ==> RowReadAt(sheet, row + i, r[i])
  }

  lemma ReadFromCons(sheet: Sheet, row: nat, rest: seq<ExcelRow>)
    requires Truthy(Cell(sheet, ColA, row)) && ReadFrom(sheet, row + 1, rest)
    ensures ReadFrom(sheet, row, [ReadRow(sheet, row)] + rest)
  {
    var r := [ReadRow(sheet, row)] + rest;
    forall i | 0 <= i < |r| ensures RowReadAt(sheet, row + i, r[i]) {
      if i == 0 {
        assert r[0] == ReadRow(sheet, row);
      } else {
        assert r[i] == rest[i - 1];
        assert RowReadAt(sheet, row + 1 + (i - 1), rest[i - 1]);
        assert row + 1 + (i - 1) == row + i;
      }
    }
  }

  /** The rows from `row` down to the first whose column A is empty (falsy). */
  function ScanRows(sheet: Sheet, row: nat): (r: seq<ExcelRow>)
    ensures ReadFrom(sheet, row, r)
    ensures !Truthy(Cell(sheet, ColA, row + |r|))
    decreases |sheet.rows| + 1 - row
  {
    if !Truthy(Cell(sheet, ColA, row)) then []
    else
      var rest := ScanRows(sheet, row + 1);
      ReadFromCons(sheet, row, rest);
      [ReadRow(sheet, row)] + rest
  }

  /** The first `n` rows of a sheet. */
  function Truncate(sheet: Sheet, n: nat): Sheet
    requires n <= |sheet.rows|
  {
    Sheet(sheet.rows[..n])
  }

  /** Nothing below an empty column A is read: cutting the sheet at such a row changes
      nothing. */
  lemma {:induction false} GapEndsScan(sheet: Sheet, row: nat, gap: nat)
    requires 1 <= row <= gap <= |sheet.rows| + 1
    requires !Truthy(Cell(sheet, ColA, gap))
    ensures ScanRows(sheet, row) == ScanRows(Truncate(sheet, gap - 1), row)
    decreases gap - row
  {
    var cut := Truncate(sheet, gap - 1);
    if row == gap {
      assert Cell(cut, ColA, row) == Null;
    } else {
      TruncateKeepsRow(sheet, gap - 1, row);
      GapEndsScan(sheet, row + 1, gap);
      if Truthy(Cell(sheet, ColA, row)) {
        assert ScanRows(cut, row) == [ReadRow(cut, row)] + ScanRows(cut, row + 1);
      }
    }
  }

  /** A row above the cut reads the same in the cut sheet. */
  lemma TruncateKeepsRow(sheet: Sheet, n: nat, row: nat)
    requires 1 <= row <= n <= |sheet.rows|
    ensures Cell(Truncate(sheet, n), ColA, row) == Cell(sheet, ColA, row)
    ensures ReadRow(Truncate(sheet, n), row) == ReadRow(sheet, row)
  {
    assert Truncate(sheet, n).rows[row - 1] == sheet.rows[row - 1];
  }

  /** Rows worth importing: an edited alt text, the decorative flag, or an edited visual
      description. */
  predicate Keep(r: ExcelRow) {
    r.editedAltText != "" || r.isDecorative || r.editedVisualDescription != ""
  }

  // ---------------------------------------------------------------------------
  // Metadata

  /** The host a pasted link may start with. */
  const Host := "https://edwincontent.nelsontechdev.com"

  /** `linkCell.value?.text || linkCell.value?.toString() || ""`: a hyperlink cell gives
      its text, any other cell its string form. */
  function LinkValue(v: Value): (r: Value)
    ensures !Truthy(r) ==> r == Str("")
  {
    if IsNullish(v) then Str("")
    else
      var text := Get(v, "text");
      if Truthy(text) then text else Str(ToStr(v))
  }

  /** The link clean-up: the first occurrence of the host, then the first `@`, is
      removed, the rest trimmed, and a leading `/` added when missing. */
  function NormalizeLink(s: string): (r: string)
    requires s != ""
    ensures StartsWith(r, "/")
  {
    var t := Trim(ReplaceFirst(ReplaceFirst(s, Host, ""), "@", ""));
    if StartsWith(t, "/") then t else "/" + t
  }

  /** A link that is the host followed by a clean path becomes that path. */
  lemma HostLinkStripped(path: string)
    requires StartsWith(path, "/") && IsTrimmed(path) && '@' !in path
    ensures NormalizeLink(Host + path) == path
  {
    var s := Host + path;
    assert OccursAt(s, Host, 0) by {
      assert s[..|Host|] == Host;
    }
    assert IndexOf(s, Host) == Some(0);
    assert s[|Host|..] == path;
    assert ReplaceFirst(s, Host, "") == path by {
      assert s[..0] + "" + s[|Host|..] == path;
    }
    NoAt(path);
    TrimOfTrimmed(path);
  }

  /** The same with the `@` a spreadsheet link may carry in front. */
  lemma AtHostLinkStripped(path: string)
    requires StartsWith(path, "/") && IsTrimmed(path) && '@' !in path
    ensures NormalizeLink("@" + Host + path) == path
  {
    var s := "@" + Host + path;
    assert OccursAt(s, Host, 1) by {
      assert s[1..1 + |Host|] == Host;
    }
    assert !OccursAt(s, Host, 0) by {
      assert s[0] == '@' && Host[0] == 'h';
      assert s[..|Host|][0] == s[0];
    }
    assert IndexOf(s, Host) == Some(1);
    var u := "@" + path;
    assert ReplaceFirst(s, Host, "") == u by {
      assert s[..1] == "@";
      assert s[1 + |Host|..] == path;
    }
    assert OccursAt(u, "@", 0);
    assert ReplaceFirst(u, "@", "") == path by {
      assert u[1..] == path;
    }
    TrimOfTrimmed(path);
  }

  lemma NoAt(s: string)
    requires '@' !in s
    ensures ReplaceFirst(s, "@", "") == s
  {
    forall k | 0 <= k < |s| ensures !OccursAt(s, "@", k) {
      assert s[k] in s;
      assert s[k..k + 1][0] == s[k];
    }
    assert IndexOf(s, "@").None?;
  }

  /** The metadata `parseExcelFile` returns (its `generatedDate` is a clock reading and
      is not modelled). */
  datatype ExcelMetadata = ExcelMetadata(gradeLevel: string, relativeLink: string)

  /** `(B1.value || "6").toString()`. */
  function GradeText(v: Value): (r: string)
    ensures !Truthy(v) ==> r == "6"
    ensures v.Str? && v.s != "" ==> r == v.s
  {
    if Truthy(v) then ToStr(v) else "6"
  }

  /** The metadata block: grade level from B1, link from B2. A link whose text is not a
      string has no `replace` method, and the call throws. */
  function ReadMetadata(sheet: Sheet): (r: Result<ExcelMetadata>)
    ensures r.Ok? ==> r.value.gradeLevel == GradeText(Cell(sheet, ColB, 1))
    ensures r.Ok? ==> r.value.relativeLink == "" || StartsWith(r.value.relativeLink, "/")
    ensures r.Fail? <==> Truthy(LinkValue(Cell(sheet, ColB, 2))) && !LinkValue(Cell(sheet, ColB, 2)).Str?
  {
    var grade := GradeText(Cell(sheet, ColB, 1));
    var link := LinkValue(Cell(sheet, ColB, 2));
    if !Truthy(link) then Ok(ExcelMetadata(grade, ""))
    else if !link.Str? then Fail(NotAFunction("metadata.relativeLink.replace"))
    else Ok(ExcelMetadata(grade, NormalizeLink(link.s)))
  }

  // ---------------------------------------------------------------------------
  // The whole file

  const ParseFailure := "Failed to parse Excel file. Please ensure it matches the expected format."

  datatype ExcelResult =
    | ExcelParsed(metadata: ExcelMetadata, altTextData: seq<ExcelRow>, totalProcessed: nat)
    | ExcelFailed(error: string)

  /** `parseExcelFile`: every exception is caught and reported with one fixed message. */
  function ParseExcelFile(book: Option<Sheet>): (r: ExcelResult)
    ensures r.ExcelFailed? ==> r.error == ParseFailure
    ensures r.ExcelFailed? <==> book.None? || ReadMetadata(book.value).Fail?
    ensures r.ExcelParsed? ==> r.totalProcessed == |r.altTextData|
    ensures r.ExcelParsed? ==>
      && (forall i :: 0 <= i < |r.altTextData| ==> Keep(r.altTextData[i]))
      && (forall x :: x in ScanRows(book.value, FirstDataRow) && Keep(x) <==> x in r.altTextData)
      && r.metadata == ReadMetadata(book.value).value
  {
    match book
    case None => ExcelFailed(ParseFailure)
    case Some(sheet) =>
      match ReadMetadata(sheet)
      case Fail(_) => ExcelFailed(ParseFailure)
      case Ok(metadata) =>
        var rows := Filter(ScanRows(sheet, FirstDataRow), Keep);
        ExcelParsed(metadata, rows, |rows|)
  }

  /** The kept rows are the scanned rows that pass `Keep`, in sheet order. */
  lemma ParsedRowsInOrder(sheet: Sheet)
    requires ParseExcelFile(Some(sheet)).ExcelParsed?
    ensures ParseExcelFile(Some(sheet)).altTextData == Filter(ScanRows(sheet, FirstDataRow), Keep)
  {
  }

  /** An empty A9 means no rows at all, whatever the rest of the sheet holds. */
  lemma EmptyFirstRow(sheet: Sheet)
    requires !Truthy(Cell(sheet, ColA, FirstDataRow))
    requires ParseExcelFile(Some(sheet)).ExcelParsed?
    ensures ParseExcelFile(Some(sheet)).altTextData == []
  {
  }

  // ---------------------------------------------------------------------------
  // As a JavaScript object

  function RowValue(r: ExcelRow): Value {
    Obj(map[
      "loTitle" := Str(r.loTitle),
      "imageSource" := Str(r.imageSource),
      "generatedAltText" := Str(r.generatedAltText),
      "editedAltText" := Str(r.editedAltText),
      "generatedVisualDescription" := Str(r.generatedVisualDescription),
      "editedVisualDescription" := Str(r.editedVisualDescription),
      "needsVisualDescription" := Bool(r.needsVisualDescription),
      "isDecorative" := Bool(r.isDecorative)])
  }

  /** The object `parseExcelFile` resolves to. */
  function ResultValue(r: ExcelResult): (v: Value)
    ensures v.Obj? && "success" in v.fields && "metadata" in v.fields && "altTextData" in v.fields
    ensures v.fields["success"] == Bool(r.ExcelParsed?)
  {
    match r
    case ExcelParsed(m, rows, n) =>
      Obj(map[
        "success" := Bool(true),
        "metadata" := Obj(map["gradeLevel" := Str(m.gradeLevel), "relativeLink" := Str(m.relativeLink)]),
        "altTextData" := Arr(seq(|rows|, i requires 0 <= i < |rows| => RowValue(rows[i]))),
        "totalProcessed" := Num(n)])
    case ExcelFailed(e) =>
      Obj(map[
        "success" := Bool(false),
        "metadata" := Obj(map[]),
        "altTextData" := Arr([]),
        "error" := Str(e)])
  }
}

=== FILE: file_processing.dfy ===
/** The import pipeline of backend/services/fileProcessingService.js (`processFile`):
    parse the worksheet, standardise, validate, and hand the rows to the document
    updater. Reading the uploaded file from disk is abstracted away: the input is the
    workbook's first worksheet, or `None` when it cannot be loaded. */
module FileProcessing {
  import opened Results
  import opened JsString
  import opened JsValue
  import opened Standardization
  import opened Validation
  import ExcelParser
  import FileUpdate

  /** What `processFile` resolves to: an upload rejected before any document is touched,
      with the messages reported under `validation`, or one that reached the updater. */
  datatype Outcome =
    | Rejected(messages: seq<Violation>)
    | Completed(success: bool, metadata: StdMetadata, altTextData: seq<StdRecord>, totalProcessed: nat, update: FileUpdate.UpdateResults)

  /** The `errorSummary` of a rejection (timestamps are not modelled). */
  datatype ErrorSummary = ErrorSummary(
    processingTime: nat,
    totalProcessed: nat,
    successCount: nat,
    failureCount: nat,
    errorCounts: map<string, nat>,
    errors: map<string, seq<Violation>>)

  /** Every rejection is reported under the one category `validation`, with a count that
      matches its list of entries and nothing processed. */
  function RejectionSummary(messages: seq<Violation>): (s: ErrorSummary)
    ensures s.errorCounts.Keys == {"validation"} && s.errors.Keys == {"validation"}
    ensures s.failureCount == s.errorCounts["validation"] == |s.errors["validation"]|
    ensures s.errors["validation"] == messages
    ensures s.processingTime == 0 && s.totalProcessed == 0 && s.successCount == 0
  {
    ErrorSummary(0, 0, 0, |messages|, map["validation" := |messages|], map["validation" := messages])
  }

  /** The path fix-up before updating: an image source gains a leading `/` when it lacks
      one, and the title is trimmed. */
  function PrepareRecord(rec: StdRecord): (r: StdRecord)
    ensures StartsWith(r.imageSource, "/")
    ensures StartsWith(rec.imageSource, "/") ==> r.imageSource == rec.imageSource
    ensures !StartsWith(rec.imageSource, "/") ==> r.imageSource[1..] == rec.imageSource
    ensures IsTrimOf(r.loTitle, rec.loTitle)
    ensures r.generatedAltText == rec.generatedAltText && r.editedAltText == rec.editedAltText
    ensures r.isDecorative == rec.isDecorative
  {
    var source := if StartsWith(rec.imageSource, "/") then rec.imageSource else "/" + rec.imageSource;
    assert source[..1] == "/";
    rec.(imageSource := source, loTitle := Trim(rec.loTitle))
  }

  function PrepareRecords(recs: seq<StdRecord>): (r: seq<StdRecord>)
    ensures |r| == |recs| && forall i :: 0 <= i < |recs| ==> r[i] == PrepareRecord(recs[i])
  {
    seq(|recs|, i requires 0 <= i < |recs| => PrepareRecord(recs[i]))
  }

  /** A standardised row with an image source needs no fixing up. */
  lemma PrepareStandard(rec: StdRecord)
    requires IsStandardRecord(rec) && rec.imageSource != ""
    ensures PrepareRecord(rec) == rec
  {
    assert rec.imageSource[..1] == [rec.imageSource[0]];
    TrimOfTrimmed(rec.loTitle);
  }

  /** The `projectPath` handed to the updater next to the metadata: the link without its
      leading and trailing slashes. The updater never reads it. */
  function ProjectPath(relativeLink: string): (r: string)
    ensures r == [] || (r[0] != '/' && r[|r| - 1] != '/')
    ensures exists i :: SlashPaddedAt(r, relativeLink, i)
  {
    StripOuterSlashes(relativeLink)
  }

  /** For a standardised link the project path is the link without its leading `/`. */
  lemma CanonicalProjectPath(link: string)
    requires IsCanonicalPath(link) && link != ""
    ensures ProjectPath(link) == link[1..]
  {
    var a := DropLeadingSlashes(link);
    assert |link| > 1 ==> link[1] != '/';
    assert DropLeadingSlashes(link[1..]) == link[1..];
    assert a == link[1..];
    assert DropTrailingSlashes(a) == a;
  }

  /** The workbook as `parseExcelFile` resolves it, as a JavaScript object. */
  function ParsedValue(book: Option<ExcelParser.Sheet>): (v: Value)
    ensures IsSuccessfulParse(v) <==> ExcelParser.ParseExcelFile(book).ExcelParsed?
  {
    ExcelParser.ResultValue(ExcelParser.ParseExcelFile(book))
  }

  /** `processFile`. A `Fail` is an exception the pipeline re-throws; the store is the
      document bucket the updater reads and writes. */
  function ProcessFile(store: FileUpdate.Store, book: Option<ExcelParser.Sheet>): (r: Result<(FileUpdate.Store, Outcome)>)
    ensures ExcelParser.ParseExcelFile(book).ExcelFailed? ==> r == Ok((store, Rejected([Text(ExcelParser.ParseFailure)])))
    ensures r.Ok? && r.value.1.Rejected? ==> r.value.0 == store && r.value.1.messages != []
    ensures r.Ok? && r.value.1.Completed? ==>
      var o := r.value.1;
      && ExcelParser.ParseExcelFile(book).ExcelParsed?
      && StandardizeParts(ParsedValue(book)) == Ok((o.metadata, o.altTextData))
      && o.altTextData != [] && o.metadata.relativeLink != ""
      && (r.value.0, o.update) == FileUpdate.UpdateFiles(store, o.metadata.relativeLink, o.altTextData)
      && o.success == o.update.success && o.totalProcessed == o.update.filesProcessed
    ensures ExcelParser.ParseExcelFile(book).ExcelParsed? ==>
      var check := CheckUpload(ParsedValue(book));
      && (r.Fail? <==> check.Fail?)
      && (r.Ok? ==> (r.value.1.Rejected? <==> !check.value.valid))
      && (r.Ok? && r.value.1.Rejected? ==> r.value == (store, Rejected(check.value.errors)))
      && (check.Ok? && check.value.valid ==> r == Ok(CompleteUpload(store, ParsedValue(book))))
  {
    var data := ExcelParser.ParseExcelFile(book);
    if data.ExcelFailed? then Ok((store, Rejected([Text(data.error)])))
    else ProcessParsed(store, ParsedValue(book))
  }

  /** The upload once the workbook has been read: standardize, validate, then update. */
  function ProcessParsed(store: FileUpdate.Store, v: Value): (r: Result<(FileUpdate.Store, Outcome)>)
    requires IsSuccessfulParse(v)
    ensures r.Ok? && r.value.1.Rejected? ==> r.value.0 == store && r.value.1.messages != []
    ensures r.Ok? && r.value.1.Completed? ==>
      var o := r.value.1;
      && StandardizeParts(v) == Ok((o.metadata, o.altTextData))
      && o.altTextData != [] && o.metadata.relativeLink != ""
      && (r.value.0, o.update) == FileUpdate.UpdateFiles(store, o.metadata.relativeLink, o.altTextData)
      && o.success == o.update.success && o.totalProcessed == o.update.filesProcessed
    ensures r.Fail? <==> CheckUpload(v).Fail?
    ensures r.Ok? ==> (r.value.1.Rejected? <==> !CheckUpload(v).value.valid)
    ensures r.Ok? && r.value.1.Rejected? ==> r.value == (store, Rejected(CheckUpload(v).value.errors))
    ensures CheckUpload(v).Ok? && CheckUpload(v).value.valid ==> r == Ok(CompleteUpload(store, v))
  {
    var standardized :- StandardizeData(v);
    var validation :- ValidateData(standardized);
    if !validation.valid then Ok((store, Rejected(validation.errors)))
    else Ok(CompleteUpload(store, v))
  }

  /** The verdict on a parsed upload: standardise it, then validate the result. Either
      step may throw. */
  function CheckUpload(v: Value): (r: Result<ValidationResult>)
    ensures r.Fail? <==> StandardizeData(v).Fail? || ValidateData(StandardizeData(v).value).Fail?
    ensures r.Ok? ==> StandardizeData(v).Ok? && r == ValidateData(StandardizeData(v).value)
  {
    var standardized :- StandardizeData(v);
    ValidateData(standardized)
  }

  /** A validated upload: its rows, with their paths fixed up, go to the updater. */
  function CompleteUpload(store: FileUpdate.Store, v: Value): (r: (FileUpdate.Store, Outcome))
    requires IsSuccessfulParse(v) && StandardizeData(v).Ok?
    requires ValidateData(StandardizeData(v).value).Ok? && ValidateData(StandardizeData(v).value).value.valid
    ensures r.1.Completed?
    ensures StandardizeParts(v) == Ok((r.1.metadata, r.1.altTextData))
    ensures r.1.altTextData != [] && r.1.metadata.relativeLink != ""
    ensures (r.0, r.1.update) == FileUpdate.UpdateFiles(store, r.1.metadata.relativeLink, r.1.altTextData)
    ensures r.1.success == r.1.update.success && r.1.totalProcessed == r.1.update.filesProcessed
  {
    var parts := StandardizeParts(v).value;
    ValidatedUpload(v);
    PreparedUnchanged(parts.1);
    var updated := FileUpdate.UpdateFiles(store, parts.0.relativeLink, PrepareRecords(parts.1));
    (updated.0, Completed(updated.1.success, parts.0, parts.1, updated.1.filesProcessed, updated.1))
  }

  /** Rows that all have image sources pass the fix-up unchanged. */
  lemma PreparedUnchanged(recs: seq<StdRecord>)
    requires forall i :: 0 <= i < |recs| ==> IsStandardRecord(recs[i]) && recs[i].imageSource != ""
    ensures PrepareRecords(recs) == recs
  {
    forall i | 0 <= i < |recs| ensures PrepareRecord(recs[i]) == recs[i] {
      PrepareStandard(recs[i]);
    }
  }

  // ---------------------------------------------------------------------------
  // What passing validation guarantees

  /** Every outcome of an empty gathering is empty. */
  lemma {:induction false} GatherEmpty(outcomes: seq<Result<seq<string>>>)
    requires Gather(outcomes) == Ok([])
    ensures forall i :: 0 <= i < |outcomes| ==> outcomes[i] == Ok([])
    decreases |outcomes|
  {
    if outcomes != [] {
      var first, rest := outcomes[0].value, Gather(outcomes[1..]).value;
      assert first + rest == [];
      assert |first| == 0 && |rest| == 0;
      GatherEmpty(outcomes[1..]);
      forall i | 1 <= i < |outcomes| ensures outcomes[i] == Ok([]) {
        assert outcomes[i] == outcomes[1..][i - 1];
      }
    }
  }

  /** Standardised rows that draw no message all have an image source. */
  lemma SilentRowsHaveSources(recs: seq<StdRecord>)
    requires ValidateRows(RowsValue(recs).items, AltTextRules, 0) == Ok([])
    ensures forall i :: 0 <= i < |recs| ==> !AllSpace(recs[i].imageSource)
  {
    var items := RowsValue(recs).items;
    var outcomes := RowOutcomes(items, AltTextRules, 0);
    assert Gather(outcomes) == Ok([]);
    GatherEmpty(outcomes);
    forall i | 0 <= i < |recs| ensures !AllSpace(recs[i].imageSource) {
      StandardRowErrors(recs[i], RowLabel(i));
      assert outcomes[i] == ValidateSection(RecordValue(recs[i]), AltTextRules, RowLabel(0 + i));
    }
  }

  /** An upload that passes validation has a link and at least one row, and every row
      has an image source. */
  lemma ValidatedUpload(v: Value)
    requires IsSuccessfulParse(v) && StandardizeData(v).Ok?
    requires ValidateData(StandardizeData(v).value).Ok? && ValidateData(StandardizeData(v).value).value.valid
    ensures StandardizeParts(v).Ok?
    ensures var parts := StandardizeParts(v).value;
      && parts.0.relativeLink != "" && parts.1 != []
      && forall i :: 0 <= i < |parts.1| ==> IsStandardRecord(parts.1[i]) && parts.1[i].imageSource != ""
  {
    var std, m, recs := StandardSections(v);
    SilentUpload(std, m, recs);
    SilentParts(m, recs);
  }

  /** The standardised upload and the two sections it was built from. */
  lemma StandardSections(v: Value) returns (std: Value, m: StdMetadata, recs: seq<StdRecord>)
    requires IsSuccessfulParse(v) && StandardizeData(v).Ok?
    ensures std == StandardizeData(v).value && StandardizeParts(v) == Ok((m, recs))
    ensures std.Obj? && "metadata" in std.fields && "altTextData" in std.fields
    ensures std.fields["metadata"] == MetadataValue(m) && std.fields["altTextData"] == RowsValue(recs)
    ensures forall i :: 0 <= i < |recs| ==> IsStandardRecord(recs[i])
  {
    std := StandardizeData(v).value;
    m, recs := StandardizeParts(v).value.0, StandardizeParts(v).value.1;
    StandardizedSections(v);
  }

  /** A valid upload object drew no message from either section. */
  lemma SilentUpload(std: Value, m: StdMetadata, recs: seq<StdRecord>)
    requires std.Obj? && "metadata" in std.fields && "altTextData" in std.fields
    requires std.fields["metadata"] == MetadataValue(m) && std.fields["altTextData"] == RowsValue(recs)
    requires ValidateData(std).Ok? && ValidateData(std).value.valid
    ensures RowSectionErrors(RowsValue(recs)).Ok?
    ensures MetadataErrors(MetadataValue(m)) + RowSectionErrors(RowsValue(recs)).value == []
  {
    assert Truthy(std) && TypeOf(std) == "object";
    assert Get(std, "metadata") == MetadataValue(m);
    assert Get(std, "altTextData") == RowsValue(recs);
  }

  /** Standardised sections that draw no message at all. */
  lemma SilentParts(m: StdMetadata, recs: seq<StdRecord>)
    requires RowSectionErrors(RowsValue(recs)).Ok?
    requires MetadataErrors(MetadataValue(m)) + RowSectionErrors(RowsValue(recs)).value == []
    ensures m.relativeLink != "" && recs != []
    ensures forall i :: 0 <= i < |recs| ==> recs[i].imageSource != ""
  {
    var rowErrors := RowSectionErrors(RowsValue(recs)).value;
    assert |MetadataErrors(MetadataValue(m))| == 0 && |rowErrors| == 0;
    assert Get(MetadataValue(m), "relativeLink") == Str(m.relativeLink);
    assert recs != [];
    var messages := ValidateRows(RowsValue(recs).items, AltTextRules, 0).value;
    assert TextsOf(messages) == [];
    SilentRowsHaveSources(recs);
  }
}

=== FILE: file_update.dfy ===
/** The document updater of backend/services/fileUpdateService.js: records are grouped by
    learning object, each learning object's document is fetched from the store, rewritten
    by `updateHtmlContent` and saved back, and a failure on one learning object is recorded
    without stopping the others. The S3 bucket is a map from keys to documents with
    injectable per-key failures. */
module FileUpdate {
  import opened Results
  import opened JsString
  import opened JsValue
  import opened Sequences
  import PropertyOrder
  import Standardization
  import HtmlPatch

  type Record = Standardization.StdRecord

  // ---------------------------------------------------------------------------
  // Grouping

  /** The object `groupByLO` builds: its own keys in creation order, and each key's records. */
  datatype Groups = Groups(titles: seq<string>, members: map<string, seq<Record>>)

  function TitleIs(t: string): Record -> bool {
    (r: Record) => r.loTitle == t
  }

  /** The message of the TypeError thrown when a title names an inherited property. */
  const PushError := NotAFunction("groups[item.loTitle].push")

  /** One step of the `reduce`: a record joins the group of its title, which is created
      on first use. A title every object inherits finds a truthy inherited value instead
      of an array, and the `push` call throws. */
  function AddToGroup(g: Groups, item: Record): (r: Result<Groups>)
    ensures r.Fail? <==> item.loTitle in PropertyOrder.InheritedNames
  {
    var t := item.loTitle;
    if t in PropertyOrder.InheritedNames then Fail(PushError)
    else if t in g.members then Ok(Groups(g.titles, g.members[t := g.members[t] + [item]]))
    else Ok(Groups(g.titles + [t], g.members[t := [item]]))
  }

  /** `groupByLO`: `altTextData.reduce(..., {})`. */
  function GroupByLO(items: seq<Record>): (r: Result<Groups>)
    ensures r.Fail? <==> exists i :: 0 <= i < |items| && items[i].loTitle in PropertyOrder.InheritedNames
    decreases |items|
  {
    if items == [] then Ok(Groups([], map[]))
    else
      var init := items[..|items| - 1];
      assert forall i :: 0 <= i < |init| ==> init[i] == items[i];
      var g :- GroupByLO(init);
      AddToGroup(g, items[|items| - 1])
  }

  function Titles(items: seq<Record>): (r: seq<string>)
    ensures |r| == |items| && forall i :: 0 <= i < |items| ==> r[i] == items[i].loTitle
  {
    seq(|items|, i requires 0 <= i < |items| => items[i].loTitle)
  }

  /** The shape `groupByLO` promises: one key per distinct title, and under each key
      exactly the records with that title, in their original order. */
  ghost predicate GroupsOf(g: Groups, items: seq<Record>) {
    && Distinct(g.titles)
    && (forall t :: t in g.members <==> t in g.titles)
    && (forall t :: t in g.titles <==> t in Titles(items))
    && (forall t :: t in g.members ==> g.members[t] == Filter(items, TitleIs(t)))
  }

  /** Every record lands in exactly the group of its title, in input order. */
  lemma {:induction false} GroupsExact(items: seq<Record>)
    requires GroupByLO(items).Ok?
    ensures GroupsOf(GroupByLO(items).value, items)
    decreases |items|
  {
    if items != [] {
      var init, x := items[..|items| - 1], items[|items| - 1];
      assert items == init + [x];
      GroupsExact(init);
      GroupsStep(GroupByLO(init).value, init, x);
    }
  }

  /** One step of the `reduce` keeps the shape. */
  lemma GroupsStep(g0: Groups, init: seq<Record>, x: Record)
    requires GroupsOf(g0, init) && x.loTitle !in PropertyOrder.InheritedNames
    ensures GroupsOf(AddToGroup(g0, x).value, init + [x])
  {
    var items := init + [x];
    var g := AddToGroup(g0, x).value;
    forall t ensures Filter(items, TitleIs(t)) == Filter(init, TitleIs(t)) + (if x.loTitle == t then [x] else []) {
      FilterSnoc(init, x, t);
    }
    assert Titles(items) == Titles(init) + [x.loTitle];
    if x.loTitle !in g0.members {
      NewTitleGroup(init, x.loTitle);
      assert Distinct(g.titles) by {
        forall i, j | 0 <= i < j < |g.titles| ensures g.titles[i] != g.titles[j] {
          if j == |g.titles| - 1 {
            assert g.titles[i] in g0.titles;
          }
        }
      }
    }
  }

  lemma FilterSnoc(init: seq<Record>, x: Record, t: string)
    ensures Filter(init + [x], TitleIs(t)) == Filter(init, TitleIs(t)) + (if x.loTitle == t then [x] else [])
  {
    FilterAppend(init, [x], TitleIs(t));
    assert Filter([x], TitleIs(t)) == (if x.loTitle == t then [x] else []) + Filter([x][1..], TitleIs(t));
  }

  /** A title no earlier record carries has no records yet. */
  lemma NewTitleGroup(init: seq<Record>, t: string)
    requires t !in Titles(init)
    ensures Filter(init, TitleIs(t)) == []
  {
    forall i | 0 <= i < |init| ensures !TitleIs(t)(init[i]) {
      assert Titles(init)[i] == init[i].loTitle;
    }
    FilterNone(init, TitleIs(t));
  }

  /** The number of records held under `titles`. */
  function GroupedCount(titles: seq<string>, members: map<string, seq<Record>>): nat
    requires forall t :: t in titles ==> t in members
    decreases |titles|
  {
    if titles == [] then 0
    else
      var last := titles[|titles| - 1];
      GroupedCount(titles[..|titles| - 1], members) + |members[last]|
  }

  lemma {:induction false} CountAgrees(titles: seq<string>, m1: map<string, seq<Record>>, m2: map<string, seq<Record>>)
    requires forall t :: t in titles ==> t in m1 && t in m2 && |m1[t]| == |m2[t]|
    ensures GroupedCount(titles, m1) == GroupedCount(titles, m2)
    decreases |titles|
  {
    if titles != [] {
      var init := titles[..|titles| - 1];
      assert forall t :: t in init ==> t in titles;
      CountAgrees(init, m1, m2);
    }
  }

  /** Growing one group by one record grows the count by one. */
  lemma {:induction false} CountBump(titles: seq<string>, m: map<string, seq<Record>>, t: string, x: Record)
    requires Distinct(titles) && t in titles
    requires forall u :: u in titles ==> u in m
    ensures GroupedCount(titles, m[t := m[t] + [x]]) == GroupedCount(titles, m) + 1
    decreases |titles|
  {
    var m2 := m[t := m[t] + [x]];
    var init, last := titles[..|titles| - 1], titles[|titles| - 1];
    assert forall u :: u in init ==> u in titles;
    if last == t {
      assert t !in init;
      CountAgrees(init, m, m2);
    } else {
      assert t in init by {
        var i :| 0 <= i < |titles| && titles[i] == t;
      }
      CountBump(init, m, t, x);
    }
  }

  /** The groups hold every record once: their sizes add up to the number of records. */
  lemma {:induction false} GroupCount(items: seq<Record>)
    requires GroupByLO(items).Ok?
    ensures GroupsOf(GroupByLO(items).value, items)
    ensures GroupedCount(GroupByLO(items).value.titles, GroupByLO(items).value.members) == |items|
    decreases |items|
  {
    GroupsExact(items);
    if items != [] {
      var init, x := items[..|items| - 1], items[|items| - 1];
      assert forall i :: 0 <= i < |init| ==> init[i] == items[i];
      var g0 := GroupByLO(init).value;
      GroupCount(init);
      var g := GroupByLO(items).value;
      if x.loTitle in g0.members {
        CountBump(g0.titles, g0.members, x.loTitle, x);
      } else {
        assert g.titles[..|g.titles| - 1] == g0.titles;
        CountAgrees(g0.titles, g0.members, g.members);
      }
    }
  }

  /** `Object.entries(loGroups)`: every group once, titles that are array indices first. */
  function Entries(g: Groups): (r: seq<(string, seq<Record>)>)
    ensures |r| == |PropertyOrder.OwnKeysOrder(g.titles)|
    ensures forall i :: 0 <= i < |r| ==> r[i].0 == PropertyOrder.OwnKeysOrder(g.titles)[i]
    ensures forall i :: 0 <= i < |r| && r[i].0 in g.members ==> r[i].1 == g.members[r[i].0]
  {
    var keys := PropertyOrder.OwnKeysOrder(g.titles);
    seq(|keys|, i requires 0 <= i < |keys| => (keys[i], if keys[i] in g.members then g.members[keys[i]] else []))
  }

  /** Each group is visited exactly once, with its own records. */
  lemma EntriesVisitEachGroup(items: seq<Record>)
    requires GroupByLO(items).Ok?
    ensures var g := GroupByLO(items).value;
      var e := Entries(g);
      && (forall i, j :: 0 <= i < j < |e| ==> e[i].0 != e[j].0)
      && (forall t :: t in Titles(items) <==> exists i :: 0 <= i < |e| && e[i].0 == t)
      && (forall i :: 0 <= i < |e| ==> e[i].1 == Filter(items, TitleIs(e[i].0)))
  {
    var g := GroupByLO(items).value;
    GroupsExact(items);
    EntriesOfGroups(g, items);
  }

  lemma EntriesOfGroups(g: Groups, items: seq<Record>)
    requires GroupsOf(g, items)
    ensures var e := Entries(g);
      && (forall i, j :: 0 <= i < j < |e| ==> e[i].0 != e[j].0)
      && (forall t :: t in Titles(items) <==> exists i :: 0 <= i < |e| && e[i].0 == t)
      && (forall i :: 0 <= i < |e| ==> e[i].1 == Filter(items, TitleIs(e[i].0)))
  {
    PropertyOrder.OwnKeysOrderDistinct(g.titles);
    KeyedEntries(Entries(g), PropertyOrder.OwnKeysOrder(g.titles), g, items);
  }

  /** Entries listed under distinct keys that are exactly the group titles. */
  lemma KeyedEntries(e: seq<(string, seq<Record>)>, keys: seq<string>, g: Groups, items: seq<Record>)
    requires GroupsOf(g, items)
    requires |e| == |keys| && Distinct(keys) && forall k :: k in keys <==> k in g.titles
    requires forall i :: 0 <= i < |e| ==> e[i].0 == keys[i]
    requires forall i :: 0 <= i < |e| && e[i].0 in g.members ==> e[i].1 == g.members[e[i].0]
    ensures forall i, j :: 0 <= i < j < |e| ==> e[i].0 != e[j].0
    ensures forall t :: t in Titles(items) <==> exists i :: 0 <= i < |e| && e[i].0 == t
    ensures forall i :: 0 <= i < |e| ==> e[i].1 == Filter(items, TitleIs(e[i].0))
  {
    forall t ensures t in Titles(items) <==> exists i :: 0 <= i < |e| && e[i].0 == t {
      if t in Titles(items) {
        assert t in keys;
        var i :| 0 <= i < |keys| && keys[i] == t;
        assert e[i].0 == t;
      }
      if i :| 0 <= i < |e| && e[i].0 == t {
        assert keys[i] in keys;
      }
    }
    forall i | 0 <= i < |e| ensures e[i].1 == Filter(items, TitleIs(e[i].0)) {
      assert keys[i] in keys;
    }
  }

  // ---------------------------------------------------------------------------
  // Document keys

  /** The document every learning object's directory holds. */
  const IndexFile := "index.html"

  /** `constructLoPath`: `dev` + base link + `/` + title + `/index.html`, with every run of
      `/` collapsed to one. */
  function ConstructLoPath(baseLink: string, loTitle: string): (r: string)
    ensures NoDoubleSlash(r)
    ensures StartsWith(r, "dev") && EndsWith(r, "/" + IndexFile)
    ensures WithoutSlashes(r) == WithoutSlashes("dev" + baseLink + "/" + loTitle + "/" + IndexFile)
    ensures NoDoubleSlash("dev" + baseLink + "/" + loTitle + "/" + IndexFile) ==>
      r == "dev" + baseLink + "/" + loTitle + "/" + IndexFile
  {
    var s := "dev" + baseLink + "/" + loTitle + "/" + IndexFile;
    assert StartsWith(s, "dev");
    assert EndsWith(s, "/" + IndexFile);
    CollapseKeepsPrefix(s, "dev");
    CollapseKeepsSuffix(s, "/" + IndexFile);
    CollapseSlashes(s)
  }

  /** A canonical base link and a title without `/` need no collapsing: the key is the
      plain concatenation. */
  lemma PlainLoPath(baseLink: string, loTitle: string)
    requires Standardization.IsCanonicalPath(baseLink)
    requires loTitle != [] && '/' !in loTitle
    ensures ConstructLoPath(baseLink, loTitle) == "dev" + baseLink + "/" + loTitle + "/" + IndexFile
  {
    var tail := "/" + IndexFile;
    assert NoDoubleSlash(tail) && tail[0] == '/' by {
      NoSlashCollapsed(IndexFile);
      NoDoubleSlashAppend("/", IndexFile);
    }
    var mid := "/" + loTitle;
    assert NoDoubleSlash(mid) by {
      NoSlashCollapsed(loTitle);
      NoDoubleSlashAppend("/", loTitle);
    }
    assert mid[|mid| - 1] == loTitle[|loTitle| - 1];
    assert loTitle[|loTitle| - 1] in loTitle;
    NoDoubleSlashAppend(mid, tail);
    assert NoDoubleSlash("dev" + baseLink) by {
      NoSlashCollapsed("dev");
      NoDoubleSlashAppend("dev", baseLink);
    }
    var rest := mid + tail;
    assert rest[0] == '/';
    assert baseLink != [] ==> baseLink[|baseLink| - 1] != '/';
    NoDoubleSlashAppend("dev" + baseLink, rest);
    assert "dev" + baseLink + "/" + loTitle + "/" + IndexFile == "dev" + baseLink + rest;
  }

  /** A base link that ends in `/` gives the same key as without that `/`: the join
      produces a `//` that collapses. */
  lemma LoPathBaseSlash(baseLink: string, loTitle: string)
    ensures ConstructLoPath(baseLink + "/", loTitle) == ConstructLoPath(baseLink, loTitle)
  {
    var x, y := "dev" + baseLink, loTitle + "/" + IndexFile;
    assert "dev" + (baseLink + "/") + "/" + loTitle + "/" + IndexFile == x + "//" + y;
    assert "dev" + baseLink + "/" + loTitle + "/" + IndexFile == x + "/" + y;
    CollapseDoubled(x, y);
  }

  /** A title that starts with `/` gives the same key as without that `/`. */
  lemma LoPathTitleSlash(baseLink: string, loTitle: string)
    ensures ConstructLoPath(baseLink, "/" + loTitle) == ConstructLoPath(baseLink, loTitle)
  {
    var x, y := "dev" + baseLink, loTitle + "/" + IndexFile;
    assert "dev" + baseLink + "/" + ("/" + loTitle) + "/" + IndexFile == x + "//" + y;
    assert "dev" + baseLink + "/" + loTitle + "/" + IndexFile == x + "/" + y;
    CollapseDoubled(x, y);
  }

  /** A string without `/` has no `//`. */
  lemma NoSlashCollapsed(s: string)
    requires '/' !in s
    ensures NoDoubleSlash(s)
  {
    forall i | 0 <= i < |s| - 1 ensures s[i] != '/' {
      assert s[i] in s;
    }
  }

  // ---------------------------------------------------------------------------
  // The store and the update loop

  /** The document store: the documents by key, and the keys whose fetch or save fails
      with the given message. A key with no document fails to fetch as well. */
  datatype Store = Store(docs: map<string, string>, fetchErrors: map<string, string>, saveErrors: map<string, string>)

  /** S3's message for a key that holds no object. */
  const NoSuchKeyMessage := "The specified key does not exist."

  function Fetch(store: Store, key: string): (r: Result<string>)
    ensures r.Ok? <==> key in store.docs && key !in store.fetchErrors
    ensures r.Ok? ==> r.value == store.docs[key]
  {
    if key in store.fetchErrors then Fail(store.fetchErrors[key])
    else if key !in store.docs then Fail(NoSuchKeyMessage)
    else Ok(store.docs[key])
  }

  function Save(store: Store, key: string, content: string): (r: Result<Store>)
    ensures r.Ok? <==> key !in store.saveErrors
    ensures r.Ok? ==> r.value == store.(docs := store.docs[key := content])
  {
    if key in store.saveErrors then Fail(store.saveErrors[key]) else Ok(store.(docs := store.docs[key := content]))
  }

  /** What became of one learning object. */
  datatype LoOutcome = Updated(title: string) | LoFailed(title: string, error: string)

  /** The body of the loop for one learning object: fetch, rewrite, save. A failure
      leaves the store as it was. */
  function UpdateLo(store: Store, baseLink: string, title: string, images: seq<Record>): (r: (Store, LoOutcome))
    ensures r.1.title == title
    ensures r.1.LoFailed? ==> r.0 == store
    ensures r.1.Updated? <==>
      var key := ConstructLoPath(baseLink, title);
      Fetch(store, key).Ok? && key !in store.saveErrors
    ensures r.1.Updated? ==>
      var key := ConstructLoPath(baseLink, title);
      r.0 == store.(docs := store.docs[key := HtmlPatch.UpdateHtmlContent(store.docs[key], images)])
  {
    var key := ConstructLoPath(baseLink, title);
    match Fetch(store, key)
    case Fail(e) => (store, LoFailed(title, e))
    case Ok(html) =>
      match Save(store, key, HtmlPatch.UpdateHtmlContent(html, images))
      case Fail(e) => (store, LoFailed(title, e))
      case Ok(saved) => (saved, Updated(title))
  }

  /** The loop body as a step on the store. */
  function LoStep(baseLink: string): (step: (Store, (string, seq<Record>)) -> (Store, LoOutcome))
    ensures forall store, e :: step(store, e) == UpdateLo(store, baseLink, e.0, e.1)
  {
    (store: Store, e: (string, seq<Record>)) => UpdateLo(store, baseLink, e.0, e.1)
  }

  /** The `for ... of Object.entries(loGroups)` loop: every learning object is attempted,
      in order, each seeing the store as the earlier ones left it. */
  function UpdateLoop(store: Store, baseLink: string, entries: seq<(string, seq<Record>)>): (r: (Store, seq<LoOutcome>))
    ensures |r.1| == |entries|
  {
    Thread(store, entries, LoStep(baseLink))
  }

  /** Each outcome belongs to the learning object at the same position. */
  lemma {:induction false} LoopTitles(store: Store, baseLink: string, entries: seq<(string, seq<Record>)>)
    ensures var r := UpdateLoop(store, baseLink, entries);
      forall i :: 0 <= i < |entries| ==> r.1[i].title == entries[i].0
    decreases |entries|
  {
    if entries != [] {
      var first := UpdateLo(store, baseLink, entries[0].0, entries[0].1);
      LoopTitles(first.0, baseLink, entries[1..]);
      var rest := UpdateLoop(first.0, baseLink, entries[1..]);
      assert UpdateLoop(store, baseLink, entries).1 == [first.1] + rest.1;
    }
  }

  /** A failure in the first learning objects never stops the later ones: the loop over
      `a + b` is the loop over `a` followed by the loop over `b`. */
  lemma UpdateLoopSplits(store: Store, baseLink: string, a: seq<(string, seq<Record>)>, b: seq<(string, seq<Record>)>)
    ensures var left := UpdateLoop(store, baseLink, a);
      var right := UpdateLoop(left.0, baseLink, b);
      UpdateLoop(store, baseLink, a + b) == (right.0, left.1 + right.1)
  {
    ThreadSplits(store, a, b, LoStep(baseLink));
  }

  /** A learning object on its own: the loop over one entry is one step. */
  lemma UpdateLoopSingle(store: Store, baseLink: string, e: (string, seq<Record>))
    ensures var step := UpdateLo(store, baseLink, e.0, e.1);
      UpdateLoop(store, baseLink, [e]) == (step.0, [step.1])
  {
    var step := UpdateLo(store, baseLink, e.0, e.1);
    assert [e][1..] == [];
    assert LoStep(baseLink)(store, [e][0]) == step;
    assert Thread(step.0, [e][1..], LoStep(baseLink)) == (step.0, []);
    assert [step.1] + [] == [step.1];
  }

  function UpdatedTitles(outcomes: seq<LoOutcome>): (r: seq<string>)
    ensures |r| <= |outcomes|
    decreases |outcomes|
  {
    if outcomes == [] then []
    else (if outcomes[0].Updated? then [outcomes[0].title] else []) + UpdatedTitles(outcomes[1..])
  }

  /** An entry of `results.errors`. */
  datatype UpdateError =
    | LoError(loTitle: string, error: string)
    | ProcessError(error: string, details: string)

  function LoErrors(outcomes: seq<LoOutcome>): (r: seq<UpdateError>)
    ensures forall i :: 0 <= i < |r| ==> r[i].LoError?
    decreases |outcomes|
  {
    if outcomes == [] then []
    else (if outcomes[0].LoFailed? then [LoError(outcomes[0].title, outcomes[0].error)] else []) + LoErrors(outcomes[1..])
  }

  /** Every learning object ends up either among the updated files or among the errors. */
  lemma {:induction false} OutcomesPartition(outcomes: seq<LoOutcome>)
    ensures |UpdatedTitles(outcomes)| + |LoErrors(outcomes)| == |outcomes|
    ensures forall t :: t in UpdatedTitles(outcomes) <==> Updated(t) in outcomes
    ensures forall t, e :: LoError(t, e) in LoErrors(outcomes) <==> LoFailed(t, e) in outcomes
    decreases |outcomes|
  {
    if outcomes != [] {
      OutcomesPartition(outcomes[1..]);
      assert outcomes == [outcomes[0]] + outcomes[1..];
    }
  }

  /** The object `updateFiles` returns. */
  datatype UpdateResults = UpdateResults(success: bool, filesProcessed: nat, updatedFiles: seq<string>, errors: seq<UpdateError>)

  const GroupingFailure := "Failed to process files"

  /** `updateFiles`: the store after the update, and the results object. */
  function UpdateFiles(store: Store, relativeLink: string, items: seq<Record>): (r: (Store, UpdateResults))
    ensures r.1.filesProcessed == |r.1.updatedFiles|
    ensures r.1.success <==> GroupByLO(items).Ok?
    ensures !r.1.success ==>
      && r.0 == store && r.1.updatedFiles == []
      && r.1.errors == [ProcessError(GroupingFailure, GroupByLO(items).message)]
    ensures r.1.success ==>
      var g := GroupByLO(items).value;
      var loop := UpdateLoop(store, relativeLink, Entries(g));
      && r.0 == loop.0
      && r.1.updatedFiles == UpdatedTitles(loop.1)
      && r.1.errors == LoErrors(loop.1)
  {
    match GroupByLO(items)
    case Fail(e) => (store, UpdateResults(false, 0, [], [ProcessError(GroupingFailure, e)]))
    case Ok(g) =>
      var loop := UpdateLoop(store, relativeLink, Entries(g));
      var updated := UpdatedTitles(loop.1);
      (loop.0, UpdateResults(true, |updated|, updated, LoErrors(loop.1)))
  }

  /** With grouping done, every distinct title is reported exactly once: as updated or
      as an error. */
  lemma EveryGroupReported(store: Store, relativeLink: string, items: seq<Record>)
    requires GroupByLO(items).Ok?
    ensures var res := UpdateFiles(store, relativeLink, items).1;
      |res.updatedFiles| + |res.errors| == |GroupByLO(items).value.titles|
  {
    var g := GroupByLO(items).value;
    var keys := PropertyOrder.OwnKeysOrder(g.titles);
    assert |keys| == |g.titles| by {
      assert |multiset(keys)| == |multiset(g.titles)|;
    }
    var loop := UpdateLoop(store, relativeLink, Entries(g));
    OutcomesPartition(loop.1);
  }
}

=== FILE: html_patch.dfy ===
/** The `<img>` tag rewriting of backend/services/fileUpdateService.js (`updateHtmlContent`).
    For each image the source builds the global regular expression
    `<img[^>]*src=["']\/?PATH["'][^>]*>` from the image path and replaces every match with
    a fresh tag. The path is matched literally here (see README, "Left out"). */
module HtmlPatch {
  import opened Results
  import opened JsString
  import Standardization

  type Image = Standardization.StdRecord

  predicate IsQuote(c: char) {
    c == '"' || c == '\''
  }

  /** `p` followed by a quote, starting at index `m` of `s`. */
  predicate PathAt(s: string, m: int, p: string) {
    OccursAt(s, p, m) && m + |p| < |s| && IsQuote(s[m + |p|])
  }

  /** `src=`, a quote, an optional `/`, the path `p` and a quote, at index `k` of `s`. */
  predicate SrcAt(s: string, k: int, p: string) {
    && OccursAt(s, "src=", k)
    && k + 4 < |s| && IsQuote(s[k + 4])
    && (PathAt(s, k + 5, p) || (k + 5 < |s| && s[k + 5] == '/' && PathAt(s, k + 6, p)))
  }

  /** The inside of a tag names the path `p` in a `src` attribute. */
  predicate HasSrc(s: string, p: string) {
    exists k :: 0 <= k < |s| && SrcAt(s, k, p)
  }

  /** The length of the match of the image's pattern at the start of `h`, if there is one:
      an `<img` tag, up to its first `>`, whose inside names the path. */
  function MatchLength(h: string, p: string): (r: Option<nat>)
    ensures r.Some? <==>
      && StartsWith(h, "<img")
      && CharFrom(h, '>', 4).Some?
      && HasSrc(h[4..CharFrom(h, '>', 4).value], p)
    ensures r.Some? ==> 5 <= r.value <= |h| && h[r.value - 1] == '>'
    ensures r.Some? ==> forall j :: 4 <= j < r.value - 1 ==> h[j] != '>'
  {
    if !StartsWith(h, "<img") then None
    else match CharFrom(h, '>', 4)
      case None => None
      case Some(j) => if HasSrc(h[4..j], p) then Some(j + 1) else None
  }

  /** `h.replace(regex, rep)` with the global flag: matches are searched from left to
      right, and the search resumes after the end of each replaced match. */
  function ReplaceTags(h: string, p: string, rep: string): (r: string)
    decreases |h|
  {
    if h == [] then []
    else match MatchLength(h, p)
      case Some(n) => rep + ReplaceTags(h[n..], p, rep)
      case None => [h[0]] + ReplaceTags(h[1..], p, rep)
  }

  /** No position of `h` starts a match. */
  predicate NoMatch(h: string, p: string) {
    forall i :: 0 <= i < |h| ==> MatchLength(h[i..], p).None?
  }

  /** When nothing matches, the HTML comes back unchanged. */
  lemma {:induction false} NoMatchUnchanged(h: string, p: string, rep: string)
    requires NoMatch(h, p)
    ensures ReplaceTags(h, p, rep) == h
    decreases |h|
  {
    if h != [] {
      assert MatchLength(h[0..], p).None?;
      assert h[0..] == h;
      forall i | 0 <= i < |h[1..]| ensures MatchLength(h[1..][i..], p).None? {
        assert h[1..][i..] == h[i + 1..];
      }
      NoMatchUnchanged(h[1..], p, rep);
    }
  }

  /** Text that holds no `<` is copied through, whatever follows it. */
  lemma {:induction false} PlainTextKept(t: string, rest: string, p: string, rep: string)
    requires '<' !in t
    ensures ReplaceTags(t + rest, p, rep) == t + ReplaceTags(rest, p, rep)
    decreases |t|
  {
    if t == [] {
      assert t + rest == rest;
    } else {
      var h := t + rest;
      assert h[0] == t[0] && t[0] != '<';
      NotAnOpening(h, p);
      assert h[1..] == t[1..] + rest;
      PlainTextKept(t[1..], rest, p, rep);
    }
  }

  /** Text that does not begin with `<` does not begin a match. */
  lemma NotAnOpening(h: string, p: string)
    requires h != [] && h[0] != '<'
    ensures MatchLength(h, p).None?
  {
    if |h| >= 4 {
      assert h[..4][0] == h[0];
    }
  }

  /** Cutting a document right after a `>` splits the replacement: no match can run across
      the cut, so the part before it and the part after it are rewritten on their own.
      Every tag of a document is thereby rewritten wherever it stands, after any text and
      after any other tag. */
  lemma {:induction false} ReplaceSplits(t: string, x: string, p: string, rep: string)
    requires t == [] || t[|t| - 1] == '>'
    ensures ReplaceTags(t + x, p, rep) == ReplaceTags(t, p, rep) + ReplaceTags(x, p, rep)
    decreases |t|
  {
    if t == [] {
      assert t + x == x;
    } else {
      var n, a := Front(t, x, p, rep);
      var u := t[n..];
      ReplaceSplits(u, x, p, rep);
      Regroup(a, ReplaceTags(u, p, rep), ReplaceTags(x, p, rep));
    }
  }

  /** The first step of the scan over `t + x`, for `t` ending with `>`: it consumes `n`
      characters of `t` and writes `a`, exactly as the first step over `t` alone. */
  lemma Front(t: string, x: string, p: string, rep: string) returns (n: nat, a: string)
    requires t != [] && t[|t| - 1] == '>'
    ensures 1 <= n <= |t| && (t[n..] == [] || t[n..][|t[n..]| - 1] == '>')
    ensures ReplaceTags(t + x, p, rep) == a + ReplaceTags(t[n..] + x, p, rep)
    ensures ReplaceTags(t, p, rep) == a + ReplaceTags(t[n..], p, rep)
  {
    MatchInClosed(t, x, p);
    n := if MatchLength(t, p).Some? then MatchLength(t, p).value else 1;
    a := if MatchLength(t, p).Some? then rep else t[..1];
    FrontStep(t, x, p, rep, n, a);
    var u := t[n..];
    assert u == [] || u[|u| - 1] == t[|t| - 1];
  }

  lemma Regroup(a: string, b: string, c: string)
    ensures a + (b + c) == (a + b) + c
  {
  }

  /** The first step of the scan is the same on `t + x` as on `t` when both begin with the
      same match, or both with no match. */
  lemma FrontStep(t: string, x: string, p: string, rep: string, n: nat, a: string)
    requires t != [] && MatchLength(t + x, p) == MatchLength(t, p)
    requires MatchLength(t, p).Some? ==> n == MatchLength(t, p).value <= |t| && a == rep
    requires MatchLength(t, p).None? ==> n == 1 && a == t[..1]
    ensures n <= |t|
    ensures ReplaceTags(t + x, p, rep) == a + ReplaceTags(t[n..] + x, p, rep)
    ensures ReplaceTags(t, p, rep) == a + ReplaceTags(t[n..], p, rep)
  {
    var h := t + x;
    assert h[n..] == t[n..] + x && h[..1] == t[..1];
    StepAt(h, p, rep, n, a);
    StepAt(t, p, rep, n, a);
  }

  lemma StepAt(h: string, p: string, rep: string, n: nat, a: string)
    requires h != [] && n <= |h|
    requires MatchLength(h, p).Some? ==> n == MatchLength(h, p).value && a == rep
    requires MatchLength(h, p).None? ==> n == 1 && a == h[..1]
    ensures ReplaceTags(h, p, rep) == a + ReplaceTags(h[n..], p, rep)
  {
    ReplaceStep(h, p, rep);
  }

  /** One step of the scan: a match at the front is replaced and the scan resumes after
      it; otherwise the first character is kept and the scan moves on by one. */
  lemma ReplaceStep(h: string, p: string, rep: string)
    requires h != []
    ensures MatchLength(h, p).Some? ==>
      ReplaceTags(h, p, rep) == rep + ReplaceTags(h[MatchLength(h, p).value..], p, rep)
    ensures MatchLength(h, p).None? ==> ReplaceTags(h, p, rep) == h[..1] + ReplaceTags(h[1..], p, rep)
  {
    assert [h[0]] == h[..1];
  }

  /** A match that starts inside a piece ending with `>` ends inside it too. */
  lemma MatchInClosed(t: string, x: string, p: string)
    requires t != [] && t[|t| - 1] == '>'
    ensures MatchLength(t + x, p) == MatchLength(t, p)
    ensures MatchLength(t, p).Some? ==> MatchLength(t, p).value <= |t|
  {
    var h := t + x;
    assert "<img"[3] == 'g' && '>' !in "<img";
    if |t| <= 4 {
      assert |t| == 4 ==> t[..4][3] == '>';
      assert |h| >= 4 ==> h[..4][|t| - 1] == '>';
      assert "<img"[|t| - 1] != '>';
    } else {
      assert h[..4] == t[..4];
      if StartsWith(t, "<img") {
        assert CharFrom(t, '>', 4).Some?;
        var j := CharFrom(t, '>', 4).value;
        CharIsFirst(h, '>', 4, j);
        assert h[4..j] == t[4..j];
      }
    }
  }

  /** A whole match in front of the rest of a document becomes the replacement, and the
      rest is rewritten after it. */
  lemma MatchThenRest(tag: string, x: string, p: string, rep: string)
    requires MatchLength(tag, p) == Some(|tag|)
    ensures ReplaceTags(tag + x, p, rep) == rep + ReplaceTags(x, p, rep)
  {
    ReplaceSplits(tag, x, p, rep);
    WholeMatchReplaced(tag, p, rep);
  }

  /** One tag written `<img ATTRS src=Q/?PATH Q MORE>`, quote style and leading `/` as
      they come, is replaced by `rep` as a whole: every other attribute is dropped. */
  lemma TagReplaced(before: string, q1: char, slash: string, p: string, q2: char, after: string, rep: string)
    requires IsQuote(q1) && IsQuote(q2) && slash in {"", "/"}
    requires '>' !in before && '>' !in p && '>' !in after
    ensures ReplaceTags("<img" + before + "src=" + [q1] + slash + p + [q2] + after + ">", p, rep) == rep
  {
    var attr := "src=" + [q1] + slash + p + [q2] + after;
    var tag := "<img" + before + "src=" + [q1] + slash + p + [q2] + after + ">";
    TagPieces(before, attr, q1, slash, p, q2, after);
    SrcInside(before, q1, slash, p, q2, after);
    WholeTagMatches(before + attr, p);
    WholeMatchReplaced(tag, p, rep);
  }

  /** Such a tag after text that holds no match and ends with `>` (an opening `<p>`, an
      earlier tag for another image) is replaced in place, and the scan goes on after it. */
  lemma TagInDocument(t: string, before: string, q1: char, slash: string, p: string, q2: char, after: string, rest: string, rep: string)
    requires NoMatch(t, p) && (t == [] || t[|t| - 1] == '>')
    requires IsQuote(q1) && IsQuote(q2) && slash in {"", "/"}
    requires '>' !in before && '>' !in p && '>' !in after
    ensures var tag := "<img" + before + "src=" + [q1] + slash + p + [q2] + after + ">";
      ReplaceTags(t + tag + rest, p, rep) == t + rep + ReplaceTags(rest, p, rep)
  {
    var tag := "<img" + before + "src=" + [q1] + slash + p + [q2] + after + ">";
    assert t + tag + rest == t + (tag + rest);
    ReplaceSplits(t, tag + rest, p, rep);
    NoMatchUnchanged(t, p, rep);
    assert tag[|tag| - 1] == '>';
    ReplaceSplits(tag, rest, p, rep);
    TagReplaced(before, q1, slash, p, q2, after, rep);
  }

  /** How such a tag splits into `<img`, its inside and `>`, with no `>` inside. */
  lemma TagPieces(before: string, attr: string, q1: char, slash: string, p: string, q2: char, after: string)
    requires IsQuote(q1) && IsQuote(q2) && slash in {"", "/"}
    requires '>' !in before && '>' !in p && '>' !in after
    requires attr == "src=" + [q1] + slash + p + [q2] + after
    ensures "<img" + before + "src=" + [q1] + slash + p + [q2] + after + ">" == "<img" + (before + attr) + ">"
    ensures '>' !in before + attr
  {
    assert '>' !in "src=";
    assert '>' !in slash;
  }

  /** A string that is one whole match becomes the replacement. */
  lemma WholeMatchReplaced(h: string, p: string, rep: string)
    requires MatchLength(h, p) == Some(|h|)
    ensures ReplaceTags(h, p, rep) == rep
  {
    assert h[|h|..] == [];
    assert ReplaceTags(h, p, rep) == rep + ReplaceTags([], p, rep);
  }

  /** The inside of such a tag names the path right after `before`. */
  lemma SrcInside(before: string, q1: char, slash: string, p: string, q2: char, after: string)
    requires IsQuote(q1) && IsQuote(q2) && slash in {"", "/"}
    ensures HasSrc(before + ("src=" + [q1] + slash + p + [q2] + after), p)
  {
    var attr := "src=" + [q1] + slash + p + [q2] + after;
    var inside := before + attr;
    var k := |before|;
    assert inside[k..] == attr;
    assert attr[..4] == "src=";
    assert attr[4] == q1;
    var m := 5 + |slash|;
    assert attr[m..m + |p|] == p;
    assert attr[m + |p|] == q2;
    if slash == "/" {
      assert attr[5] == '/';
    }
    assert SrcAt(attr, 0, p);
    SrcShift(before, attr, p);
  }

  /** `SrcAt` read in a suffix holds in the whole string, shifted. */
  lemma SrcShift(before: string, attr: string, p: string)
    requires SrcAt(attr, 0, p)
    ensures SrcAt(before + attr, |before|, p)
  {
    var s := before + attr;
    var k := |before|;
    assert s[k..] == attr;
    assert s[k..k + 4] == attr[..4];
    assert s[k + 4] == attr[4];
    if PathAt(attr, 5, p) {
      assert s[k + 5..k + 5 + |p|] == attr[5..5 + |p|];
      assert s[k + 5 + |p|] == attr[5 + |p|];
    } else {
      assert s[k + 5] == attr[5];
      assert s[k + 6..k + 6 + |p|] == attr[6..6 + |p|];
      assert s[k + 6 + |p|] == attr[6 + |p|];
    }
  }

  /** `<img` + an inside free of `>` that names the path + `>` is one whole match. */
  lemma WholeTagMatches(inside: string, p: string)
    requires '>' !in inside && HasSrc(inside, p)
    ensures MatchLength("<img" + inside + ">", p) == Some(|inside| + 5)
  {
    var tag := "<img" + inside + ">";
    var j := |tag| - 1;
    assert tag[..4] == "<img";
    forall i | 4 <= i < j ensures tag[i] != '>' {
      assert tag[i] == inside[i - 4];
    }
    CharIsFirst(tag, '>', 4, j);
    assert tag[4..j] == inside;
  }

  // ---------------------------------------------------------------------------
  // Images

  /** `imageSource.replace(/^\//, "")`: one leading `/` removed. */
  function NormalizedSource(src: string): (r: string)
    ensures StartsWith(src, "/") ==> src == "/" + r
    ensures !StartsWith(src, "/") ==> r == src
  {
    if StartsWith(src, "/") then src[1..] else src
  }

  /** The tag written in place of every matched tag. */
  function Replacement(img: Image): (r: string)
    ensures r == "<img" + ReplacementInside(img) + ">"
  {
    "<img" + ReplacementInside(img) + ">"
  }

  /** What the replacement tag holds between `<img` and `>`. */
  function ReplacementInside(img: Image): string {
    var src := " src=\"" + img.imageSource + "\"";
    if img.isDecorative then src + " role=\"presentation\" alt=\"\" /"
    else src + " alt=\"" + img.editedAltText + "\" /"
  }

  /** One image applied to the whole document. */
  function UpdateImage(html: string, img: Image): string {
    ReplaceTags(html, NormalizedSource(img.imageSource), Replacement(img))
  }

  /** `updateHtmlContent`: the images are applied one after another, each to the output
      of the previous one. */
  function UpdateHtmlContent(html: string, images: seq<Image>): (r: string)
    ensures images == [] ==> r == html
    ensures |images| == 1 ==> r == ReplaceTags(html, NormalizedSource(images[0].imageSource), Replacement(images[0]))
    decreases |images|
  {
    if images == [] then html else UpdateHtmlContent(UpdateImage(html, images[0]), images[1..])
  }

  /** Later images see the document as the earlier ones left it. */
  lemma {:induction false} UpdateSequential(html: string, a: seq<Image>, b: seq<Image>)
    ensures UpdateHtmlContent(html, a + b) == UpdateHtmlContent(UpdateHtmlContent(html, a), b)
    decreases |a|
  {
    if a == [] {
      assert a + b == b;
    } else {
      assert (a + b)[0] == a[0] && (a + b)[1..] == a[1..] + b;
      UpdateSequential(UpdateImage(html, a[0]), a[1..], b);
    }
  }

  /** A tag the update wrote is matched again by the same image and rewritten to itself,
      so applying an image a second time changes nothing in that tag. */
  lemma ReplacementStable(img: Image)
    requires '>' !in img.imageSource && '>' !in img.editedAltText
    ensures UpdateImage(Replacement(img), img) == Replacement(img)
  {
    var p := NormalizedSource(img.imageSource);
    var tag := Replacement(img);
    var inside := ReplacementInside(img);
    assert HasSrc(inside, p) && '>' !in inside by {
      ReplacementPieces(img);
      SourceNamed(img.imageSource, ReplacementRest(img));
    }
    assert MatchLength(tag, p) == Some(|tag|) by {
      WholeTagMatches(inside, p);
    }
    WholeMatchReplaced(tag, p, tag);
  }

  /** What follows the source attribute in a replacement tag. */
  function ReplacementRest(img: Image): string {
    if img.isDecorative then " role=\"presentation\" alt=\"\" /" else " alt=\"" + img.editedAltText + "\" /"
  }

  lemma ReplacementPieces(img: Image)
    requires '>' !in img.imageSource && '>' !in img.editedAltText
    ensures ReplacementInside(img) == " src=\"" + img.imageSource + "\"" + ReplacementRest(img)
    ensures '>' !in ReplacementInside(img)
  {
    assert '>' !in " src=\"";
    assert '>' !in "\"";
    assert '>' !in ReplacementRest(img) by {
      assert '>' !in " role=\"presentation\" alt=\"\" /";
      assert '>' !in " alt=\"";
      assert '>' !in "\" /";
    }
  }

  /** ` src="SOURCE"` names the image's own normalised path. */
  lemma SourceNamed(source: string, rest: string)
    ensures HasSrc(" src=\"" + source + "\"" + rest, NormalizedSource(source))
  {
    var head := " src=\"";
    var s := head + source + "\"" + rest;
    var p := NormalizedSource(source);
    var n := |source|;
    assert s[..6] == head;
    assert s[1..5] == head[1..5] == "src=";
    assert s[5] == '"';
    assert s[6..6 + n] == source;
    assert s[6 + n] == '"';
    if StartsWith(source, "/") {
      assert s[6] == '/';
      assert s[7..7 + |p|] == source[1..];
      assert PathAt(s, 7, p);
    } else {
      assert PathAt(s, 6, p);
    }
    assert SrcAt(s, 1, p);
  }
}

=== FILE: import_check.dfy ===
/** The browser-side check of frontend/js/modules/ImportHandler.js (`validateFile`)
    that runs before an upload is sent: a file must be chosen, be at most 50 MB, and
    carry an `xlsx` or `json` extension. A thrown `Error` is a `Fail` with its message. */
module ImportCheck {
  import opened Results
  import opened JsString

  /** The chosen file: its name and its size in bytes. */
  datatype Upload = Upload(name: string, size: int)

  /** 50 MB in bytes. */
  const MaxSize: int := 50 * 1024 * 1024
  const AllowedTypes: seq<string> := ["xlsx", "json"]

  const NoFile := "Please select a file to import"
  const TooLarge := "File size exceeds 50MB limit"
  const BadType := "Invalid file type. Only Excel (.xlsx) and JSON files are allowed."

  /** `name.toLowerCase().split(".").pop()`: the lower-cased name's longest suffix without
      a `.`, which is the whole name when it has no `.` at all. */
  function Extension(name: string): (r: string)
    ensures '.' !in r
    ensures EndsWith(ToLower(name), r)
    ensures |r| == |name| || ToLower(name)[|name| - |r| - 1] == '.'
  {
    var lower := ToLower(name);
    match LastIndexOf(lower, '.')
    case None => lower
    case Some(i) =>
      var r := lower[i + 1..];
      assert forall j :: 0 <= j < |r| ==> r[j] == lower[i + 1 + j];
      r
  }

  /** `base.ext` has the extension `ext`, lower-cased, whatever `base` holds. */
  lemma ExtensionOfDotted(base: string, ext: string)
    requires '.' !in ext
    ensures Extension(base + "." + ext) == ToLower(ext)
  {
    var name := base + "." + ext;
    var lower := ToLower(name);
    assert lower[|base|] == '.';
    forall j | |base| < j < |lower| ensures lower[j] != '.' {
      assert name[j] == ext[j - |base| - 1];
      assert ext[j - |base| - 1] in ext;
    }
    assert LastIndexOf(lower, '.') == Some(|base|);
    assert lower[|base| + 1..] == ToLower(ext);
  }

  /** A name without any `.` is its own extension. */
  lemma ExtensionOfUndotted(name: string)
    requires '.' !in name
    ensures Extension(name) == ToLower(name)
  {
    var lower := ToLower(name);
    forall j | 0 <= j < |lower| ensures lower[j] != '.' {
      assert name[j] in name;
    }
    assert '.' !in lower;
  }

  /** `validateFile`: presence, then size (exactly 50 MB still passes), then type; `true`
      when all three pass. */
  function ValidateFile(file: Option<Upload>): (r: Result<bool>)
    ensures r.Ok? ==> r.value
    ensures file.None? ==> r == Fail(NoFile)
    ensures file.Some? && file.value.size > MaxSize ==> r == Fail(TooLarge)
    ensures file.Some? && file.value.size <= MaxSize && Extension(file.value.name) !in AllowedTypes ==> r == Fail(BadType)
    ensures r.Ok? <==> file.Some? && file.value.size <= MaxSize && Extension(file.value.name) in AllowedTypes
  {
    if file.None? then Fail(NoFile)
    else if file.value.size > MaxSize then Fail(TooLarge)
    else if Extension(file.value.name) !in AllowedTypes then Fail(BadType)
    else Ok(true)
  }

  /** A workbook or JSON file of at most 50 MB passes, whatever the case of its
      extension; any other extension is refused for its type. */
  lemma DottedUploads(base: string, ext: string, size: int)
    requires '.' !in ext && size <= MaxSize
    ensures ValidateFile(Some(Upload(base + "." + ext, size))).Ok? <==> ToLower(ext) == "xlsx" || ToLower(ext) == "json"
    ensures ValidateFile(Some(Upload(base + "." + ext, size))).Fail? ==>
      ValidateFile(Some(Upload(base + "." + ext, size))).message == BadType
  {
    ExtensionOfDotted(base, ext);
  }

  /** A file of exactly 50 MB is accepted and one byte more is refused. */
  lemma SizeBoundary(base: string)
    ensures ValidateFile(Some(Upload(base + ".xlsx", MaxSize))) == Ok(true)
    ensures ValidateFile(Some(Upload(base + ".xlsx", MaxSize + 1))) == Fail(TooLarge)
  {
    assert base + ".xlsx" == base + "." + "xlsx";
    KnownExtension(base, "xlsx");
  }

  /** A file named just `json`, with no extension at all, passes the type check. */
  lemma BareTypeName()
    ensures ValidateFile(Some(Upload("json", 0))) == Ok(true)
  {
    ExtensionOfUndotted("json");
    LowerKnown();
  }

  /** Only the last extension counts: `book.xlsx.zip` is refused. */
  lemma LastExtensionCounts(base: string)
    ensures ValidateFile(Some(Upload(base + ".xlsx" + ".zip", 0))) == Fail(BadType)
  {
    assert base + ".xlsx" + ".zip" == (base + ".xlsx") + "." + "zip";
    KnownExtension(base + ".xlsx", "zip");
  }

  /** The extension of `base` + `.` + one of the lower-case words used above. */
  lemma KnownExtension(base: string, ext: string)
    requires ext in {"xlsx", "json", "zip"}
    ensures Extension(base + "." + ext) == ext
    ensures Extension(base + "." + ext) in AllowedTypes <==> ext != "zip"
  {
    assert '.' !in ext;
    ExtensionOfDotted(base, ext);
    LowerKnown();
  }

  lemma LowerKnown()
    ensures ToLower("xlsx") == "xlsx" && ToLower("json") == "json" && ToLower("zip") == "zip"
  {
  }
}

=== FILE: js_string.dfy ===
/** The string primitives of JavaScript that the import pipeline leans on, with the
    properties the rest of the model needs: `trim`, `toLowerCase`, first-occurrence
    `indexOf`/`replace`, the slash-rewriting regular expressions, decimal printing of
    integers and the grammar `Number(string)` accepts (what `isNaN` tests). */
module JsString {
  import opened Results

  // ---------------------------------------------------------------------------
  // White space and trimming

  /** The code points `String.prototype.trim` removes and the regex class `\s` matches:
      ECMAScript's WhiteSpace (tab, vertical tab, form feed, space, no-break space,
      byte order mark and the Zs category) and LineTerminator. */
  predicate IsSpace(c: char) {
    || c == '\t' || c == '\n' || c == '\U{000B}' || c == '\U{000C}' || c == '\r'
    || c == ' ' || c == '\U{00A0}' || c == '\U{1680}'
    || ('\U{2000}' <= c <= '\U{200A}')
    || c == '\U{2028}' || c == '\U{2029}' || c == '\U{202F}' || c == '\U{205F}'
    || c == '\U{3000}' || c == '\U{FEFF}'
  }

  predicate AllSpace(s: string) {
    forall i :: 0 <= i < |s| ==> IsSpace(s[i])
  }

  /** `s` has no white space at either end. */
  predicate IsTrimmed(s: string) {
    s == [] || (!IsSpace(s[0]) && !IsSpace(s[|s| - 1]))
  }

  /** `r` sits at index `i` of `s` with only white space before and after it. */
  ghost predicate TrimmedAt(r: string, s: string, i: int) {
    0 <= i <= |s| - |r| && s[i..i + |r|] == r && AllSpace(s[..i]) && AllSpace(s[i + |r|..])
  }

  /** `r` is what is left of `s` once its leading and trailing white space are removed. */
  ghost predicate IsTrimOf(r: string, s: string) {
    IsTrimmed(r) && exists i :: TrimmedAt(r, s, i)
  }

  function TrimStart(s: string): (r: string)
    ensures |r| <= |s| && r == s[|s| - |r|..]
    ensures AllSpace(s[..|s| - |r|])
    ensures r == [] || !IsSpace(r[0])
  {
    if s != [] && IsSpace(s[0]) then
      var r := TrimStart(s[1..]);
      SpaceLedSuffix(s, r);
      r
    else
      s
  }

  /** A suffix of `s[1..]` with only white space before it, when `s` starts with white
      space, has only white space before it in `s` too. */
  lemma SpaceLedSuffix(s: string, r: string)
    requires s != [] && IsSpace(s[0]) && |r| <= |s| - 1
    requires r == s[1..][|s| - 1 - |r|..] && AllSpace(s[1..][..|s| - 1 - |r|])
    ensures r == s[|s| - |r|..] && AllSpace(s[..|s| - |r|])
  {
    var n := |s| - |r|;
    forall k | 0 <= k < n ensures IsSpace(s[..n][k]) {
      if k > 0 { assert s[..n][k] == s[1..][..n - 1][k - 1]; }
    }
  }

  function TrimEnd(s: string): (r: string)
    ensures |r| <= |s| && r == s[..|r|]
    ensures AllSpace(s[|r|..])
    ensures r == [] || !IsSpace(r[|r| - 1])
  {
    if s != [] && IsSpace(s[|s| - 1]) then
      var r := TrimEnd(s[..|s| - 1]);
      SpaceTrailedPrefix(s, r);
      r
    else
      s
  }

  /** A prefix of `s[..|s| - 1]` with only white space after it, when `s` ends with
      white space, has only white space after it in `s` too. */
  lemma SpaceTrailedPrefix(s: string, r: string)
    requires s != [] && IsSpace(s[|s| - 1]) && |r| <= |s| - 1
    requires r == s[..|s| - 1][..|r|] && AllSpace(s[..|s| - 1][|r|..])
    ensures r == s[..|r|] && AllSpace(s[|r|..])
  {
    var n := |r|;
    forall j | 0 <= j < |s| - n ensures IsSpace(s[n..][j]) {
      if j < |s| - 1 - n { assert s[n..][j] == s[..|s| - 1][n..][j]; }
    }
  }

  /** JavaScript's `String.prototype.trim`. */
  function Trim(s: string): (r: string)
    ensures IsTrimOf(r, s)
    ensures AllSpace(s) <==> r == []
  {
    var r := TrimEnd(TrimStart(s));
    TrimFacts(s);
    r
  }

  lemma TrimFacts(s: string)
    ensures IsTrimOf(TrimEnd(TrimStart(s)), s)
    ensures AllSpace(s) <==> TrimEnd(TrimStart(s)) == []
  {
    var a := TrimStart(s);
    var r := TrimEnd(a);
    var i := |s| - |a|;
    TrimWitness(s, a, r, i);
    if r != [] {
      assert r[0] == a[0];
    }
    if r == [] {
      BlankTrim(s, a, i);
    }
  }

  lemma TrimWitness(s: string, a: string, r: string, i: int)
    requires 0 <= i <= |s| && a == s[i..] && AllSpace(s[..i])
    requires |r| <= |a| && r == a[..|r|] && AllSpace(a[|r|..])
    ensures TrimmedAt(r, s, i)
  {
    assert s[i..i + |r|] == a[..|r|];
    assert s[i + |r|..] == a[|r|..];
  }

  lemma BlankTrim(s: string, a: string, i: int)
    requires a == TrimStart(s) && TrimEnd(a) == [] && i == |s| - |a|
    ensures AllSpace(s)
  {
    assert a[|TrimEnd(a)|..] == a;
    assert a == s[i..];
    forall k | 0 <= k < |s| ensures IsSpace(s[k]) {
      if k < i {
        assert s[k] == s[..i][k];
      } else {
        assert s[k] == a[k - i];
      }
    }
  }

  /** A string with no white space at its ends is its own trim. */
  lemma TrimOfTrimmed(s: string)
    requires IsTrimmed(s)
    ensures Trim(s) == s
  {
  }

  /** Trimming twice is trimming once. */
  lemma TrimIdempotent(s: string)
    ensures Trim(Trim(s)) == Trim(s)
  {
    TrimOfTrimmed(Trim(s));
  }

  /** Trimming keeps a first character that is not white space. */
  lemma TrimKeepsLead(s: string)
    requires s != [] && !IsSpace(s[0])
    ensures Trim(s) != [] && Trim(s)[0] == s[0]
  {
    var r := Trim(s);
    assert !AllSpace(s);
    var i :| TrimmedAt(r, s, i);
    assert r[0] == s[i..i + |r|][0];
  }

  /** A space in front of trimmed text is trimmed away. */
  lemma TrimSpaceLed(t: string)
    requires IsTrimmed(t)
    ensures Trim(" " + t) == t
  {
    assert (" " + t)[1..] == t;
    assert TrimStart(t) == t;
    assert TrimEnd(t) == t;
  }

  // ---------------------------------------------------------------------------
  // Case

  /** `toLowerCase` on one code point; only the ASCII letters are mapped. */
  function LowerChar(c: char): char {
    if 'A' <= c <= 'Z' then (c as int + 32) as char else c
  }

  function ToLower(s: string): (r: string)
    ensures |r| == |s|
    ensures forall i :: 0 <= i < |s| ==> r[i] == LowerChar(s[i])
  {
    seq(|s|, i requires 0 <= i < |s| => LowerChar(s[i]))
  }

  lemma LowerKeepsSpace(c: char)
    ensures IsSpace(LowerChar(c)) == IsSpace(c)
  {
  }

  /** Lower-casing and trimming commute: `s.toLowerCase().trim() == s.trim().toLowerCase()`. */
  lemma {:induction false} TrimLowerCommute(s: string)
    ensures Trim(ToLower(s)) == ToLower(Trim(s))
  {
    TrimStartLowerCommute(s);
    TrimEndLowerCommute(TrimStart(s));
  }

  lemma {:induction false} TrimStartLowerCommute(s: string)
    ensures TrimStart(ToLower(s)) == ToLower(TrimStart(s))
    decreases |s|
  {
    if s != [] {
      LowerKeepsSpace(s[0]);
      if IsSpace(s[0]) {
        assert ToLower(s)[1..] == ToLower(s[1..]);
        TrimStartLowerCommute(s[1..]);
      }
    }
  }

  lemma {:induction false} TrimEndLowerCommute(s: string)
    ensures TrimEnd(ToLower(s)) == ToLower(TrimEnd(s))
    decreases |s|
  {
    if s != [] {
      LowerKeepsSpace(s[|s| - 1]);
      if IsSpace(s[|s| - 1]) {
        assert ToLower(s)[..|s| - 1] == ToLower(s[..|s| - 1]);
        TrimEndLowerCommute(s[..|s| - 1]);
      }
    }
  }

  // ---------------------------------------------------------------------------
  // Searching and first-occurrence replacement

  predicate StartsWith(s: string, prefix: string) {
    |prefix| <= |s| && s[..|prefix|] == prefix
  }

  predicate EndsWith(s: string, suffix: string) {
    |suffix| <= |s| && s[|s| - |suffix|..] == suffix
  }

  /** `pat` occurs in `s` starting at index `k`. */
  predicate OccursAt(s: string, pat: string, k: int) {
    0 <= k && k + |pat| <= |s| && s[k..k + |pat|] == pat
  }

  /** `String.prototype.indexOf`: the first index at which `pat` occurs, if any. */
  function IndexOf(s: string, pat: string): (r: Option<nat>)
    ensures r.Some? ==> OccursAt(s, pat, r.value)
    ensures r.Some? ==> forall k :: 0 <= k < r.value ==> !OccursAt(s, pat, k)
    ensures r.None? ==> forall k :: !OccursAt(s, pat, k)
  {
    IndexFrom(s, pat, 0)
  }

  function IndexFrom(s: string, pat: string, from: nat): (r: Option<nat>)
    requires forall k :: 0 <= k < from ==> !OccursAt(s, pat, k)
    ensures r.Some? ==> from <= r.value && OccursAt(s, pat, r.value)
    ensures r.Some? ==> forall k :: 0 <= k < r.value ==> !OccursAt(s, pat, k)
    ensures r.None? ==> forall k :: !OccursAt(s, pat, k)
    decreases |s| - from
  {
    if from + |pat| > |s| then None
    else if s[from..from + |pat|] == pat then Some(from)
    else IndexFrom(s, pat, from + 1)
  }

  /** The first index at or after `from` holding `c`. */
  function CharFrom(s: string, c: char, from: nat): (r: Option<nat>)
    ensures r.Some? ==> from <= r.value < |s| && s[r.value] == c
    ensures r.Some? ==> forall j :: from <= j < r.value ==> s[j] != c
    ensures r.None? ==> forall j :: from <= j < |s| ==> s[j] != c
    decreases |s| - from
  {
    if from >= |s| then None
    else if s[from] == c then Some(from)
    else CharFrom(s, c, from + 1)
  }

  lemma CharIsFirst(s: string, c: char, from: nat, j: nat)
    requires from <= j < |s| && s[j] == c
    requires forall i :: from <= i < j ==> s[i] != c
    ensures CharFrom(s, c, from) == Some(j)
    decreases j - from
  {
    if from < j {
      CharIsFirst(s, c, from + 1, j);
    }
  }

  /** The last index holding `c`. */
  function LastIndexOf(s: string, c: char): (r: Option<nat>)
    ensures r.Some? ==> r.value < |s| && s[r.value] == c && forall j :: r.value < j < |s| ==> s[j] != c
    ensures r.None? ==> c !in s
  {
    if s == [] then None
    else if s[|s| - 1] == c then Some(|s| - 1)
    else
      var r := LastIndexOf(s[..|s| - 1], c);
      assert s == s[..|s| - 1] + [s[|s| - 1]];
      r
  }

  predicate Contains(s: string, pat: string) {
    IndexOf(s, pat).Some?
  }

  /** An occurrence of `pat` inside a piece of `s` is an occurrence in `s`. */
  lemma OccursInSlice(s: string, lo: int, hi: int, pat: string, k: int)
    requires 0 <= lo <= hi <= |s|
    requires OccursAt(s[lo..hi], pat, k)
    ensures OccursAt(s, pat, lo + k)
  {
    forall j | 0 <= j < |pat| ensures s[lo + k + j] == pat[j] {
      assert s[lo..hi][k..k + |pat|][j] == pat[j];
    }
    assert s[lo + k..lo + k + |pat|] == pat;
  }

  /** `s.replace(pat, rep)` with a string pattern: only the first occurrence is replaced. */
  function ReplaceFirst(s: string, pat: string, rep: string): (r: string)
    ensures IndexOf(s, pat).None? ==> r == s
    ensures IndexOf(s, pat).Some? ==>
      var k := IndexOf(s, pat).value;
      r == s[..k] + rep + s[k + |pat|..]
  {
    match IndexOf(s, pat)
    case None => s
    case Some(k) => s[..k] + rep + s[k + |pat|..]
  }

  /** `s.replace(/from/g, to)` for a one-character pattern. */
  function ReplaceEveryChar(s: string, from: char, to: char): (r: string)
    ensures |r| == |s|
    ensures forall i :: 0 <= i < |s| ==> r[i] == (if s[i] == from then to else s[i])
  {
    seq(|s|, i requires 0 <= i < |s| => if s[i] == from then to else s[i])
  }

  // ---------------------------------------------------------------------------
  // Slashes

  /** No two consecutive `/`. */
  predicate NoDoubleSlash(s: string) {
    forall i :: 0 <= i < |s| - 1 ==> !(s[i] == '/' && s[i + 1] == '/')
  }

  /** The characters of `s` other than `/`, in order. */
  function WithoutSlashes(s: string): string {
    if s == [] then [] else (if s[0] == '/' then [] else [s[0]]) + WithoutSlashes(s[1..])
  }

  lemma {:induction false} WithoutSlashesAppend(a: string, b: string)
    ensures WithoutSlashes(a + b) == WithoutSlashes(a) + WithoutSlashes(b)
    decreases |a|
  {
    if a == [] {
      assert a + b == b;
    } else {
      assert (a + b)[0] == a[0];
      assert (a + b)[1..] == a[1..] + b;
      WithoutSlashesAppend(a[1..], b);
    }
  }

  /** A string without `/` loses nothing. */
  lemma {:induction false} WithoutSlashesNone(s: string)
    requires '/' !in s
    ensures WithoutSlashes(s) == s
    decreases |s|
  {
    if s != [] {
      assert s[0] in s;
      assert '/' !in s[1..] by {
        forall c | c in s[1..] ensures c != '/' {
          assert c in s;
        }
      }
      WithoutSlashesNone(s[1..]);
      assert s == [s[0]] + s[1..];
    }
  }

  /** `s.replace(/\/+/g, "/")`: every run of `/` becomes a single `/`. The result has no
      `//`, loses no other character, and keeps the first and the last character. */
  function CollapseSlashes(s: string): (r: string)
    ensures NoDoubleSlash(r)
    ensures WithoutSlashes(r) == WithoutSlashes(s)
    ensures |r| <= |s|
    ensures |s| > 0 ==> |r| > 0 && r[0] == s[0] && r[|r| - 1] == s[|s| - 1]
    ensures NoDoubleSlash(s) ==> r == s
    decreases |s|
  {
    if |s| <= 1 then s
    else if s[0] == '/' && s[1] == '/' then
      var r := CollapseSlashes(s[1..]);
      DropDoubledSlash(s, r);
      r
    else
      var t := CollapseSlashes(s[1..]);
      ConsCollapsed(s, t);
      [s[0]] + t
  }

  /** The step of `CollapseSlashes` that drops the first of two `/`. */
  lemma DropDoubledSlash(s: string, r: string)
    requires |s| > 1 && s[0] == '/' && s[1] == '/'
    requires NoDoubleSlash(r) && WithoutSlashes(r) == WithoutSlashes(s[1..]) && |r| <= |s| - 1
    requires |r| > 0 && r[0] == s[1] && r[|r| - 1] == s[1..][|s| - 2]
    ensures WithoutSlashes(r) == WithoutSlashes(s)
    ensures r[0] == s[0] && r[|r| - 1] == s[|s| - 1]
    ensures !NoDoubleSlash(s)
  {
    assert WithoutSlashes(s) == WithoutSlashes(s[1..]);
  }

  /** The step of `CollapseSlashes` that keeps the first character. */
  lemma ConsCollapsed(s: string, t: string)
    requires |s| > 1 && !(s[0] == '/' && s[1] == '/')
    requires NoDoubleSlash(t) && |t| > 0 && t[0] == s[1]
    requires WithoutSlashes(t) == WithoutSlashes(s[1..])
    requires NoDoubleSlash(s[1..]) ==> t == s[1..]
    requires |t| <= |s| - 1 && t[|t| - 1] == s[1..][|s| - 2]
    ensures |[s[0]] + t| <= |s| && ([s[0]] + t)[0] == s[0] && ([s[0]] + t)[|t|] == s[|s| - 1]
    ensures NoDoubleSlash([s[0]] + t)
    ensures WithoutSlashes([s[0]] + t) == WithoutSlashes(s)
    ensures NoDoubleSlash(s) ==> [s[0]] + t == s
  {
    var r := [s[0]] + t;
    forall i | 0 <= i < |r| - 1 ensures !(r[i] == '/' && r[i + 1] == '/') {
      if i > 0 { assert r[i] == t[i - 1] && r[i + 1] == t[i]; }
    }
    WithoutSlashesAppend([s[0]], t);
    WithoutSlashesAppend([s[0]], s[1..]);
    assert [s[0]] + s[1..] == s;
    if NoDoubleSlash(s) {
      forall i | 0 <= i < |s[1..]| - 1 ensures !(s[1..][i] == '/' && s[1..][i + 1] == '/') {
        assert s[1..][i] == s[i + 1] && s[1..][i + 1] == s[i + 2];
      }
    }
  }

  /** A doubled `/` anywhere collapses as a single one. With the identity on strings that
      have no `//`, this fixes the result of every input: removing one `/` of a pair at a
      time reaches a string without `//`, and every run of `/` ends as exactly one. */
  lemma {:induction false} CollapseDoubled(x: string, y: string)
    ensures CollapseSlashes(x + "//" + y) == CollapseSlashes(x + "/" + y)
    decreases |x|
  {
    var s, t := x + "//" + y, x + "/" + y;
    if x == [] {
      assert s[1..] == t;
    } else {
      assert s[0] == t[0] == x[0];
      assert s[1] == t[1];
      assert s[1..] == x[1..] + "//" + y;
      assert t[1..] == x[1..] + "/" + y;
      CollapseDoubled(x[1..], y);
    }
  }

  /** Collapsing keeps a prefix that holds no `/`. */
  lemma {:induction false} CollapseKeepsPrefix(s: string, p: string)
    requires StartsWith(s, p) && '/' !in p
    ensures StartsWith(CollapseSlashes(s), p)
    decreases |p|
  {
    if p != [] && |s| > 1 {
      assert s[0] == p[0];
      assert StartsWith(s[1..], p[1..]) by {
        assert s[1..][..|p| - 1] == s[..|p|][1..];
      }
      assert '/' !in p[1..] by {
        forall c | c in p[1..] ensures c != '/' {
          assert c in p;
        }
      }
      CollapseKeepsPrefix(s[1..], p[1..]);
      var t := CollapseSlashes(s[1..]);
      assert s[0] != '/' by {
        assert p[0] in p;
      }
      assert CollapseSlashes(s) == [s[0]] + t;
      ConsKeepsPrefix(s[0], t, p);
    }
  }

  lemma ConsKeepsPrefix(c: char, t: string, p: string)
    requires p != [] && p[0] == c && StartsWith(t, p[1..])
    ensures StartsWith([c] + t, p)
  {
    assert ([c] + t)[..|p|] == [c] + t[..|p| - 1];
    assert p == [p[0]] + p[1..];
  }

  /** Collapsing keeps a suffix that is already collapsed. */
  lemma {:induction false} CollapseKeepsSuffix(s: string, t: string)
    requires EndsWith(s, t) && NoDoubleSlash(t) && t != []
    ensures EndsWith(CollapseSlashes(s), t)
    decreases |s|
  {
    if |s| == |t| {
      assert s == t;
    } else {
      assert EndsWith(s[1..], t) by {
        assert s[1..][|s[1..]| - |t|..] == s[|s| - |t|..];
      }
      CollapseKeepsSuffix(s[1..], t);
      var r := CollapseSlashes(s[1..]);
      assert CollapseSlashes(s) == r || CollapseSlashes(s) == [s[0]] + r;
      ConsKeepsSuffix(s[0], r, t);
    }
  }

  lemma ConsKeepsSuffix(c: char, r: string, t: string)
    requires EndsWith(r, t)
    ensures EndsWith([c] + r, t)
  {
    assert ([c] + r)[|[c] + r| - |t|..] == r[|r| - |t|..];
  }

  /** Joining two collapsed pieces that do not meet in `//` gives a collapsed string. */
  lemma NoDoubleSlashAppend(a: string, b: string)
    requires NoDoubleSlash(a) && NoDoubleSlash(b)
    requires !(a != [] && b != [] && a[|a| - 1] == '/' && b[0] == '/')
    ensures NoDoubleSlash(a + b)
  {
    var s := a + b;
    forall i | 0 <= i < |s| - 1 ensures !(s[i] == '/' && s[i + 1] == '/') {
      if i + 1 < |a| {
        assert s[i] == a[i] && s[i + 1] == a[i + 1];
      } else if i >= |a| {
        assert s[i] == b[i - |a|] && s[i + 1] == b[i + 1 - |a|];
      }
    }
  }

  /** `r` sits at index `i` of `s` with only `/` before and after it. */
  ghost predicate SlashPaddedAt(r: string, s: string, i: int) {
    && 0 <= i <= |s| - |r| && s[i..i + |r|] == r
    && (forall k :: 0 <= k < i ==> s[k] == '/')
    && (forall k :: i + |r| <= k < |s| ==> s[k] == '/')
  }

  /** `s.replace(/^\/+|\/+$/g, "")`: removes every leading and every trailing `/`. */
  function StripOuterSlashes(s: string): (r: string)
    ensures r == [] || (r[0] != '/' && r[|r| - 1] != '/')
    ensures exists i :: SlashPaddedAt(r, s, i)
  {
    var a := DropLeadingSlashes(s);
    var r := DropTrailingSlashes(a);
    var i := |s| - |a|;
    assert s[i..i + |r|] == r;
    assert r != [] ==> r[0] == a[0];
    forall k | i + |r| <= k < |s| ensures s[k] == '/' {
      assert s[k] == a[k - i];
    }
    assert SlashPaddedAt(r, s, i);
    r
  }

  function DropLeadingSlashes(s: string): (r: string)
    ensures |r| <= |s| && r == s[|s| - |r|..]
    ensures forall k :: 0 <= k < |s| - |r| ==> s[k] == '/'
    ensures r == [] || r[0] != '/'
  {
    if s != [] && s[0] == '/' then DropLeadingSlashes(s[1..]) else s
  }

  function DropTrailingSlashes(s: string): (r: string)
    ensures |r| <= |s| && r == s[..|r|]
    ensures forall k :: |r| <= k < |s| ==> s[k] == '/'
    ensures r == [] || r[|r| - 1] != '/'
  {
    if s != [] && s[|s| - 1] == '/' then DropTrailingSlashes(s[..|s| - 1]) else s
  }

  // ---------------------------------------------------------------------------
  // Decimal digits

  predicate IsDigit(c: char) {
    '0' <= c <= '9'
  }

  predicate AllDigits(s: string) {
    forall i :: 0 <= i < |s| ==> IsDigit(s[i])
  }

  function DigitChar(d: nat): (c: char)
    requires d < 10
    ensures IsDigit(c)
  {
    ('0' as int + d) as char
  }

  /** The value of a string of decimal digits (the empty string reads as 0). */
  function DigitsValue(s: string): nat
    requires AllDigits(s)
  {
    if s == [] then 0 else DigitsValue(s[..|s| - 1]) * 10 + (s[|s| - 1] as int - '0' as int)
  }

  /** The decimal text of a non-negative integer, as `String(n)` prints it. */
  function NatText(n: nat): (r: string)
    ensures |r| >= 1 && AllDigits(r)
    ensures r[0] == '0' ==> n == 0 && r == "0"
    decreases n
  {
    if n < 10 then [DigitChar(n)] else NatText(n / 10) + [DigitChar(n % 10)]
  }

  /** Reading back a printed number gives the number. */
  lemma {:induction false} NatTextRoundTrip(n: nat)
    ensures DigitsValue(NatText(n)) == n
    decreases n
  {
    if n >= 10 {
      NatTextRoundTrip(n / 10);
      assert NatText(n)[..|NatText(n)| - 1] == NatText(n / 10);
    }
  }

  /** Printing is injective: distinct numbers have distinct decimal texts. */
  lemma NatTextInjective(m: nat, n: nat)
    requires NatText(m) == NatText(n)
    ensures m == n
  {
    NatTextRoundTrip(m);
    NatTextRoundTrip(n);
  }

  /** `String(n)` for an integer. */
  function IntText(n: int): (r: string)
    ensures |r| >= 1
    ensures n >= 0 ==> r == NatText(n)
    ensures n < 0 ==> r[0] == '-'
  {
    if n >= 0 then NatText(n) else "-" + NatText(-n)
  }

  // ---------------------------------------------------------------------------
  // The StringNumericLiteral grammar: `isNaN(s)` is false exactly for these strings

  predicate IsDigitRun(s: string) {
    |s| > 0 && AllDigits(s)
  }

  /** DecimalDigits with an optional `.` fraction, not both sides empty. */
  predicate IsMantissa(m: string) {
    match IndexOf(m, ".")
    case None => IsDigitRun(m)
    case Some(k) => AllDigits(m[..k]) && AllDigits(m[k + 1..]) && (k > 0 || k + 1 < |m|)
  }

  predicate IsExponentDigits(e: string) {
    IsDigitRun(e) || (|e| > 0 && (e[0] == '+' || e[0] == '-') && IsDigitRun(e[1..]))
  }

  function ExponentMark(t: string): (r: Option<nat>)
    ensures r.Some? ==> r.value < |t| && (t[r.value] == 'e' || t[r.value] == 'E')
  {
    match IndexOf(t, "e")
    case Some(k) =>
      (match IndexOf(t, "E")
       case Some(j) => if j < k then Some(j) else Some(k)
       case None => Some(k))
    case None => IndexOf(t, "E")
  }

  predicate IsUnsignedDecimal(t: string) {
    || t == "Infinity"
    || (match ExponentMark(t)
        case None => IsMantissa(t)
        case Some(k) => IsMantissa(t[..k]) && IsExponentDigits(t[k + 1..]))
  }

  predicate IsSignedDecimal(t: string) {
    if |t| > 0 && (t[0] == '+' || t[0] == '-') then IsUnsignedDecimal(t[1..]) else IsUnsignedDecimal(t)
  }

  predicate IsHexDigit(c: char) {
    IsDigit(c) || 'a' <= c <= 'f' || 'A' <= c <= 'F'
  }

  /** `0x…`, `0o…` and `0b…` integer literals. */
  predicate IsNonDecimalInteger(t: string) {
    && |t| > 2 && t[0] == '0'
    && (|| ((t[1] == 'x' || t[1] == 'X') && forall i :: 2 <= i < |t| ==> IsHexDigit(t[i]))
        || ((t[1] == 'o' || t[1] == 'O') && forall i :: 2 <= i < |t| ==> '0' <= t[i] <= '7')
        || ((t[1] == 'b' || t[1] == 'B') && forall i :: 2 <= i < |t| ==> '0' <= t[i] <= '1'))
  }

  /** `!isNaN(s)` for a string `s`: `Number(s)` is not NaN. White space at the ends is
      ignored and a blank string converts to 0. */
  predicate IsNumericText(s: string) {
    var t := Trim(s);
    t == [] || IsSignedDecimal(t) || IsNonDecimalInteger(t)
  }

  /** Every printed natural number is numeric text. */
  lemma NatTextIsNumeric(n: nat)
    ensures IsNumericText(NatText(n))
  {
    var t := NatText(n);
    assert IsTrimmed(t) by {
      assert IsDigit(t[0]) && IsDigit(t[|t| - 1]);
    }
    TrimOfTrimmed(t);
    DigitRunIsDecimal(t);
    assert IsSignedDecimal(Trim(t));
  }

  lemma DigitRunIsDecimal(t: string)
    requires IsDigitRun(t)
    ensures IsSignedDecimal(t)
  {
    NoMarkInDigits(t, '.');
    NoMarkInDigits(t, 'e');
    NoMarkInDigits(t, 'E');
    assert ExponentMark(t).None?;
    assert IsMantissa(t);
    assert !(t[0] == '+' || t[0] == '-');
  }

  /** A run of digits contains no occurrence of a non-digit character. */
  lemma NoMarkInDigits(t: string, c: char)
    requires AllDigits(t) && !IsDigit(c)
    ensures IndexOf(t, [c]).None?
  {
    assert forall k :: OccursAt(t, [c], k) ==> t[k] == t[k..k + 1][0];
  }

  /** A mantissa starts with a digit or the decimal point. */
  lemma MantissaLead(m: string)
    requires IsMantissa(m)
    ensures m != [] && (IsDigit(m[0]) || m[0] == '.')
  {
    match IndexOf(m, ".")
    case None =>
    case Some(k) =>
      if k == 0 {
        assert m[0..1][0] == m[0];
      } else {
        assert m[..k][0] == m[0];
      }
  }

  /** An unsigned decimal literal is `Infinity` or starts with a digit or the point. */
  lemma UnsignedLead(t: string)
    requires IsUnsignedDecimal(t)
    ensures t == "Infinity" || (t != [] && (IsDigit(t[0]) || t[0] == '.'))
  {
    if t != "Infinity" {
      match ExponentMark(t)
      case None => MantissaLead(t);
      case Some(k) =>
        MantissaLead(t[..k]);
        assert t[..k][0] == t[0];
    }
  }

  /** Text that converts to a number starts, after trimming, with a digit, a sign, the
      point or the `I` of `Infinity`; a letter anywhere else in front makes it NaN. */
  lemma NumericLead(s: string)
    requires IsNumericText(s) && Trim(s) != []
    ensures var t := Trim(s); IsDigit(t[0]) || t[0] in {'+', '-', '.', 'I'}
  {
    var t := Trim(s);
    if !IsNonDecimalInteger(t) && !(t[0] == '+' || t[0] == '-') {
      UnsignedLead(t);
    }
  }
}

=== FILE: js_value.dfy ===
/** Loosely typed JavaScript values, the shape of everything the import pipeline reads
    from parsed JSON, worksheet cells and request bodies, with the three JavaScript
    operations the pipeline applies to them everywhere: truthiness, `typeof` and `String()`. */
module JsValue {
  import opened JsString

  /** A JavaScript value. Numbers are integers; objects are plain records of own
      properties. */
  datatype Value =
    | Undefined
    | Null
    | Bool(b: bool)
    | Num(n: int)
    | Str(s: string)
    | Arr(items: seq<Value>)
    | Obj(fields: map<string, Value>)

  /** `v === null || v === undefined`: reading a property of such a value throws. */
  predicate IsNullish(v: Value) {
    v.Undefined? || v.Null?
  }

  /** JavaScript truthiness: `false`, `0`, `""`, `null` and `undefined` are falsy. */
  predicate Truthy(v: Value) {
    match v
    case Undefined => false
    case Null => false
    case Bool(b) => b
    case Num(n) => n != 0
    case Str(s) => s != ""
    case Arr(_) => true
    case Obj(_) => true
  }

  function TypeOf(v: Value): (r: string)
    ensures r == "object" <==> v.Null? || v.Arr? || v.Obj?
  {
    match v
    case Undefined => "undefined"
    case Null => "object"
    case Bool(_) => "boolean"
    case Num(_) => "number"
    case Str(_) => "string"
    case Arr(_) => "object"
    case Obj(_) => "object"
  }

  /** `v[key]` for a value that is not nullish. Only objects carry the record properties
      the pipeline reads; on any other value they are `undefined`. */
  function Get(v: Value, key: string): (r: Value)
    requires !IsNullish(v)
    ensures v.Obj? && key in v.fields ==> r == v.fields[key]
    ensures !(v.Obj? && key in v.fields) ==> r == Undefined
  {
    if v.Obj? && key in v.fields then v.fields[key] else Undefined
  }

  /** `String(v)`. Array elements that are `null` or `undefined` print as empty text. */
  function ToStr(v: Value): (r: string)
    ensures v.Str? ==> r == v.s
    ensures v.Num? ==> r == IntText(v.n)
    decreases v
  {
    match v
    case Undefined => "undefined"
    case Null => "null"
    case Bool(b) => if b then "true" else "false"
    case Num(n) => IntText(n)
    case Str(s) => s
    case Arr(items) => Join(seq(|items|, i requires 0 <= i < |items| => if IsNullish(items[i]) then "" else ToStr(items[i])), ",")
    case Obj(_) => "[object Object]"
  }

  /** `parts.join(sep)`. */
  function Join(parts: seq<string>, sep: string): (r: string)
    ensures |parts| == 1 ==> r == parts[0]
    ensures |parts| == 0 ==> r == ""
  {
    if |parts| == 0 then "" else if |parts| == 1 then parts[0] else parts[0] + sep + Join(parts[1..], sep)
  }

  /** The message of the TypeError raised by reading `key` from `null` or `undefined`. */
  function ReadError(v: Value, key: string): string {
    "Cannot read properties of " + ToStr(v) + " (reading '" + key + "')"
  }

  /** The message of the TypeError raised by calling a method a value does not have. */
  function NotAFunction(call: string): string {
    call + " is not a function"
  }
}

=== FILE: json_parser.dfy ===
/** The JSON upload reader of backend/services/jsonParser.js (`parseJsonFile`). Decoding
    the bytes is abstracted away: the input is what `JSON.parse` returns, or the message
    of the error it throws. */
module JsonParser {
  import opened Results
  import opened JsValue
  import opened Sequences

  const StructureError := "Invalid JSON structure. Missing required fields."
  const RowError := "Invalid row data. Missing required fields."
  const ParseFailure := "Failed to parse JSON file. Please ensure it matches the expected format."

  /** The metadata block, copied field by field (a missing field is `undefined`). */
  datatype JsonMetadata = JsonMetadata(loId: Value, gradeLevel: Value, relativeLink: Value, generatedDate: Value)

  /** One image row as `parseJsonFile` builds it. The text fields keep whatever value the
      upload held when it was truthy, and are `""` otherwise. */
  datatype JsonRow = JsonRow(
    loTitle: Value,
    imageSource: Value,
    generatedAltText: Value,
    editedAltText: Value,
    generatedVisualDescription: Value,
    editedVisualDescription: Value,
    needsVisualDescription: bool,
    isDecorative: bool)

  datatype JsonResult =
    | JsonParsed(metadata: JsonMetadata, altTextData: seq<JsonRow>, totalProcessed: nat)
    | JsonFailed(error: string)

  /** `v || ""`. */
  function OrEmpty(v: Value): (r: Value)
    ensures Truthy(r) ==> r == v
    ensures !Truthy(r) ==> r == Str("")
  {
    if Truthy(v) then v else Str("")
  }

  /** The row check: an image source, and either edited alt text or an `isDecorative`
      property (of any value, `false` included). */
  predicate RowAccepted(row: Value)
    requires !IsNullish(row)
  {
    Truthy(Get(row, "imageSource")) && (Truthy(Get(row, "editedAltText")) || Get(row, "isDecorative") != Undefined)
  }

  /** The callback of the `map` over the rows. A `null` row throws when its image source
      is read. */
  function ReadJsonRow(row: Value): (r: Result<JsonRow>)
    ensures IsNullish(row) ==> r == Fail(ReadError(row, "imageSource"))
    ensures !IsNullish(row) ==> (r.Ok? <==> RowAccepted(row))
    ensures !IsNullish(row) && r.Fail? ==> r.message == RowError
    ensures r.Ok? ==>
      && r.value.imageSource == Get(row, "imageSource") && Truthy(r.value.imageSource)
      && r.value.editedAltText == OrEmpty(Get(row, "editedAltText"))
      && r.value.needsVisualDescription == Truthy(Get(row, "needsVisualDescription"))
      && r.value.isDecorative == Truthy(Get(row, "isDecorative"))
  {
    if IsNullish(row) then Fail(ReadError(row, "imageSource"))
    else if !RowAccepted(row) then Fail(RowError)
    else
      Ok(JsonRow(
        OrEmpty(Get(row, "loTitle")),
        Get(row, "imageSource"),
        OrEmpty(Get(row, "generatedAltText")),
        OrEmpty(Get(row, "editedAltText")),
        OrEmpty(Get(row, "generatedVisualDescription")),
        OrEmpty(Get(row, "editedVisualDescription")),
        Truthy(Get(row, "needsVisualDescription")),
        Truthy(Get(row, "isDecorative"))))
  }

  /** The whole `map`: every row read in order; the first row that throws aborts it with
      that row's error. */
  function ReadRows(rows: seq<Value>): (r: Result<seq<JsonRow>>)
    ensures r.Ok? <==> forall i :: 0 <= i < |rows| ==> ReadJsonRow(rows[i]).Ok?
    ensures r.Ok? ==> |r.value| == |rows| && forall i :: 0 <= i < |rows| ==> r.value[i] == ReadJsonRow(rows[i]).value
    ensures r.Fail? ==> exists i :: 0 <= i < |rows| && FirstFailure(rows, i) && r.message == ReadJsonRow(rows[i]).message
  {
    if rows == [] then Ok([])
    else
      match ReadJsonRow(rows[0])
      case Fail(e) =>
        assert FirstFailure(rows, 0);
        Fail(e)
      case Ok(first) =>
        var rest := ReadRows(rows[1..]);
        ReadRowsCons(rows, first, rest);
        if rest.Fail? then Fail(rest.message) else Ok([first] + rest.value)
  }

  /** Row `i` is the first row the callback rejects. */
  ghost predicate FirstFailure(rows: seq<Value>, i: nat)
    requires i < |rows|
  {
    ReadJsonRow(rows[i]).Fail? && forall j :: 0 <= j < i ==> ReadJsonRow(rows[j]).Ok?
  }

  lemma ReadRowsCons(rows: seq<Value>, first: JsonRow, rest: Result<seq<JsonRow>>)
    requires rows != [] && ReadJsonRow(rows[0]) == Ok(first)
    requires rest.Ok? <==> forall i :: 0 <= i < |rows[1..]| ==> ReadJsonRow(rows[1..][i]).Ok?
    requires rest.Ok? ==> |rest.value| == |rows[1..]| && forall i :: 0 <= i < |rows[1..]| ==> rest.value[i] == ReadJsonRow(rows[1..][i]).value
    requires rest.Fail? ==> exists i :: 0 <= i < |rows[1..]| && FirstFailure(rows[1..], i) && rest.message == ReadJsonRow(rows[1..][i]).message
    ensures rest.Ok? <==> forall i :: 0 <= i < |rows| ==> ReadJsonRow(rows[i]).Ok?
    ensures rest.Ok? ==> forall i :: 0 <= i < |rows| ==> ([first] + rest.value)[i] == ReadJsonRow(rows[i]).value
    ensures rest.Fail? ==> exists i :: 0 <= i < |rows| && FirstFailure(rows, i) && rest.message == ReadJsonRow(rows[i]).message
  {
    assert forall i :: 1 <= i < |rows| ==> rows[i] == rows[1..][i - 1];
    if rest.Fail? {
      var i :| 0 <= i < |rows[1..]| && FirstFailure(rows[1..], i) && rest.message == ReadJsonRow(rows[1..][i]).message;
      forall j | 0 <= j < i + 1 ensures ReadJsonRow(rows[j]).Ok? {
        if j > 0 {
          assert rows[j] == rows[1..][j - 1];
        }
      }
      assert FirstFailure(rows, i + 1);
    } else {
      forall i | 0 <= i < |rows| ensures ([first] + rest.value)[i] == ReadJsonRow(rows[i]).value {
        if i > 0 {
          assert ([first] + rest.value)[i] == rest.value[i - 1];
        }
      }
    }
  }

  /** The `filter` after the `map`: rows with edited alt text or marked decorative. */
  predicate Kept(r: JsonRow) {
    Truthy(r.editedAltText) || r.isDecorative
  }

  /** A row ends up in the output exactly when it has an image source and either edited
      alt text or a truthy `isDecorative`: the check's `isDecorative !== undefined` lets a
      `false` flag through, and the filter then drops that row. */
  lemma RowSurvives(row: Value)
    requires !IsNullish(row)
    ensures (ReadJsonRow(row).Ok? && Kept(ReadJsonRow(row).value)) <==>
      Truthy(Get(row, "imageSource")) && (Truthy(Get(row, "editedAltText")) || Truthy(Get(row, "isDecorative")))
  {
  }

  /** The message the `catch` reports: the error's own message, or the fixed one when
      that is empty. */
  function ErrorText(message: string): (r: string)
    ensures r != ""
    ensures message != "" ==> r == message
  {
    if message == "" then ParseFailure else message
  }

  function ReadMetadata(m: Value): (r: JsonMetadata)
    requires !IsNullish(m)
    ensures r.loId == Get(m, "loId") && r.gradeLevel == Get(m, "gradeLevel")
    ensures r.relativeLink == Get(m, "relativeLink") && r.generatedDate == Get(m, "generatedDate")
  {
    JsonMetadata(Get(m, "loId"), Get(m, "gradeLevel"), Get(m, "relativeLink"), Get(m, "generatedDate"))
  }

  /** The upload has both sections, an array of rows, and every row passes the check. */
  predicate WellFormed(json: Value) {
    && !IsNullish(json)
    && Truthy(Get(json, "metadata"))
    && Get(json, "altTextData").Arr?
    && forall i :: 0 <= i < |Get(json, "altTextData").items| ==> ReadJsonRow(Get(json, "altTextData").items[i]).Ok?
  }

  /** `parseJsonFile`. `parsed` is the value `JSON.parse` produced or the message it threw. */
  function ParseJsonFile(parsed: Result<Value>): (r: JsonResult)
    ensures r.JsonFailed? ==> r.error != ""
    ensures r.JsonParsed? <==> parsed.Ok? && WellFormed(parsed.value)
    ensures parsed.Ok? && !IsNullish(parsed.value) && (!Truthy(Get(parsed.value, "metadata")) || !Truthy(Get(parsed.value, "altTextData"))) ==>
      r == JsonFailed(StructureError)
    ensures r.JsonParsed? ==>
      var json := parsed.value;
      var rows := ReadRows(Get(json, "altTextData").items).value;
      && r.metadata == ReadMetadata(Get(json, "metadata"))
      && r.totalProcessed == |r.altTextData|
      && (forall i :: 0 <= i < |r.altTextData| ==> Kept(r.altTextData[i]))
      && (forall x :: x in r.altTextData <==> x in rows && Kept(x))
  {
    match parsed
    case Fail(e) => JsonFailed(ErrorText(e))
    case Ok(json) =>
      if IsNullish(json) then JsonFailed(ErrorText(ReadError(json, "metadata")))
      else
        var meta, data := Get(json, "metadata"), Get(json, "altTextData");
        if !Truthy(meta) || !Truthy(data) then JsonFailed(StructureError)
        else if !data.Arr? then JsonFailed(ErrorText(NotAFunction("jsonData.altTextData.map")))
        else
          match ReadRows(data.items)
          case Fail(e) => JsonFailed(ErrorText(e))
          case Ok(rows) =>
            var kept := Filter(rows, Kept);
            JsonParsed(ReadMetadata(meta), kept, |kept|)
  }

  /** Rejection is all-or-nothing: one bad row fails the whole upload with the message of
      the first bad row, whatever rows around it are fine. */
  lemma FirstBadRowDecides(json: Value, i: nat)
    requires !IsNullish(json) && Truthy(Get(json, "metadata")) && Get(json, "altTextData").Arr?
    requires i < |Get(json, "altTextData").items| && FirstFailure(Get(json, "altTextData").items, i)
    ensures ParseJsonFile(Ok(json)) == JsonFailed(ErrorText(ReadJsonRow(Get(json, "altTextData").items[i]).message))
  {
    var rows := Get(json, "altTextData").items;
    var r := ReadRows(rows);
    var k :| 0 <= k < |rows| && FirstFailure(rows, k) && r.message == ReadJsonRow(rows[k]).message;
    assert k == i;
  }

  // ---------------------------------------------------------------------------
  // Writing rows and metadata back out

  /** A row as the JSON object it came from. */
  function RowValue(r: JsonRow): Value {
    Obj(map[
      "loTitle" := r.loTitle,
      "imageSource" := r.imageSource,
      "generatedAltText" := r.generatedAltText,
      "editedAltText" := r.editedAltText,
      "generatedVisualDescription" := r.generatedVisualDescription,
      "editedVisualDescription" := r.editedVisualDescription,
      "needsVisualDescription" := Bool(r.needsVisualDescription),
      "isDecorative" := Bool(r.isDecorative)])
  }

  /** A text field as the reader leaves it: truthy or `""`. */
  predicate Settled(v: Value) {
    Truthy(v) || v == Str("")
  }

  /** A row the reader could have produced. */
  predicate IsReadRow(r: JsonRow) {
    && Truthy(r.imageSource)
    && Settled(r.loTitle) && Settled(r.generatedAltText) && Settled(r.editedAltText)
    && Settled(r.generatedVisualDescription) && Settled(r.editedVisualDescription)
  }

  /** Reading a written row gives the row back. */
  lemma RowRoundTrip(r: JsonRow)
    requires IsReadRow(r)
    ensures ReadJsonRow(RowValue(r)) == Ok(r)
  {
    var v := RowValue(r);
    RowFields(r);
    assert RowAccepted(v);
  }

  /** Each field of a written row reads back as written. */
  lemma RowFields(r: JsonRow)
    ensures var v := RowValue(r);
      && Get(v, "loTitle") == r.loTitle && Get(v, "imageSource") == r.imageSource
      && Get(v, "generatedAltText") == r.generatedAltText && Get(v, "editedAltText") == r.editedAltText
      && Get(v, "generatedVisualDescription") == r.generatedVisualDescription
      && Get(v, "editedVisualDescription") == r.editedVisualDescription
      && Get(v, "needsVisualDescription") == Bool(r.needsVisualDescription)
      && Get(v, "isDecorative") == Bool(r.isDecorative)
  {
  }

  function MetadataValue(m: JsonMetadata): Value {
    Obj(map["loId" := m.loId, "gradeLevel" := m.gradeLevel, "relativeLink" := m.relativeLink, "generatedDate" := m.generatedDate])
  }

  /** A document holding metadata and rows. */
  function DocumentValue(m: JsonMetadata, rows: seq<JsonRow>): Value {
    Obj(map["metadata" := MetadataValue(m), "altTextData" := Arr(seq(|rows|, i requires 0 <= i < |rows| => RowValue(rows[i])))])
  }

  /** Writing out rows that are all kept and reading the document back gives the same
      metadata and rows. */
  lemma DocumentRoundTrip(m: JsonMetadata, rows: seq<JsonRow>)
    requires forall i :: 0 <= i < |rows| ==> IsReadRow(rows[i]) && Kept(rows[i])
    ensures ParseJsonFile(Ok(DocumentValue(m, rows))) == JsonParsed(m, rows, |rows|)
  {
    var doc := DocumentValue(m, rows);
    var items := seq(|rows|, i requires 0 <= i < |rows| => RowValue(rows[i]));
    assert Get(doc, "metadata") == MetadataValue(m) && Get(doc, "altTextData") == Arr(items);
    assert ReadMetadata(MetadataValue(m)) == m;
    RowsRoundTrip(rows, items);
    KeepAll(rows);
    ParsedSections(doc, MetadataValue(m), items, rows);
  }

  /** A document with truthy metadata and rows that all read well parses to the read
      metadata and the kept rows. */
  lemma ParsedSections(doc: Value, meta: Value, items: seq<Value>, rows: seq<JsonRow>)
    requires doc.Obj? && Get(doc, "metadata") == meta && Get(doc, "altTextData") == Arr(items)
    requires Truthy(meta) && ReadRows(items) == Ok(rows)
    ensures ParseJsonFile(Ok(doc)) == JsonParsed(ReadMetadata(meta), Filter(rows, Kept), |Filter(rows, Kept)|)
  {
  }

  lemma {:induction false} RowsRoundTrip(rows: seq<JsonRow>, items: seq<Value>)
    requires forall i :: 0 <= i < |rows| ==> IsReadRow(rows[i])
    requires |items| == |rows| && forall i :: 0 <= i < |rows| ==> items[i] == RowValue(rows[i])
    ensures ReadRows(items) == Ok(rows)
    decreases |rows|
  {
    if rows != [] {
      RowRoundTrip(rows[0]);
      RowsRoundTrip(rows[1..], items[1..]);
      assert rows == [rows[0]] + rows[1..];
    }
  }

  lemma {:induction false} KeepAll(rows: seq<JsonRow>)
    requires forall i :: 0 <= i < |rows| ==> Kept(rows[i])
    ensures Filter(rows, Kept) == rows
    decreases |rows|
  {
    if rows != [] {
      KeepAll(rows[1..]);
      assert rows == [rows[0]] + rows[1..];
    }
  }

  /** A row with `isDecorative: false` and no edited alt text passes the row check but
      is then filtered out. */
  lemma DecorativeFalseDropped(row: Value)
    requires row.Obj? && Truthy(Get(row, "imageSource"))
    requires Get(row, "isDecorative") == Bool(false) && !Truthy(Get(row, "editedAltText"))
    ensures ReadJsonRow(row).Ok? && !Kept(ReadJsonRow(row).value)
  {
  }
}

=== FILE: lo_export.dfy ===
/** The learning-object export endpoint of backend/api/syntara/export.js: for every
    learning object in the request, fetch its document, pick out its images, and describe
    each one, preferring the alt text the document already carries. The object store,
    URL parsing and the vision service are abstracted into an `Env`; the per-object
    work, which the source runs concurrently, is a pure function of that environment. */
module LoExport {
  import opened Results
  import opened JsString
  import opened JsValue
  import opened Sequences
  import FileUpdate

  // ---------------------------------------------------------------------------
  // Image tags: `/<img[^>]+src="([^"]+)"[^>]*>/g`

  const SrcOpen := "src=\""

  /** A `src="` at `k` whose quoted value is non-empty, closed, and followed somewhere by
      a `>` that can end the tag. */
  predicate SrcUsable(h: string, k: nat) {
    && OccursAt(h, SrcOpen, k)
    && match CharFrom(h, '"', k + 5)
       case None => false
       case Some(q) => q > k + 5 && CharFrom(h, '>', q + 1).Some?
  }

  /** The last usable `src="` in `[lo, hi)`: the greedy `[^>]+` in front of `src="`
      makes the pattern prefer the right-most one. */
  function LastSrc(h: string, lo: nat, hi: nat): (r: Option<nat>)
    ensures r.Some? ==> lo <= r.value < hi && SrcUsable(h, r.value)
    ensures r.Some? ==> forall j :: r.value < j < hi ==> !SrcUsable(h, j)
    ensures r.None? ==> forall j :: lo <= j < hi ==> !SrcUsable(h, j)
    decreases hi
  {
    if hi <= lo then None
    else if SrcUsable(h, hi - 1) then Some(hi - 1)
    else LastSrc(h, lo, hi - 1)
  }

  /** One match: the whole tag and its captured source. */
  datatype ImgTag = ImgTag(tag: string, src: string)

  /** The match of the pattern at the very start of `h`, with its length. The part
      between `<img` and `src="` holds at least one character and no `>`. */
  function MatchImg(h: string): (r: Option<(nat, ImgTag)>)
    ensures r.Some? ==> MatchShape(h, r.value.0, r.value.1)
  {
    if !StartsWith(h, "<img") then None
    else
      var end := match CharFrom(h, '>', 4) case Some(e) => e case None => |h|;
      match LastSrc(h, 5, end)
      case None => None
      case Some(k) =>
        var r := CaptureAt(h, k);
        assert MatchShape(h, r.0, r.1) by {
          assert forall j :: 4 <= j < k ==> h[j] != '>';
        }
        Some(r)
  }

  /** What every match looks like: a tag opening with `<img`, ending at a `>`, holding
      `src="SOURCE"` after at least one character and before any `>`. */
  ghost predicate MatchShape(h: string, n: nat, m: ImgTag) {
    && 0 < n <= |h| && m.tag == h[..n]
    && StartsWith(h, "<img") && h[n - 1] == '>'
    && m.src != [] && '"' !in m.src
    && exists k :: 5 <= k && SrcAt(h, k, m.src) && (forall j :: 4 <= j < k ==> h[j] != '>')
  }

  /** The match that uses the `src="` at `k`: the source runs to the next quote and the
      tag to the first `>` after it. */
  function CaptureAt(h: string, k: nat): (r: (nat, ImgTag))
    requires SrcUsable(h, k)
    ensures 0 < r.0 <= |h| && r.1.tag == h[..r.0] && h[r.0 - 1] == '>'
    ensures r.1.src != [] && '"' !in r.1.src && SrcAt(h, k, r.1.src)
  {
    var q := CharFrom(h, '"', k + 5).value;
    var c := CharFrom(h, '>', q + 1).value;
    var src := h[k + 5..q];
    assert '"' !in src by {
      forall j | 0 <= j < |src| ensures src[j] != '"' {
        assert src[j] == h[k + 5 + j];
      }
    }
    assert h[k..k + |SrcOpen + src + "\""|] == SrcOpen + src + "\"" by {
      assert h[k..k + 5] == SrcOpen;
      assert h[k + 5..q] == src;
      assert h[k..q + 1] == h[k..k + 5] + h[k + 5..q] + [h[q]];
    }
    (c + 1, ImgTag(h[..c + 1], src))
  }

  /** `src="VALUE"` at `k`. */
  predicate SrcAt(h: string, k: nat, value: string) {
    OccursAt(h, SrcOpen + value + "\"", k)
  }

  /** `[...h.matchAll(pattern)]`: matches from left to right, each search resuming after
      the previous match. */
  function ImgTags(h: string): (r: seq<ImgTag>)
    ensures forall i :: 0 <= i < |r| ==> r[i].src != [] && '"' !in r[i].src
    decreases |h|
  {
    if h == [] then []
    else match MatchImg(h)
      case Some((n, m)) => [m] + ImgTags(h[n..])
      case None => ImgTags(h[1..])
  }

  /** A well-formed tag is found: `<img`, some attributes, `src="SOURCE"`, more attributes
      and `>`, is one match whose capture is the source, and the search goes on after it.
      The source holds no quote and no `>` and does not end in `=`; the attributes hold no
      `>`, and those after the source no further `src="` (the greedy pattern would take the
      last one). */
  lemma TagFound(a: string, x: string, b: string, rest: string)
    requires a != [] && '>' !in a
    requires x != [] && '"' !in x && '>' !in x && x[|x| - 1] != '='
    requires '>' !in b && forall j :: !OccursAt(b, SrcOpen, j)
    ensures var tag := "<img" + a + SrcOpen + x + "\"" + b + ">";
      ImgTags(tag + rest) == [ImgTag(tag, x)] + ImgTags(rest)
  {
    var tag := "<img" + a + SrcOpen + x + "\"" + b + ">";
    var h := tag + rest;
    var k, q, e := TagScan(a, x, b, rest);
    MatchFromScan(h, k, q, e, x);
    assert h[..e + 1] == tag;
    assert h[|tag|..] == rest;
  }

  /** The positions the pattern finds in a well-formed tag: the closing `>` at `e`, the
      last usable `src="` at `k` and the closing quote at `q`. */
  lemma TagScan(a: string, x: string, b: string, rest: string) returns (k: nat, q: nat, e: nat)
    requires a != [] && '>' !in a
    requires x != [] && '"' !in x && '>' !in x && x[|x| - 1] != '='
    requires '>' !in b && forall j :: !OccursAt(b, SrcOpen, j)
    ensures var h := "<img" + a + SrcOpen + x + "\"" + b + ">" + rest;
      && e == |"<img" + a + SrcOpen + x + "\"" + b + ">"| - 1
      && StartsWith(h, "<img") && CharFrom(h, '>', 4) == Some(e)
      && LastSrc(h, 5, e) == Some(k)
      && CharFrom(h, '"', k + 5) == Some(q) && CharFrom(h, '>', q + 1) == Some(e)
      && k + 5 <= q && h[k + 5..q] == x
  {
    var tag := "<img" + a + SrcOpen + x + "\"" + b + ">";
    var h := tag + rest;
    k, q, e := 4 + |a|, 4 + |a| + 5 + |x|, |tag| - 1;
    TagLayout(a, x, b, rest);
    CharIsFirst(h, '>', 4, e);
    CharIsFirst(h, '"', k + 5, q);
    CharIsFirst(h, '>', q + 1, e);
    assert h[k..k + 5] == SrcOpen;
    assert h[k + 5..q] == x;
    NoSrcAfter(a, x, b, rest);
    LastSrcAt(h, k, q, e);
  }

  lemma NoSrcAfter(a: string, x: string, b: string, rest: string)
    requires x != [] && '"' !in x && x[|x| - 1] != '='
    requires forall j :: !OccursAt(b, SrcOpen, j)
    ensures forall j :: 4 + |a| < j < |"<img" + a + SrcOpen + x + "\"" + b + ">"| - 1 ==>
      !OccursAt("<img" + a + SrcOpen + x + "\"" + b + ">" + rest, SrcOpen, j)
  {
    forall j | 4 + |a| < j < |"<img" + a + SrcOpen + x + "\"" + b + ">"| - 1
      ensures !OccursAt("<img" + a + SrcOpen + x + "\"" + b + ">" + rest, SrcOpen, j)
    {
      NoLaterSrc(a, x, b, rest, j);
    }
  }

  /** A usable `src="` with no other after it before `e` is the last one. */
  lemma LastSrcAt(h: string, k: nat, q: nat, e: nat)
    requires 5 <= k < e && OccursAt(h, SrcOpen, k)
    requires CharFrom(h, '"', k + 5) == Some(q) && q > k + 5 && CharFrom(h, '>', q + 1) == Some(e)
    requires forall j :: k < j < e ==> !OccursAt(h, SrcOpen, j)
    ensures LastSrc(h, 5, e) == Some(k)
  {
    assert SrcUsable(h, k);
  }

  /** With those positions, the match is the text up to `e` and captures the source. */
  lemma MatchFromScan(h: string, k: nat, q: nat, e: nat, x: string)
    requires StartsWith(h, "<img") && CharFrom(h, '>', 4) == Some(e)
    requires LastSrc(h, 5, e) == Some(k)
    requires CharFrom(h, '"', k + 5) == Some(q) && CharFrom(h, '>', q + 1) == Some(e)
    requires k + 5 <= q && h[k + 5..q] == x
    ensures h != [] && MatchImg(h) == Some((e + 1, ImgTag(h[..e + 1], x)))
  {
    assert CaptureAt(h, k) == (e + 1, ImgTag(h[..e + 1], x));
    assert MatchImg(h) == Some(CaptureAt(h, k));
  }

  lemma TagLayout(a: string, x: string, b: string, rest: string)
    ensures var tag := "<img" + a + SrcOpen + x + "\"" + b + ">";
      var h := tag + rest;
      var k := 4 + |a|;
      var q := k + 5 + |x|;
      && |tag| == q + |b| + 2
      && h[..4] == "<img"
      && (forall i :: 4 <= i < k ==> h[i] == a[i - 4])
      && (forall i :: k <= i < k + 5 ==> h[i] == SrcOpen[i - k])
      && (forall i :: k + 5 <= i < q ==> h[i] == x[i - k - 5])
      && h[q] == '"'
      && (forall i :: q < i < |tag| - 1 ==> h[i] == b[i - q - 1])
      && h[|tag| - 1] == '>'
  {
  }

  /** No `src="` starts between the source's and the closing `>`. */
  lemma NoLaterSrc(a: string, x: string, b: string, rest: string, j: int)
    requires x != [] && '"' !in x && x[|x| - 1] != '='
    requires forall i :: !OccursAt(b, SrcOpen, i)
    requires 4 + |a| < j < |"<img" + a + SrcOpen + x + "\"" + b + ">"| - 1
    ensures !OccursAt("<img" + a + SrcOpen + x + "\"" + b + ">" + rest, SrcOpen, j)
  {
    var tag := "<img" + a + SrcOpen + x + "\"" + b + ">";
    var h := tag + rest;
    var k := 4 + |a|;
    var q := k + 5 + |x|;
    var e := |tag| - 1;
    TagLayout(a, x, b, rest);
    if j + 4 < q {
      assert h[j + 4] == x[j + 4 - k - 5] && x[j + 4 - k - 5] in x;
      assert h[j + 4] != SrcOpen[4];
    } else if j + 4 == q {
      assert h[j + 3] == x[|x| - 1] != SrcOpen[3];
    } else if j <= q {
      assert h[q] == '"' != SrcOpen[q - j];
    } else if j + 4 >= e {
      assert h[e] == '>' != SrcOpen[e - j];
    } else {
      assert h[j..j + 5] == b[j - q - 1..j - q + 4];
      assert !OccursAt(b, SrcOpen, j - q - 1);
    }
  }

  /** Text without `<img` holds no image. */
  lemma {:induction false} NoImgNoTags(h: string)
    requires forall k :: !OccursAt(h, "<img", k)
    ensures ImgTags(h) == []
    decreases |h|
  {
    if h != [] {
      assert !OccursAt(h, "<img", 0);
      forall k ensures !OccursAt(h[1..], "<img", k) {
        if OccursAt(h[1..], "<img", k) {
          assert h[1..|h|] == h[1..];
          OccursInSlice(h, 1, |h|, "<img", k);
        }
      }
      NoImgNoTags(h[1..]);
    }
  }

  /** Only double-quoted sources are picked up: text without a `"`, such as tags
      written `src='...'`, holds no image. */
  lemma {:induction false} SingleQuotedIgnored(h: string)
    requires '"' !in h
    ensures ImgTags(h) == []
    decreases |h|
  {
    if h != [] {
      forall k: nat ensures !SrcUsable(h, k) {
        if k + 5 <= |h| {
          assert h[k + 4] in h;
          assert h[k..k + 5][4] == h[k + 4];
        }
      }
      assert MatchImg(h).None?;
      forall j | 0 <= j < |h| - 1 ensures h[1..][j] != '"' {
        assert h[1..][j] == h[j + 1];
        assert h[j + 1] in h;
      }
      SingleQuotedIgnored(h[1..]);
    }
  }

  /** `match[0].match(/alt="([^"]*)"/)`: the text after the first `alt="` up to the next
      quote, or `""` when there is none. */
  function AltOf(tag: string): (r: string)
    ensures '"' !in r
  {
    match IndexOf(tag, "alt=\"")
    case None => ""
    case Some(k) =>
      match CharFrom(tag, '"', k + 5)
      case None => ""
      case Some(q) =>
        var alt := tag[k + 5..q];
        assert forall j :: 0 <= j < |alt| ==> alt[j] == tag[k + 5 + j];
        alt
  }

  // ---------------------------------------------------------------------------
  // Paths

  /** `path.split("/").slice(0, -1).join("/")`: everything before the last `/`, or `""`
      when there is none. */
  function ProjectDir(path: string): (r: string)
    ensures '/' !in path ==> r == ""
    ensures '/' in path ==>
      && |r| < |path| && path[..|r|] == r && path[|r|] == '/'
      && forall j :: |r| < j < |path| ==> path[j] != '/'
  {
    match LastIndexOf(path, '/')
    case None => ""
    case Some(i) => path[..i]
  }

  /** A document path `DIR/FILE` gives back `DIR`. */
  lemma ProjectDirOfFile(dir: string, file: string)
    requires '/' !in file
    ensures ProjectDir(dir + "/" + file) == dir
  {
    var p := dir + "/" + file;
    assert p[|dir|] == '/';
    forall j | |dir| < j < |p| ensures p[j] != '/' {
      assert p[j] == file[j - |dir| - 1];
    }
    assert LastIndexOf(p, '/') == Some(|dir|);
  }

  // ---------------------------------------------------------------------------
  // Images

  /** What fetching an image and asking the vision service about it gave: a description
      (whose `altText` may be missing), a timeout, or any other failure. */
  datatype Vision = Described(altText: Value, imageData: string) | TimedOut | Failed

  /** The environment of one export: URL parsing (`None` for an invalid URL), the
      documents in the bucket, and the vision outcome for each image key. A key absent
      from `images` is an image the bucket does not have. */
  datatype Env = Env(pathname: string -> Option<string>, docs: map<string, string>, images: map<string, Vision>)

  const TimeoutAlt := "[Vision API timeout]"
  const FailureAlt := "[Image processing failed]"
  const InvalidUrl := "Invalid URL"

  /** One entry of an object's `images`. */
  datatype ImageEntry = ImageEntry(url: string, altText: Value, imageData: Option<string>)

  function VisionOf(env: Env, key: string): Vision {
    if key in env.images then env.images[key] else Failed
  }

  /** One image: the source as the URL, and the alt text the tag already has, falling
      back on the service's answer or on a fixed placeholder. */
  function DescribeImage(env: Env, dir: string, m: ImgTag): (r: ImageEntry)
    ensures r.url == m.src
    ensures AltOf(m.tag) != "" ==> r.altText == Str(AltOf(m.tag))
    ensures AltOf(m.tag) == "" && VisionOf(env, dir + "/" + m.src) == TimedOut ==> r.altText == Str(TimeoutAlt)
    ensures AltOf(m.tag) == "" && VisionOf(env, dir + "/" + m.src) == Failed ==> r.altText == Str(FailureAlt)
    ensures r.imageData.Some? <==> VisionOf(env, dir + "/" + m.src).Described?
  {
    var existing := AltOf(m.tag);
    match VisionOf(env, dir + "/" + m.src)
    case Described(alt, data) => ImageEntry(m.src, if existing != "" then Str(existing) else alt, Some(data))
    case TimedOut => ImageEntry(m.src, Str(if existing != "" then existing else TimeoutAlt), None)
    case Failed => ImageEntry(m.src, Str(if existing != "" then existing else FailureAlt), None)
  }

  // ---------------------------------------------------------------------------
  // Keeping the first image of each URL

  /** Index `i` holds the first entry with its URL. */
  predicate FirstUrlAt(s: seq<ImageEntry>, i: nat)
    requires i < |s|
  {
    forall j :: 0 <= j < i ==> s[j].url != s[i].url
  }

  function Urls(s: seq<ImageEntry>): set<string> {
    set i | 0 <= i < |s| :: s[i].url
  }

  predicate DistinctUrls(s: seq<ImageEntry>) {
    forall i, j :: 0 <= i < j < |s| ==> s[i].url != s[j].url
  }

  /** The entries among the first `n` of `s` that sit at the first index of their URL, in
      their original order: the filter by `index === findIndex(...)`, index by index. */
  function FirstsUpTo(s: seq<ImageEntry>, n: nat): seq<ImageEntry>
    requires n <= |s|
  {
    if n == 0 then [] else FirstsUpTo(s, n - 1) + (if FirstUrlAt(s, n - 1) then [s[n - 1]] else [])
  }

  /** Which entries are firsts among the first `n` depends only on those `n`. */
  lemma {:induction false} FirstsUpToPrefix(s: seq<ImageEntry>, t: seq<ImageEntry>, n: nat)
    requires n <= |s| && n <= |t| && s[..n] == t[..n]
    ensures FirstsUpTo(s, n) == FirstsUpTo(t, n)
    decreases n
  {
    if n > 0 {
      assert s[..n - 1] == t[..n - 1];
      FirstsUpToPrefix(s, t, n - 1);
      assert forall j :: 0 <= j < n ==> s[j] == s[..n][j] == t[..n][j] == t[j];
      assert FirstUrlAt(s, n - 1) == FirstUrlAt(t, n - 1);
    }
  }

  /** `images.filter((img, index, self) => index === self.findIndex((t) => t.url === img.url))`:
      exactly the entries at the first index of their URL, in their original order. */
  function UniqueByUrl(s: seq<ImageEntry>): (r: seq<ImageEntry>)
    ensures r == FirstsUpTo(s, |s|)
    ensures DistinctUrls(r)
    ensures Urls(r) == Urls(s)
    ensures forall x :: x in r ==> x in s
    decreases |s|
  {
    if s == [] then []
    else
      var init, x := s[..|s| - 1], s[|s| - 1];
      var rest := UniqueByUrl(init);
      assert s == init + [x];
      UrlsSnoc(init, x);
      assert FirstsUpTo(s, |s| - 1) == rest by {
        assert s[..|s| - 1] == init[..|init|];
        FirstsUpToPrefix(s, init, |s| - 1);
      }
      assert FirstUrlAt(s, |s| - 1) <==> x.url !in Urls(init) by {
        if x.url in Urls(init) {
          var j :| 0 <= j < |init| && init[j].url == x.url;
          assert s[j] == init[j];
        } else {
          forall j | 0 <= j < |s| - 1 ensures s[j].url != x.url {
            assert s[j] == init[j];
          }
        }
      }
      if x.url in Urls(init) then rest
      else
        UrlsSnoc(rest, x);
        DistinctSnoc(rest, x);
        rest + [x]
  }

  lemma UrlsSnoc(s: seq<ImageEntry>, x: ImageEntry)
    ensures Urls(s + [x]) == Urls(s) + {x.url}
  {
    var t := s + [x];
    assert t[|s|].url in Urls(t);
    forall u | u in Urls(t) ensures u in Urls(s) + {x.url} {
      var i :| 0 <= i < |t| && t[i].url == u;
      if i < |s| { assert t[i] == s[i]; }
    }
    forall u | u in Urls(s) ensures u in Urls(t) {
      var i :| 0 <= i < |s| && s[i].url == u;
      assert t[i] == s[i];
    }
  }

  lemma DistinctSnoc(s: seq<ImageEntry>, x: ImageEntry)
    requires DistinctUrls(s) && x.url !in Urls(s)
    ensures DistinctUrls(s + [x])
  {
    var t := s + [x];
    forall i, j | 0 <= i < j < |t| ensures t[i].url != t[j].url {
      assert t[i] == s[i];
      if j < |s| {
        assert t[j] == s[j];
      } else {
        assert s[i].url in Urls(s);
      }
    }
  }

  /** Every kept entry is the first one with its URL. */
  lemma {:induction false} UniqueKeepsFirsts(s: seq<ImageEntry>)
    ensures forall y :: y in UniqueByUrl(s) ==> exists i :: 0 <= i < |s| && FirstUrlAt(s, i) && s[i] == y
    decreases |s|
  {
    if s != [] {
      var init, x := s[..|s| - 1], s[|s| - 1];
      UniqueKeepsFirsts(init);
      var rest := UniqueByUrl(init);
      forall i | 0 <= i < |init| ensures FirstUrlAt(s, i) == FirstUrlAt(init, i) && s[i] == init[i] {
      }
      forall y | y in UniqueByUrl(s) ensures exists i :: 0 <= i < |s| && FirstUrlAt(s, i) && s[i] == y {
        if y in rest {
          var i :| 0 <= i < |init| && FirstUrlAt(init, i) && init[i] == y;
          assert FirstUrlAt(s, i) && s[i] == y;
        } else {
          assert y == x && x.url !in Urls(init);
          forall j | 0 <= j < |s| - 1 ensures s[j].url != x.url {
            assert s[j] == init[j];
          }
          assert FirstUrlAt(s, |s| - 1);
        }
      }
    }
  }

  /** The first entry with each URL is kept. */
  lemma UniqueKeepsEveryFirst(s: seq<ImageEntry>, i: nat)
    requires i < |s| && FirstUrlAt(s, i)
    ensures s[i] in UniqueByUrl(s)
  {
    var r := UniqueByUrl(s);
    UniqueKeepsFirsts(s);
    assert s[i].url in Urls(s);
    var k :| 0 <= k < |r| && r[k].url == s[i].url;
    assert r[k] in r;
    var j :| 0 <= j < |s| && FirstUrlAt(s, j) && s[j] == r[k];
    assert j == i;
  }

  /** Entries whose URLs are already distinct are all kept, in order. */
  lemma {:induction false} UniqueKeepsDistinct(s: seq<ImageEntry>)
    requires DistinctUrls(s)
    ensures UniqueByUrl(s) == s
    decreases |s|
  {
    if s != [] {
      var init, x := s[..|s| - 1], s[|s| - 1];
      LastUrlNew(s);
      UniqueKeepsDistinct(init);
      assert UniqueByUrl(s) == UniqueByUrl(init) + [x];
      assert s == init + [x];
    }
  }

  /** In entries with distinct URLs, the last one's URL is new and the rest stay distinct. */
  lemma LastUrlNew(s: seq<ImageEntry>)
    requires s != [] && DistinctUrls(s)
    ensures DistinctUrls(s[..|s| - 1]) && s[|s| - 1].url !in Urls(s[..|s| - 1])
  {
    var init, x := s[..|s| - 1], s[|s| - 1];
    forall i | 0 <= i < |init| ensures init[i].url != x.url {
      assert init[i] == s[i];
    }
  }

  /** Keeping the first of each URL twice is keeping it once. */
  lemma UniqueIdempotent(s: seq<ImageEntry>)
    ensures UniqueByUrl(UniqueByUrl(s)) == UniqueByUrl(s)
  {
    UniqueKeepsDistinct(UniqueByUrl(s));
  }

  // ---------------------------------------------------------------------------
  // One learning object

  /** The settled outcome of one learning object: described, failed (its own `catch`
      reports the message), or rejected, when even the `catch` throws. */
  datatype LoReport =
    | LoDone(loId: Value, name: Value, images: seq<ImageEntry>)
    | LoError(loId: Value, name: Value, error: string)
    | LoRejected(reason: string)

  /** `new URL(link).pathname.substring(1)`: the bucket key of the document. */
  function DocumentKey(env: Env, link: Value): (r: Result<string>)
    ensures env.pathname(ToStr(link)).None? <==> r.Fail?
    ensures r.Fail? ==> r.message == InvalidUrl
  {
    match env.pathname(ToStr(link))
    case None => Fail(InvalidUrl)
    case Some(path) => Ok(if path == [] then [] else path[1..])
  }

  /** Every tag described, in document order. */
  function DescribeTags(env: Env, dir: string, tags: seq<ImgTag>): (r: seq<ImageEntry>)
    ensures |r| == |tags|
    ensures forall i :: 0 <= i < |tags| ==> r[i] == DescribeImage(env, dir, tags[i])
  {
    seq(|tags|, i requires 0 <= i < |tags| => DescribeImage(env, dir, tags[i]))
  }

  /** The images of one document, each described and only the first of each URL kept;
      images are looked up next to the document. Every entry describes the first tag with
      its source, every tag's source has an entry, and entries follow the document. */
  function DescribeDocument(env: Env, key: string, html: string): (r: seq<ImageEntry>)
    ensures r == UniqueByUrl(DescribeTags(env, ProjectDir(key), ImgTags(html)))
    ensures DistinctUrls(r)
    ensures forall i :: 0 <= i < |r| ==> r[i].url != []
    ensures forall m :: m in ImgTags(html) ==> m.src in Urls(r)
    ensures forall i :: 0 <= i < |r| ==> DescribesFirstTag(env, ProjectDir(key), ImgTags(html), r[i])
  {
    var tags := ImgTags(html);
    DescribedUrls(env, ProjectDir(key), tags);
    DescribedFirsts(env, ProjectDir(key), tags);
    UniqueByUrl(DescribeTags(env, ProjectDir(key), tags))
  }

  /** Every entry kept has a URL, and every tag's source is among the URLs kept. */
  lemma {:induction false} DescribedUrls(env: Env, dir: string, tags: seq<ImgTag>)
    requires forall i :: 0 <= i < |tags| ==> tags[i].src != []
    ensures var r := UniqueByUrl(DescribeTags(env, dir, tags));
      && (forall i :: 0 <= i < |r| ==> r[i].url != [])
      && (forall m :: m in tags ==> m.src in Urls(r))
  {
    var described := DescribeTags(env, dir, tags);
    var r := UniqueByUrl(described);
    forall i | 0 <= i < |r| ensures r[i].url != [] {
      assert r[i] in described;
    }
    forall m | m in tags ensures m.src in Urls(r) {
      var i :| 0 <= i < |tags| && tags[i] == m;
      assert described[i].url == m.src;
      assert described[i].url in Urls(described);
    }
  }

  /** `e` describes the first tag with its source. */
  ghost predicate DescribesFirstTag(env: Env, dir: string, tags: seq<ImgTag>, e: ImageEntry) {
    exists j :: FirstTagAt(tags, j) && e == DescribeImage(env, dir, tags[j])
  }

  /** Every entry kept describes the first tag with its source. */
  lemma {:induction false} DescribedFirsts(env: Env, dir: string, tags: seq<ImgTag>)
    ensures var r := UniqueByUrl(DescribeTags(env, dir, tags));
      forall i :: 0 <= i < |r| ==> DescribesFirstTag(env, dir, tags, r[i])
  {
    var described := DescribeTags(env, dir, tags);
    var r := UniqueByUrl(described);
    forall i | 0 <= i < |r| ensures DescribesFirstTag(env, dir, tags, r[i]) {
      var j := KeptFirstAt(described, i);
      FirstDescribedTag(env, dir, tags, j);
    }
  }

  /** The index of the first entry an entry kept came from. */
  lemma {:induction false} KeptFirstAt(s: seq<ImageEntry>, i: nat) returns (j: nat)
    requires i < |UniqueByUrl(s)|
    ensures j < |s| && FirstUrlAt(s, j) && s[j] == UniqueByUrl(s)[i]
  {
    var r := UniqueByUrl(s);
    UniqueKeepsFirsts(s);
    assert r[i] in r;
    j :| 0 <= j < |s| && FirstUrlAt(s, j) && s[j] == r[i];
  }

  /** The first entry with a URL describes the first tag with that source. */
  lemma {:induction false} FirstDescribedTag(env: Env, dir: string, tags: seq<ImgTag>, j: nat)
    requires j < |tags| && FirstUrlAt(DescribeTags(env, dir, tags), j)
    ensures FirstTagAt(tags, j)
  {
    var described := DescribeTags(env, dir, tags);
    forall k | 0 <= k < j ensures tags[k].src != tags[j].src {
      assert described[k].url != described[j].url;
    }
  }

  /** Index `j` holds the first tag with its source. */
  predicate FirstTagAt(tags: seq<ImgTag>, j: int) {
    0 <= j < |tags| && forall k :: 0 <= k < j ==> tags[k].src != tags[j].src
  }

  /** The callback over the learning objects. A `null` entry makes the `try` throw, and
      then the `catch`, which reads its name, throws too. */
  function ExportLo(env: Env, lo: Value): (r: LoReport)
    ensures IsNullish(lo) <==> r.LoRejected?
    ensures r.LoRejected? ==> r.reason == ReadError(lo, "name")
    ensures !IsNullish(lo) ==> r.loId == Get(lo, "id") && r.name == Get(lo, "name")
    ensures !IsNullish(lo) ==>
      var key := DocumentKey(env, Get(lo, "relativeLink"));
      && (r.LoDone? <==> key.Ok? && key.value in env.docs)
      && (r.LoDone? ==> r.images == DescribeDocument(env, key.value, env.docs[key.value]))
      && (r.LoError? ==> r.error == if key.Fail? then InvalidUrl else FileUpdate.NoSuchKeyMessage)
    ensures r.LoDone? ==> DistinctUrls(r.images) && forall i :: 0 <= i < |r.images| ==> r.images[i].url != []
  {
    if IsNullish(lo) then LoRejected(ReadError(lo, "name"))
    else
      var id, name := Get(lo, "id"), Get(lo, "name");
      match DocumentKey(env, Get(lo, "relativeLink"))
      case Fail(e) => LoError(id, name, e)
      case Ok(key) =>
        if key !in env.docs then LoError(id, name, FileUpdate.NoSuchKeyMessage)
        else
          LoDone(id, name, DescribeDocument(env, key, env.docs[key]))
  }

  // ---------------------------------------------------------------------------
  // The handler

  const MissingFields := "Missing required fields"
  const DefaultError := "Error processing Learning Objects"
  const MethodNotAllowedText := "Method not allowed"

  datatype Stats = Stats(total: nat, successful: nat, failed: nat)

  /** What the handler answers. */
  datatype ExportResponse =
    | Preflight
    | MethodNotAllowed
    | Exported(stats: Stats, results: seq<LoReport>)
    | ServerError(error: string)

  function Status(r: ExportResponse): nat {
    match r
    case Preflight => 200
    case MethodNotAllowed => 405
    case Exported(_, _) => 200
    case ServerError(_) => 500
  }

  /** `value.length`: defined for arrays and strings, read as a property elsewhere. */
  function Length(v: Value): Value
    requires !IsNullish(v)
  {
    match v
    case Arr(items) => Num(|items|)
    case Str(s) => Num(|s|)
    case _ => Get(v, "length")
  }

  predicate IsDone(r: LoReport) {
    r.LoDone?
  }

  predicate NotDone(r: LoReport) {
    !r.LoDone?
  }

  /** The message of the TypeError raised by destructuring a missing body. */
  function DestructureError(body: Value): string {
    "Cannot destructure property 'projectId' of 'req.body' as it is " + ToStr(body) + "."
  }

  function ErrorText(message: string): (r: string)
    ensures r != "" && (message != "" ==> r == message)
  {
    if message == "" then DefaultError else message
  }

  /** The export handler. `verb` is the request method and `body` the parsed request body. */
  function HandleExport(verb: string, body: Value, env: Env): (r: ExportResponse)
    ensures verb == "OPTIONS" <==> r.Preflight?
    ensures verb != "OPTIONS" && verb != "POST" <==> r.MethodNotAllowed?
    ensures r.ServerError? ==> r.error != ""
    ensures verb == "POST" && !IsNullish(body) && !Truthy(Get(body, "projectId")) ==> r == ServerError(MissingFields)
    ensures verb == "POST" && !IsNullish(body) && Get(body, "learningObjects") == Arr([]) ==> r == ServerError(MissingFields)
    ensures r.Exported? <==>
      && verb == "POST" && !IsNullish(body) && Truthy(Get(body, "projectId"))
      && Get(body, "learningObjects").Arr? && Get(body, "learningObjects").items != []
    ensures r.Exported? ==>
      var los := Get(body, "learningObjects").items;
      && |r.results| == |los| == r.stats.total > 0
      && (forall i :: 0 <= i < |los| ==> r.results[i] == ExportLo(env, los[i]))
      && r.stats.successful + r.stats.failed == r.stats.total
      && r.stats.successful == |Filter(r.results, IsDone)|
  {
    if verb == "OPTIONS" then Preflight
    else if verb != "POST" then MethodNotAllowed
    else if IsNullish(body) then ServerError(ErrorText(DestructureError(body)))
    else
      var projectId, los := Get(body, "projectId"), Get(body, "learningObjects");
      if !Truthy(projectId) || !Truthy(los) || Length(los) == Num(0) then ServerError(MissingFields)
      else if !los.Arr? then ServerError(ErrorText(NotAFunction("learningObjects.map")))
      else Exported(StatsOf(ExportAll(env, los.items)), ExportAll(env, los.items))
  }

  /** `Promise.allSettled(learningObjects.map(...))`: one report per object, in order. */
  function ExportAll(env: Env, los: seq<Value>): (r: seq<LoReport>)
    ensures |r| == |los| && forall i :: 0 <= i < |los| ==> r[i] == ExportLo(env, los[i])
  {
    seq(|los|, i requires 0 <= i < |los| => ExportLo(env, los[i]))
  }

  /** The summary counts: every report is either successful or failed. */
  function StatsOf(results: seq<LoReport>): (r: Stats)
    ensures r.total == |results| && r.successful + r.failed == r.total
    ensures r.successful == |Filter(results, IsDone)| && r.failed == |Filter(results, NotDone)|
  {
    var done, notDone := Filter(results, IsDone), Filter(results, NotDone);
    FilterSplitsMultiset(results, IsDone, NotDone);
    assert |done| + |notDone| == |results| by {
      assert |multiset(done)| + |multiset(notDone)| == |multiset(results)|;
    }
    Stats(|results|, |done|, |notDone|)
  }
}

=== FILE: project_list.dfy ===
/** The project list of backend/api/syntarax/projects.js: the folders directly under
    `dev/` in the content bucket become projects, named after the folder and sorted by
    name. The storage listing is an input (`Fail` when the request throws) and the
    comparator `localeCompare` is an abstract total preorder on names. */
module ProjectList {
  import opened Results
  import opened JsString
  import opened Sequences
  import Sorting

  /** The listing request: bucket, key prefix and delimiter. */
  const Bucket := "edwincontent"
  const ListPrefix := "dev/"
  const Delimiter := "/"

  const NotAllowedText := "Method not allowed"
  const FetchFailed := "Failed to fetch projects"

  datatype Project = Project(id: string, name: string, path: string)

  /** The handler's answers: 405, the 200 list, or the 500 of the `catch`. */
  datatype ProjectsResponse =
    | NotAllowed
    | Listed(projects: seq<Project>)
    | FetchError(error: string)

  function Status(r: ProjectsResponse): (code: int)
    ensures code == 200 <==> r.Listed?
    ensures code == 405 <==> r.NotAllowed?
  {
    match r
    case NotAllowed => 405
    case Listed(_) => 200
    case FetchError(_) => 500
  }

  /** The project for one common prefix: the first `dev/` and then the first `/` are
      removed to give the name, which doubles as the id; the path is the prefix. */
  function ProjectOf(prefix: string): (p: Project)
    ensures p.id == p.name && p.path == prefix
    ensures |p.name| <= |prefix|
    ensures '/' !in prefix ==> p.name == prefix
  {
    var name := ReplaceFirst(ReplaceFirst(prefix, ListPrefix, ""), Delimiter, "");
    assert '/' !in prefix ==> IndexOf(prefix, ListPrefix).None? && IndexOf(prefix, Delimiter).None? by {
      if '/' !in prefix {
        assert ListPrefix[3] == '/';
        NoSlashNoMatch(prefix, ListPrefix);
        NoSlashNoMatch(prefix, Delimiter);
      }
    }
    Project(name, name, prefix)
  }

  /** A pattern containing `/` does not occur in a string without one. */
  lemma NoSlashNoMatch(s: string, pat: string)
    requires '/' in pat && '/' !in s
    ensures IndexOf(s, pat).None?
  {
    var j :| 0 <= j < |pat| && pat[j] == '/';
    forall k ensures !OccursAt(s, pat, k) {
      if 0 <= k && k + |pat| <= |s| {
        assert s[k + j] in s;
        assert s[k..k + |pat|][j] == s[k + j];
      }
    }
  }

  /** The folder `dev/<n>/` is the project named `n`, and the listing's own `dev/`
      entry has an empty name. */
  lemma FolderName(n: string)
    requires '/' !in n
    ensures ProjectOf(ListPrefix + n + Delimiter) == Project(n, n, ListPrefix + n + Delimiter)
  {
    var s := ListPrefix + n + Delimiter;
    assert OccursAt(s, ListPrefix, 0);
    var first := ReplaceFirst(s, ListPrefix, "");
    assert first == n + Delimiter by {
      assert IndexOf(s, ListPrefix) == Some(0);
      assert s[4..] == n + Delimiter;
    }
    assert OccursAt(first, Delimiter, |n|);
    forall k | 0 <= k < |n| ensures !OccursAt(first, Delimiter, k) {
      assert first[k] == n[k];
      assert first[k..k + 1][0] == first[k];
      assert n[k] in n;
    }
    assert IndexOf(first, Delimiter) == Some(|n|);
    assert first[..|n|] == n;
  }

  predicate HasName(p: Project) {
    |p.name| > 0
  }

  /** `CommonPrefixes.map(...)`. */
  function ProjectsOf(prefixes: seq<string>): (r: seq<Project>)
    ensures |r| == |prefixes|
    ensures forall i :: 0 <= i < |prefixes| ==> r[i] == ProjectOf(prefixes[i])
  {
    seq(|prefixes|, i requires 0 <= i < |prefixes| => ProjectOf(prefixes[i]))
  }

  /** Comparing projects by their names. */
  function ByName(nameLeq: (string, string) -> bool): (leq: (Project, Project) -> bool)
    ensures forall a: Project, b: Project :: leq(a, b) == nameLeq(a.name, b.name)
  {
    (a: Project, b: Project) => nameLeq(a.name, b.name)
  }

  lemma ByNamePreorder(nameLeq: (string, string) -> bool)
    requires Sorting.TotalPreorder(nameLeq)
    ensures Sorting.TotalPreorder(ByName(nameLeq))
  {
  }

  /** The non-empty-named projects of `prefixes`, sorted by name. */
  function SortedProjects(prefixes: seq<string>, nameLeq: (string, string) -> bool): (r: seq<Project>)
    requires Sorting.TotalPreorder(nameLeq)
    ensures Sorting.SortedBy(r, ByName(nameLeq))
    ensures multiset(r) == multiset(Filter(ProjectsOf(prefixes), HasName))
    ensures forall i :: 0 <= i < |r| ==> r[i].name != ""
    ensures forall p :: p in r <==> exists k :: 0 <= k < |prefixes| && p == ProjectOf(prefixes[k]) && p.name != ""
  {
    var all := ProjectsOf(prefixes);
    var named := Filter(all, HasName);
    ByNamePreorder(nameLeq);
    var sorted := Sorting.SortBy(named, ByName(nameLeq));
    SameMembers(sorted, named);
    ProjectsOfMembers(prefixes);
    sorted
  }

  lemma SameMembers(a: seq<Project>, b: seq<Project>)
    requires multiset(a) == multiset(b) && forall i :: 0 <= i < |b| ==> HasName(b[i])
    ensures forall p :: p in a <==> p in b
    ensures forall i :: 0 <= i < |a| ==> a[i].name != ""
  {
    forall p ensures p in a <==> p in b {
      assert p in a <==> p in multiset(a);
      assert p in b <==> p in multiset(b);
    }
    forall i | 0 <= i < |a| ensures a[i].name != "" {
      assert a[i] in b;
    }
  }

  lemma ProjectsOfMembers(prefixes: seq<string>)
    ensures forall p :: p in ProjectsOf(prefixes) <==> exists k :: 0 <= k < |prefixes| && p == ProjectOf(prefixes[k])
  {
    var all := ProjectsOf(prefixes);
    forall p ensures p in all <==> exists k :: 0 <= k < |prefixes| && p == ProjectOf(prefixes[k]) {
      if p in all {
        var k :| 0 <= k < |all| && all[k] == p;
      }
    }
  }

  /** The handler. `listing` is the response's `CommonPrefixes` (`None` when the
      response has none, which makes `.map` throw) or the failure of the request. */
  function ListProjects(verb: string, listing: Result<Option<seq<string>>>, nameLeq: (string, string) -> bool): (r: ProjectsResponse)
    requires Sorting.TotalPreorder(nameLeq)
    ensures verb != "GET" <==> r.NotAllowed?
    ensures r.FetchError? <==> verb == "GET" && (listing.Fail? || listing.value.None?)
    ensures r.FetchError? ==> r.error == FetchFailed
    ensures r.Listed? ==> listing.Ok? && listing.value.Some? && r.projects == SortedProjects(listing.value.value, nameLeq)
  {
    if verb != "GET" then NotAllowed
    else if listing.Fail? || listing.value.None? then FetchError(FetchFailed)
    else Listed(SortedProjects(listing.value.value, nameLeq))
  }

  /** A listing of folders `dev/<n>/` lists exactly the folders with non-empty names,
      under those names. */
  lemma ListedFolders(folders: seq<string>, prefixes: seq<string>, nameLeq: (string, string) -> bool)
    requires Sorting.TotalPreorder(nameLeq)
    requires |prefixes| == |folders|
    requires forall i :: 0 <= i < |folders| ==> '/' !in folders[i] && prefixes[i] == ListPrefix + folders[i] + Delimiter
    ensures var r := ListProjects("GET", Ok(Some(prefixes)), nameLeq);
      && r.Listed?
      && forall n :: (exists i :: 0 <= i < |r.projects| && r.projects[i].name == n) <==> n in folders && n != ""
  {
    var r := ListProjects("GET", Ok(Some(prefixes)), nameLeq);
    forall n ensures (exists i :: 0 <= i < |r.projects| && r.projects[i].name == n) <==> n in folders && n != "" {
      if i :| 0 <= i < |r.projects| && r.projects[i].name == n {
        var p := r.projects[i];
        assert p in r.projects;
        var k :| 0 <= k < |prefixes| && p == ProjectOf(prefixes[k]) && p.name != "";
        FolderName(folders[k]);
        assert n == folders[k];
      }
      if n in folders && n != "" {
        var k :| 0 <= k < |folders| && folders[k] == n;
        FolderName(n);
        var p := ProjectOf(prefixes[k]);
        assert p in r.projects;
        var i :| 0 <= i < |r.projects| && r.projects[i] == p;
      }
    }
  }
}

=== FILE: property_order.dfy ===
/** How a plain JavaScript object behaves as a dictionary keyed by arbitrary strings:
    the order `Object.entries` lists its own keys in, and the names every plain object
    already answers to through `Object.prototype`. */
module PropertyOrder {
  import opened JsString
  import opened Sequences
  import Sorting

  /** The names a plain object inherits from `Object.prototype`. Reading one of them from
      `{}` yields a function (for `__proto__`, the prototype object), never `undefined`. */
  const InheritedNames: set<string> := {
    "constructor", "hasOwnProperty", "isPrototypeOf", "propertyIsEnumerable",
    "toLocaleString", "toString", "valueOf", "__proto__",
    "__defineGetter__", "__defineSetter__", "__lookupGetter__", "__lookupSetter__"
  }

  /** A canonical array index: the decimal text, without leading zeros, of an integer
      below 2^32 - 1. */
  predicate IsArrayIndex(k: string) {
    IsDigitRun(k) && (k[0] != '0' || k == "0") && DigitsValue(k) < 0xFFFF_FFFF
  }

  function IndexRank(k: string): nat {
    if IsArrayIndex(k) then DigitsValue(k) else 0
  }

  /** Ascending numeric order of array-index keys. */
  function IndexOrder(): (leq: (string, string) -> bool)
    ensures Sorting.TotalPreorder(leq)
  {
    (a: string, b: string) => IndexRank(a) <= IndexRank(b)
  }

  predicate NotArrayIndex(k: string) {
    !IsArrayIndex(k)
  }

  /** `Object.keys`/`Object.entries` order for keys created in the order `keys`: the array
      indices first, in ascending numeric order, then every other key in creation order. */
  function OwnKeysOrder(keys: seq<string>): (r: seq<string>)
    ensures multiset(r) == multiset(keys)
    ensures var n := |Filter(keys, IsArrayIndex)|;
      && n <= |r|
      && (forall i :: 0 <= i < n ==> IsArrayIndex(r[i]))
      && (forall i, j :: 0 <= i < j < n ==> IndexRank(r[i]) <= IndexRank(r[j]))
      && r[n..] == Filter(keys, NotArrayIndex)
  {
    var indices := Filter(keys, IsArrayIndex);
    var sorted := Sorting.SortBy(indices, IndexOrder());
    SortedIndices(indices, sorted);
    FilterSplitsMultiset(keys, IsArrayIndex, NotArrayIndex);
    var r := sorted + Filter(keys, NotArrayIndex);
    assert r[|sorted|..] == Filter(keys, NotArrayIndex);
    assert forall i :: 0 <= i < |sorted| ==> r[i] == sorted[i];
    r
  }

  lemma SortedIndices(indices: seq<string>, sorted: seq<string>)
    requires forall i :: 0 <= i < |indices| ==> IsArrayIndex(indices[i])
    requires Sorting.SortedBy(sorted, IndexOrder()) && multiset(sorted) == multiset(indices)
    ensures |sorted| == |indices|
    ensures forall i :: 0 <= i < |sorted| ==> IsArrayIndex(sorted[i])
    ensures forall i, j :: 0 <= i < j < |sorted| ==> IndexRank(sorted[i]) <= IndexRank(sorted[j])
  {
    assert |sorted| == |multiset(sorted)| == |multiset(indices)| == |indices|;
    forall i | 0 <= i < |sorted| ensures IsArrayIndex(sorted[i]) {
      assert sorted[i] in multiset(indices);
    }
    forall i, j | 0 <= i < j < |sorted| ensures IndexRank(sorted[i]) <= IndexRank(sorted[j]) {
      assert IndexOrder()(sorted[i], sorted[j]);
    }
  }

  /** Listing keys in `Object.entries` order neither loses nor duplicates a key. */
  lemma OwnKeysOrderDistinct(keys: seq<string>)
    requires Distinct(keys)
    ensures Distinct(OwnKeysOrder(keys))
    ensures forall k :: k in OwnKeysOrder(keys) <==> k in keys
  {
    var r := OwnKeysOrder(keys);
    DistinctPermutation(keys, r);
    forall k ensures k in r <==> k in keys {
      assert k in r <==> k in multiset(r);
      assert k in keys <==> k in multiset(keys);
    }
  }

  /** Keys that are not array indices keep their creation order. */
  lemma NoIndexKeysKeepOrder(keys: seq<string>)
    requires forall i :: 0 <= i < |keys| ==> !IsArrayIndex(keys[i])
    ensures OwnKeysOrder(keys) == keys
  {
    NoIndexFilter(keys);
    assert forall k :: k in Filter(keys, IsArrayIndex) ==> k in keys;
  }

  lemma {:induction false} NoIndexFilter(keys: seq<string>)
    requires forall i :: 0 <= i < |keys| ==> !IsArrayIndex(keys[i])
    ensures Filter(keys, NotArrayIndex) == keys
    decreases |keys|
  {
    if keys != [] {
      NoIndexFilter(keys[1..]);
      assert keys == [keys[0]] + keys[1..];
    }
  }
}

=== FILE: results.dfy ===
/** Failure-carrying values used wherever the JavaScript code returns `null`/`undefined`
    for "absent" or throws an exception that a caller catches. */
module Results {

  /** A value that may be absent. */
  datatype Option<+T> = None | Some(value: T)

  /** The outcome of a computation that either produces a value or throws;
      `Fail` carries the thrown error's message. */
  datatype Result<+T> = Ok(value: T) | Fail(message: string) {

    predicate IsFailure() {
      Fail?
    }

    function PropagateFailure<U>(): Result<U>
      requires Fail?
    {
      Fail(message)
    }

    function Extract(): T
      requires Ok?
    {
      value
    }
  }
}

=== FILE: sequences.dfy ===
/** Generic sequence helpers: filtering (JavaScript's `Array.prototype.filter`) and
    duplicate-freedom, with the facts about multisets the other modules need. */
module Sequences {

  /** `s.filter(p)`: the elements satisfying `p`, in their original order. */
  function Filter<T(!new)>(s: seq<T>, p: T -> bool): (r: seq<T>)
    ensures |r| <= |s|
    ensures forall i :: 0 <= i < |r| ==> p(r[i])
    ensures forall x :: x in r <==> x in s && p(x)
  {
    if s == [] then [] else (if p(s[0]) then [s[0]] else []) + Filter(s[1..], p)
  }

  lemma {:induction false} FilterAppend<T(!new)>(a: seq<T>, b: seq<T>, p: T -> bool)
    ensures Filter(a + b, p) == Filter(a, p) + Filter(b, p)
    decreases |a|
  {
    if a == [] {
      assert a + b == b;
    } else {
      assert (a + b)[0] == a[0];
      assert (a + b)[1..] == a[1..] + b;
      FilterAppend(a[1..], b, p);
    }
  }

  /** Nothing passes the filter when no element satisfies `p`. */
  lemma {:induction false} FilterNone<T(!new)>(s: seq<T>, p: T -> bool)
    requires forall i :: 0 <= i < |s| ==> !p(s[i])
    ensures Filter(s, p) == []
    decreases |s|
  {
    if s != [] {
      FilterNone(s[1..], p);
    }
  }

  /** Filtering by `p` and by its negation splits the elements between the two results. */
  lemma {:induction false} FilterSplitsMultiset<T(!new)>(s: seq<T>, p: T -> bool, q: T -> bool)
    requires forall x :: q(x) == !p(x)
    ensures multiset(Filter(s, p)) + multiset(Filter(s, q)) == multiset(s)
    decreases |s|
  {
    if s != [] {
      var x, fp, fq := s[0], Filter(s[1..], p), Filter(s[1..], q);
      FilterSplitsMultiset(s[1..], p, q);
      MultisetCons(x, s[1..]);
      assert s == [x] + s[1..];
      if p(x) {
        MultisetCons(x, fp);
        assert Filter(s, p) == [x] + fp && Filter(s, q) == fq;
      } else {
        MultisetCons(x, fq);
        assert Filter(s, p) == fp && Filter(s, q) == [x] + fq;
      }
    }
  }

  lemma MultisetCons<T>(x: T, s: seq<T>)
    ensures multiset([x] + s) == multiset{x} + multiset(s)
  {
  }

  /** No element occurs twice. */
  ghost predicate Distinct<T>(s: seq<T>) {
    forall i, j :: 0 <= i < j < |s| ==> s[i] != s[j]
  }

  /** A sequence is duplicate-free exactly when every element has multiplicity one. */
  lemma DistinctMultiplicity<T>(s: seq<T>)
    ensures Distinct(s) <==> forall x :: x in s ==> multiset(s)[x] == 1
  {
    if Distinct(s) {
      forall x | x in s ensures multiset(s)[x] == 1 {
        var i :| 0 <= i < |s| && s[i] == x;
        DistinctOnce(s, i);
      }
    } else {
      var i, j :| 0 <= i < j < |s| && s[i] == s[j];
      RepeatedTwice(s, i, j);
    }
  }

  lemma DistinctOnce<T>(s: seq<T>, i: int)
    requires Distinct(s) && 0 <= i < |s|
    ensures multiset(s)[s[i]] == 1
  {
    assert s == s[..i] + [s[i]] + s[i + 1..];
    assert s[i] !in s[..i] && s[i] !in s[i + 1..];
  }

  lemma RepeatedTwice<T>(s: seq<T>, i: int, j: int)
    requires 0 <= i < j < |s| && s[i] == s[j]
    ensures multiset(s)[s[i]] >= 2
  {
    assert s == s[..i] + [s[i]] + s[i + 1..j] + [s[j]] + s[j + 1..];
  }

  /** Rearranging a duplicate-free sequence keeps it duplicate-free. */
  lemma DistinctPermutation<T>(s: seq<T>, r: seq<T>)
    requires Distinct(s) && multiset(r) == multiset(s)
    ensures Distinct(r)
  {
    DistinctMultiplicity(s);
    DistinctMultiplicity(r);
    forall x | x in r ensures multiset(r)[x] == 1 {
      assert x in multiset(r);
    }
  }

  /** The pieces of `xs` joined end to end, in order (built from the back). */
  function Flatten<T>(xs: seq<seq<T>>): seq<T> {
    if xs == [] then [] else Flatten(xs[..|xs| - 1]) + xs[|xs| - 1]
  }

  /** Joining a first piece in front of the rest. */
  lemma {:induction false} FlattenCons<T>(x: seq<T>, xs: seq<seq<T>>)
    ensures Flatten([x] + xs) == x + Flatten(xs)
    decreases |xs|
  {
    if xs == [] {
      assert [x] + xs == [x];
      assert [x][..0] == [];
      assert Flatten([x]) == [] + x;
    } else {
      var ys, init, last := [x] + xs, xs[..|xs| - 1], xs[|xs| - 1];
      assert ys[..|ys| - 1] == [x] + init;
      assert ys[|ys| - 1] == last;
      FlattenCons(x, init);
      assert Flatten(ys) == (x + Flatten(init)) + last;
      assert Flatten(xs) == Flatten(init) + last;
    }
  }

  /** `xs.map((x, i) => f(x, start + i))`. */
  function MapIndexed<A, B>(xs: seq<A>, f: (A, nat) -> B, start: nat): (r: seq<B>)
    ensures |r| == |xs|
    ensures forall i :: 0 <= i < |xs| ==> r[i] == f(xs[i], start + i)
  {
    seq(|xs|, i requires 0 <= i < |xs| => f(xs[i], start + i))
  }

  lemma MapIndexedAppend<A, B>(a: seq<A>, b: seq<A>, f: (A, nat) -> B, start: nat)
    ensures MapIndexed(a + b, f, start) == MapIndexed(a, f, start) + MapIndexed(b, f, start + |a|)
  {
    var l, r := MapIndexed(a + b, f, start), MapIndexed(a, f, start) + MapIndexed(b, f, start + |a|);
    forall i | 0 <= i < |l| ensures l[i] == r[i] {
      if i >= |a| {
        assert (a + b)[i] == b[i - |a|];
        assert start + |a| + (i - |a|) == start + i;
      }
    }
  }

  /** Threads a state through `xs` from left to right, collecting one output per
      element: a `for ... of` loop whose body may update shared state. */
  function Thread<S, E, O>(s: S, xs: seq<E>, step: (S, E) -> (S, O)): (r: (S, seq<O>))
    ensures |r.1| == |xs|
    decreases |xs|
  {
    if xs == [] then (s, [])
    else
      var first := step(s, xs[0]);
      var rest := Thread(first.0, xs[1..], step);
      (rest.0, [first.1] + rest.1)
  }

  /** The loop over `a + b` is the loop over `a` followed by the loop over `b`. */
  lemma {:induction false} ThreadSplits<S, E, O>(s: S, a: seq<E>, b: seq<E>, step: (S, E) -> (S, O))
    ensures var left := Thread(s, a, step);
      var right := Thread(left.0, b, step);
      Thread(s, a + b, step) == (right.0, left.1 + right.1)
    decreases |a|
  {
    if a == [] {
      assert a + b == b;
      var right := Thread(s, b, step);
      assert [] + right.1 == right.1;
    } else {
      assert (a + b)[0] == a[0] && (a + b)[1..] == a[1..] + b;
      var first := step(s, a[0]);
      var left := Thread(first.0, a[1..], step);
      var right := Thread(left.0, b, step);
      ThreadSplits(first.0, a[1..], b, step);
      assert [first.1] + (left.1 + right.1) == [first.1] + left.1 + right.1;
    }
  }
}

=== FILE: sorting.dfy ===
/** Insertion sort by a caller-supplied comparison, the model of `Array.prototype.sort`
    with a consistent comparator. */
module Sorting {

  /** `leq` orders every pair (ties allowed) and is transitive. */
  ghost predicate TotalPreorder<T(!new)>(leq: (T, T) -> bool) {
    && (forall a, b :: leq(a, b) || leq(b, a))
    && (forall a, b, c :: leq(a, b) && leq(b, c) ==> leq(a, c))
  }

  ghost predicate SortedBy<T>(s: seq<T>, leq: (T, T) -> bool) {
    forall i, j :: 0 <= i < j < |s| ==> leq(s[i], s[j])
  }

  /** Inserts `x` before the first element it is not after. */
  function Insert<T(!new)>(x: T, s: seq<T>, leq: (T, T) -> bool): (r: seq<T>)
    requires TotalPreorder(leq) && SortedBy(s, leq)
    ensures SortedBy(r, leq)
    ensures multiset(r) == multiset(s) + multiset{x}
  {
    if s == [] then [x]
    else if leq(x, s[0]) then
      assert forall j :: 0 < j < |s| ==> leq(s[0], s[j]);
      [x] + s
    else
      var t := Insert(x, s[1..], leq);
      assert s == [s[0]] + s[1..];
      ConsSorted(x, s, t, leq);
      [s[0]] + t
  }

  /** Putting the least element of `s` in front of a sorted rearrangement of the rest
      of `s` and `x` keeps the order, when `x` does not come before it. */
  lemma ConsSorted<T(!new)>(x: T, s: seq<T>, t: seq<T>, leq: (T, T) -> bool)
    requires TotalPreorder(leq) && SortedBy(s, leq) && s != [] && !leq(x, s[0])
    requires SortedBy(t, leq) && multiset(t) == multiset(s[1..]) + multiset{x}
    ensures SortedBy([s[0]] + t, leq)
  {
    forall j | 0 <= j < |t| ensures leq(s[0], t[j]) {
      assert t[j] in multiset(t);
      if t[j] != x {
        assert t[j] in s[1..];
        var k :| 1 <= k < |s| && s[k] == t[j];
      }
    }
    var r := [s[0]] + t;
    forall i, j | 0 <= i < j < |r| ensures leq(r[i], r[j]) {
      if i > 0 { assert r[i] == t[i - 1] && r[j] == t[j - 1]; } else { assert r[j] == t[j - 1]; }
    }
  }

  /** The elements of `s` rearranged into `leq` order. */
  function SortBy<T(!new)>(s: seq<T>, leq: (T, T) -> bool): (r: seq<T>)
    requires TotalPreorder(leq)
    ensures SortedBy(r, leq)
    ensures multiset(r) == multiset(s)
  {
    if s == [] then []
    else
      assert s == [s[0]] + s[1..];
      Insert(s[0], SortBy(s[1..], leq), leq)
  }
}

=== FILE: standardization.dfy ===
/** The standardizer (backend/services/standardizationService.js): turns a parsed upload
    into canonical metadata and image rows. Every function is total on loose values; the
    places where the JavaScript calls a string method on a value that is not a string
    (and so throws a TypeError) are `Fail` results. */
module Standardization {
  import opened Results
  import opened JsString
  import opened JsValue

  /** The metadata section after standardisation (the generation date is not modelled). */
  datatype StdMetadata = StdMetadata(gradeLevel: string, relativeLink: string)

  /** One image row after standardisation: exactly the five fields the pipeline keeps. */
  datatype StdRecord = StdRecord(
    loTitle: string,
    imageSource: string,
    generatedAltText: string,
    editedAltText: string,
    isDecorative: bool)

  // ---------------------------------------------------------------------------
  // Strings

  /** `standardizeString`: `null`/`undefined` become empty text, anything else its
      trimmed `String()` form. */
  function StandardizeString(v: Value): (r: string)
    ensures IsNullish(v) ==> r == ""
    ensures !IsNullish(v) ==> IsTrimOf(r, ToStr(v))
  {
    if IsNullish(v) then "" else Trim(ToStr(v))
  }

  /** Standardising a standardised string changes nothing. */
  lemma StandardizeStringIdempotent(v: Value)
    ensures StandardizeString(Str(StandardizeString(v))) == StandardizeString(v)
  {
    if !IsNullish(v) {
      TrimIdempotent(ToStr(v));
    }
  }

  // ---------------------------------------------------------------------------
  // Paths

  /** A path in canonical form: empty, or a `/`-led path with no `\`, no `//` and no
      trailing `/`. */
  predicate IsCanonicalPath(p: string) {
    && (p == [] || p[0] == '/')
    && (forall i :: 0 <= i < |p| ==> p[i] != '\\')
    && NoDoubleSlash(p)
    && (p == [] || p[|p| - 1] != '/')
  }

  /** The string steps of `standardizePath`: backslashes become `/`, a `/` is put in front
      if missing, runs of `/` collapse and one trailing `/` is dropped. */
  function NormalizePath(s: string): (r: string)
    ensures IsCanonicalPath(r)
    ensures WithoutSlashes(r) == WithoutSlashes(ReplaceEveryChar(s, '\\', '/'))
  {
    SlashSteps(ReplaceEveryChar(s, '\\', '/'))
  }

  /** The steps of `standardizePath` after the backslashes are gone. */
  /** A slash in front of a path that does not start with one. */
  function LeadSlash(a: string): (b: string)
    requires forall i :: 0 <= i < |a| ==> a[i] != '\\'
    ensures b == if StartsWith(a, "/") then a else "/" + a
    ensures StartsWith(b, "/") && WithoutSlashes(b) == WithoutSlashes(a)
    ensures forall i :: 0 <= i < |b| ==> b[i] != '\\'
  {
    if StartsWith(a, "/") then a
    else
      WithoutSlashesAppend("/", a);
      assert forall i :: 0 < i < |a| + 1 ==> ("/" + a)[i] == a[i - 1];
      "/" + a
  }

  function SlashSteps(a: string): (r: string)
    requires forall i :: 0 <= i < |a| ==> a[i] != '\\'
    ensures IsCanonicalPath(r)
    ensures WithoutSlashes(r) == WithoutSlashes(a)
  {
    var b := LeadSlash(a);
    var c := CollapseSlashes(b);
    assert forall i :: 0 <= i < |c| ==> c[i] != '\\' by {
      NoBackslashCollapse(b);
    }
    if EndsWith(c, "/") then
      DropFinalSlash(c);
      c[..|c| - 1]
    else
      c
  }

  lemma NoBackslashCollapse(b: string)
    requires forall i :: 0 <= i < |b| ==> b[i] != '\\'
    ensures forall i :: 0 <= i < |CollapseSlashes(b)| ==> CollapseSlashes(b)[i] != '\\'
  {
    var c := CollapseSlashes(b);
    forall i | 0 <= i < |c| ensures c[i] != '\\' {
      if c[i] == '\\' {
        WithoutSlashesHas(c, i);
        WithoutSlashesOnly(b, '\\');
      }
    }
  }

  /** A character of `s` other than `/` survives in `WithoutSlashes(s)`. */
  lemma {:induction false} WithoutSlashesHas(s: string, i: int)
    requires 0 <= i < |s| && s[i] != '/'
    ensures s[i] in WithoutSlashes(s)
    decreases |s|
  {
    if i > 0 {
      WithoutSlashesHas(s[1..], i - 1);
    }
  }

  /** `WithoutSlashes(s)` holds only characters of `s`. */
  lemma {:induction false} WithoutSlashesOnly(s: string, c: char)
    requires c in WithoutSlashes(s)
    ensures c in s
    decreases |s|
  {
    if s[0] != c {
      WithoutSlashesOnly(s[1..], c);
    }
  }

  lemma DropFinalSlash(c: string)
    requires |c| >= 1 && c[|c| - 1] == '/' && NoDoubleSlash(c)
    ensures NoDoubleSlash(c[..|c| - 1])
    ensures c[..|c| - 1] == [] || c[|c| - 2] != '/'
    ensures WithoutSlashes(c[..|c| - 1]) == WithoutSlashes(c)
  {
    assert c == c[..|c| - 1] + "/";
    WithoutSlashesAppend(c[..|c| - 1], "/");
  }

  /** A path already in canonical form is left as it is. */
  lemma NormalizeCanonical(p: string)
    requires IsCanonicalPath(p)
    ensures NormalizePath(p) == p
  {
    assert ReplaceEveryChar(p, '\\', '/') == p;
    if p == [] {
      assert CollapseSlashes("/") == "/";
    } else {
      assert StartsWith(p, "/");
    }
  }

  /** Replacing backslashes works piece by piece. */
  lemma ReplaceBackslashAppend(a: string, b: string)
    ensures ReplaceEveryChar(a + b, '\\', '/') == ReplaceEveryChar(a, '\\', '/') + ReplaceEveryChar(b, '\\', '/')
  {
    var l, r := ReplaceEveryChar(a + b, '\\', '/'), ReplaceEveryChar(a, '\\', '/') + ReplaceEveryChar(b, '\\', '/');
    forall i | 0 <= i < |l| ensures l[i] == r[i] {
      if i >= |a| { assert (a + b)[i] == b[i - |a|]; }
    }
  }

  /** A `\` in a path is read as a `/`. */
  lemma NormalizeBackslash(x: string, y: string)
    ensures NormalizePath(x + "\\" + y) == NormalizePath(x + "/" + y)
  {
    var s, t := x + "\\" + y, x + "/" + y;
    var rs, rt := ReplaceEveryChar(s, '\\', '/'), ReplaceEveryChar(t, '\\', '/');
    forall i | 0 <= i < |s| ensures rs[i] == rt[i] {
      if i < |x| {
        assert s[i] == x[i] == t[i];
      } else if i > |x| {
        assert s[i] == y[i - |x| - 1] == t[i];
      }
    }
    assert rs == rt;
  }

  /** A doubled `/` in a path counts as one. */
  lemma NormalizeDoubled(x: string, y: string)
    ensures NormalizePath(x + "//" + y) == NormalizePath(x + "/" + y)
  {
    var rx, ry := ReplaceEveryChar(x, '\\', '/'), ReplaceEveryChar(y, '\\', '/');
    ReplaceBackslashAppend(x + "//", y);
    ReplaceBackslashAppend(x, "//");
    ReplaceBackslashAppend(x + "/", y);
    ReplaceBackslashAppend(x, "/");
    assert ReplaceEveryChar("//", '\\', '/') == "//";
    assert ReplaceEveryChar("/", '\\', '/') == "/";
    assert ReplaceEveryChar(x + "//" + y, '\\', '/') == rx + "//" + ry;
    assert ReplaceEveryChar(x + "/" + y, '\\', '/') == rx + "/" + ry;
    SlashStepsDoubled(rx, ry);
  }

  lemma SlashStepsDoubled(u: string, v: string)
    requires forall i :: 0 <= i < |u + "//" + v| ==> (u + "//" + v)[i] != '\\'
    requires forall i :: 0 <= i < |u + "/" + v| ==> (u + "/" + v)[i] != '\\'
    ensures SlashSteps(u + "//" + v) == SlashSteps(u + "/" + v)
  {
    var a, a' := u + "//" + v, u + "/" + v;
    var lead := if StartsWith(a, "/") then "" else "/";
    assert StartsWith(a, "/") <==> StartsWith(a', "/") by {
      if u != [] { assert a[0] == a'[0] == u[0]; }
    }
    assert LeadSlash(a) == (lead + u) + "//" + v;
    assert LeadSlash(a') == (lead + u) + "/" + v;
    CollapseDoubled(lead + u, v);
    assert CollapseSlashes(LeadSlash(a)) == CollapseSlashes(LeadSlash(a'));
  }

  /** A path that does not start with a separator reads as if it started with `/`. */
  lemma NormalizeLead(s: string)
    requires s == [] || (s[0] != '/' && s[0] != '\\')
    ensures NormalizePath(s) == NormalizePath("/" + s)
  {
    ReplaceBackslashAppend("/", s);
    var a := ReplaceEveryChar(s, '\\', '/');
    assert !StartsWith(a, "/");
    assert ReplaceEveryChar("/", '\\', '/') == "/";
    assert StartsWith("/" + a, "/");
  }

  /** A canonical path with one `/` added at the end normalises back to itself. */
  lemma NormalizeTrailing(p: string)
    requires IsCanonicalPath(p)
    ensures NormalizePath(p + "/") == p
  {
    var s := p + "/";
    ReplaceBackslashAppend(p, "/");
    assert ReplaceEveryChar(p, '\\', '/') == p;
    assert ReplaceEveryChar("/", '\\', '/') == "/";
    assert StartsWith(s, "/");
    NoDoubleSlashAppend(p, "/");
    assert CollapseSlashes(s) == s;
    assert EndsWith(s, "/");
    assert s[..|s| - 1] == p;
  }

  /** `standardizePath`: falsy values become empty text, strings are normalised, and any
      other value makes the `replace` call throw. */
  function StandardizePath(v: Value): (r: Result<string>)
    ensures r.Fail? <==> Truthy(v) && !v.Str?
    ensures r.Ok? ==> IsCanonicalPath(r.value)
    ensures !Truthy(v) ==> r == Ok("")
    ensures r.Ok? && Truthy(v) ==> WithoutSlashes(r.value) == WithoutSlashes(ReplaceEveryChar(v.s, '\\', '/'))
    ensures v.Str? && IsCanonicalPath(v.s) ==> r == Ok(v.s)
  {
    if !Truthy(v) then Ok("")
    else if v.Str? then
      assert IsCanonicalPath(v.s) ==> NormalizePath(v.s) == v.s by {
        if IsCanonicalPath(v.s) { NormalizeCanonical(v.s); }
      }
      Ok(NormalizePath(v.s))
    else Fail(NotAFunction("path.replace"))
  }

  /** Standardising a standardised path changes nothing. */
  lemma StandardizePathIdempotent(v: Value)
    requires StandardizePath(v).Ok?
    ensures StandardizePath(Str(StandardizePath(v).value)) == StandardizePath(v)
  {
    NormalizeCanonical(StandardizePath(v).value);
  }

  // ---------------------------------------------------------------------------
  // Booleans

  /** `standardizeBoolean`: booleans are kept, the strings `true`, `yes` and `1` (any case,
      any surrounding white space) and the number 1 are true, everything else is false. */
  function StandardizeBoolean(v: Value): (r: bool)
    ensures r <==> || v == Bool(true)
                   || v == Num(1)
                   || (v.Str? && ToLower(Trim(v.s)) in {"true", "yes", "1"})
  {
    match v
    case Bool(b) => b
    case Str(s) =>
      TrimLowerCommute(s);
      var lowered := Trim(ToLower(s));
      lowered == "true" || lowered == "yes" || lowered == "1"
    case Num(n) => n == 1
    case _ => false
  }

  // ---------------------------------------------------------------------------
  // Grade levels

  /** `s.replace(/^word\s+/i, "")` on lower-case text: the word and all the white space
      after it are dropped when at least one white-space character follows the word. */
  function StripWordPrefix(s: string, word: string): string {
    if StartsWith(s, word) && |s| > |word| && IsSpace(s[|word|]) then TrimStart(s[|word|..]) else s
  }

  /** Text that differs from the word at some position the word covers is left alone. */
  lemma StripNoWord(s: string, word: string, i: nat)
    requires i < |s| && i < |word| && s[i] != word[i]
    ensures StripWordPrefix(s, word) == s
  {
    if |word| <= |s| {
      assert s[..|word|][i] == s[i];
    }
  }

  /** The word, a space and a number lose the word and the space. */
  lemma StripWord(word: string, t: string)
    requires IsDigitRun(t)
    ensures StripWordPrefix(word + " " + t, word) == t
  {
    var s := word + " " + t;
    assert StartsWith(s, word) by {
      assert s[..|word|] == word;
    }
    assert s[|word|] == ' ';
    assert s[|word|..] == " " + t;
    assert IsDigit(t[0]);
    SpaceLedStart(t);
  }

  /** One space in front of text that does not start with white space is all
      `trimStart` removes. */
  lemma SpaceLedStart(t: string)
    requires t != [] && IsDigit(t[0])
    ensures TrimStart(" " + t) == t
  {
    assert (" " + t)[1..] == t;
    assert !IsSpace(t[0]);
  }

  /** Lower-casing leaves digits alone. */
  lemma LowerDigits(t: string)
    requires AllDigits(t)
    ensures ToLower(t) == t
  {
    assert forall i :: 0 <= i < |t| ==> IsDigit(t[i]);
  }

  lemma LowerAppend(a: string, b: string)
    ensures ToLower(a + b) == ToLower(a) + ToLower(b)
  {
  }

  /** A run of digits has no white space to trim. */
  lemma TrimDigits(t: string)
    requires IsDigitRun(t)
    ensures Trim(t) == t
  {
    assert IsDigit(t[0]) && IsDigit(t[|t| - 1]);
    TrimOfTrimmed(t);
  }

  /** The lookup key of a text: trimmed, lower-cased, with a leading `grade`, then `gr`,
      then `g` word removed. */
  function KeyOf(text: string): string {
    StripWordPrefix(StripWordPrefix(StripWordPrefix(ToLower(Trim(text)), "grade"), "gr"), "g")
  }

  /** The grade key of a value: the key of its `String()` form. */
  function GradeKey(v: Value): string {
    KeyOf(ToStr(v))
  }

  /** The key of a printed number is the number itself. */
  lemma NumberKey(t: string)
    requires IsDigitRun(t)
    ensures KeyOf(t) == t
  {
    TrimDigits(t);
    LowerDigits(t);
    DigitsKeepWords(t);
  }

  lemma DigitsKeepWords(t: string)
    requires IsDigitRun(t)
    ensures StripWordPrefix(StripWordPrefix(StripWordPrefix(t, "grade"), "gr"), "g") == t
  {
    StripNoWord(t, "grade", 0);
    StripNoWord(t, "gr", 0);
    StripNoWord(t, "g", 0);
  }

  /** The key of `<word> <n>` is `n` for each of the words the standardiser strips. */
  lemma PrefixedNumberKey(word: string, t: string)
    requires word in {"Grade", "grade", "gr", "g"}
    requires IsDigitRun(t)
    ensures KeyOf(word + " " + t) == t
  {
    if word == "Grade" || word == "grade" {
      PrefixedText(word, "grade", t);
      StripGrade(t);
    } else if word == "gr" {
      PrefixedText(word, "gr", t);
      StripGr(t);
    } else {
      PrefixedText(word, "g", t);
      StripG(t);
    }
  }

  /** Trimming and lower-casing `<word> <n>` lower-cases the word. */
  lemma PrefixedText(word: string, lw: string, t: string)
    requires word in {"Grade", "grade", "gr", "g"}
    requires lw == if word == "Grade" then "grade" else word
    requires IsDigitRun(t)
    ensures ToLower(Trim(word + " " + t)) == lw + " " + t
  {
    LowerWord(word, lw);
    assert word != [] && !IsSpace(word[0]);
    PrefixedTrimmed(word, t);
    PrefixedLower(word, lw, t);
  }

  lemma PrefixedTrimmed(word: string, t: string)
    requires word != [] && !IsSpace(word[0])
    requires IsDigitRun(t)
    ensures Trim(word + " " + t) == word + " " + t
  {
    var s := word + " " + t;
    assert IsTrimmed(s) by {
      assert s[0] == word[0] && s[|s| - 1] == t[|t| - 1];
      assert IsDigit(t[|t| - 1]);
    }
    TrimOfTrimmed(s);
  }

  lemma PrefixedLower(word: string, lw: string, t: string)
    requires ToLower(word) == lw
    requires IsDigitRun(t)
    ensures ToLower(word + " " + t) == lw + " " + t
  {
    LowerAppend(word + " ", t);
    LowerAppend(word, " ");
    LowerDigits(t);
    LowerSpace();
  }

  lemma LowerSpace()
    ensures ToLower(" ") == " "
  {
  }

  lemma LowerWord(word: string, lw: string)
    requires word in {"Grade", "grade", "gr", "g"}
    requires lw == if word == "Grade" then "grade" else word
    ensures ToLower(word) == lw
  {
    if word == "Grade" {
      assert ToLower("Grade") == "grade";
    } else if word == "grade" {
      assert ToLower("grade") == "grade";
    } else if word == "gr" {
      assert ToLower("gr") == "gr";
    } else {
      assert ToLower("g") == "g";
    }
  }

  lemma StripGrade(t: string)
    requires IsDigitRun(t)
    ensures StripWordPrefix(StripWordPrefix(StripWordPrefix("grade" + " " + t, "grade"), "gr"), "g") == t
  {
    StripWord("grade", t);
    StripNoWord(t, "gr", 0);
    StripNoWord(t, "g", 0);
  }

  lemma StripGr(t: string)
    requires IsDigitRun(t)
    ensures StripWordPrefix(StripWordPrefix(StripWordPrefix("gr" + " " + t, "grade"), "gr"), "g") == t
  {
    StripNoWord("gr" + " " + t, "grade", 2);
    StripWord("gr", t);
    StripNoWord(t, "g", 0);
  }

  lemma StripG(t: string)
    requires IsDigitRun(t)
    ensures StripWordPrefix(StripWordPrefix(StripWordPrefix("g" + " " + t, "grade"), "gr"), "g") == t
  {
    StripNoWord("g" + " " + t, "grade", 1);
    StripNoWord("g" + " " + t, "gr", 1);
    StripWord("g", t);
  }

  /** The alias table of `standardizeGradeLevel`. */
  function GradeAlias(key: string): (r: Option<string>)
    ensures r.Some? <==> key in {"k", "kindergarten", "pk", "pre-k", "pre k"}
    ensures r.Some? ==> r.value in {"Kindergarten", "Pre-K"}
  {
    if key == "k" || key == "kindergarten" then Some("Kindergarten")
    else if key == "pk" || key == "pre-k" || key == "pre k" then Some("Pre-K")
    else None
  }

  /** The label a grade key stands for: `Grade <key>` for numeric keys, else the alias
      label, if any. */
  function GradeLabel(key: string): (r: Option<string>)
    ensures IsNumericText(key) ==> r == Some("Grade " + key)
    ensures !IsNumericText(key) ==> r == GradeAlias(key)
    ensures r.Some? ==> StartsWith(r.value, "Grade ") || r.value in {"Kindergarten", "Pre-K"}
  {
    if IsNumericText(key) then Some("Grade " + key) else GradeAlias(key)
  }

  /** `standardizeGradeLevel`: falsy input gives empty text; a key with a label gives the
      label; anything else gives `Grade` followed by the trimmed original, which throws
      when the original is not a string. */
  function StandardizeGradeLevel(v: Value): (r: Result<string>)
    ensures r == Ok("") <==> !Truthy(v)
    ensures Truthy(v) && GradeLabel(GradeKey(v)).Some? ==> r == Ok(GradeLabel(GradeKey(v)).value)
    ensures r.Fail? <==> Truthy(v) && !v.Str? && GradeLabel(GradeKey(v)).None?
    ensures r.Ok? && Truthy(v) && GradeLabel(GradeKey(v)).None? ==> r == Ok("Grade " + Trim(v.s))
  {
    if !Truthy(v) then Ok("")
    else
      var found := GradeLabel(GradeKey(v));
      if found.Some? then Ok(found.value)
      else if v.Str? then Ok("Grade " + Trim(v.s))
      else Fail(NotAFunction("gradeLevel.trim"))
  }

  /** A positive number, or the decimal text of any natural number, standardises to
      `Grade <n>` (the number 0 is falsy and standardises to empty text). */
  lemma NumericGrade(n: nat)
    ensures n > 0 ==> StandardizeGradeLevel(Num(n)) == Ok("Grade " + NatText(n))
    ensures StandardizeGradeLevel(Num(0)) == Ok("")
    ensures StandardizeGradeLevel(Str(NatText(n))) == Ok("Grade " + NatText(n))
  {
    var t := NatText(n);
    NumericLabel(n);
    assert ToStr(Num(n)) == t;
    if n > 0 {
      NumericKeyGrade(Num(n), t);
    }
    assert ToStr(Str(t)) == t;
    NumericKeyGrade(Str(t), t);
  }

  /** A truthy value whose key is numeric standardises to `Grade <key>`. */
  lemma NumericKeyGrade(v: Value, key: string)
    requires Truthy(v) && GradeKey(v) == key && GradeLabel(key) == Some("Grade " + key)
    ensures StandardizeGradeLevel(v) == Ok("Grade " + key)
  {
  }

  lemma NumericLabel(n: nat)
    ensures KeyOf(NatText(n)) == NatText(n)
    ensures GradeLabel(NatText(n)) == Some("Grade " + NatText(n))
  {
    NumberKey(NatText(n));
    NatTextIsNumeric(n);
  }

  /** `Grade <n>`, `grade <n>`, `gr <n>` and `g <n>` all standardise to `Grade <n>`, so the
      standardiser leaves its own numeric labels unchanged. */
  lemma PrefixedNumericGrade(word: string, n: nat)
    requires word in {"Grade", "grade", "gr", "g"}
    ensures StandardizeGradeLevel(Str(word + " " + NatText(n))) == Ok("Grade " + NatText(n))
  {
    var t := NatText(n);
    var v := Str(word + " " + t);
    PrefixedNumberKey(word, t);
    NatTextIsNumeric(n);
    assert ToStr(v) == word + " " + t;
    assert GradeKey(v) == t;
    assert Truthy(v);
    NumericKeyGrade(v, t);
  }

  // ---------------------------------------------------------------------------
  // Sections

  /** `standardizeMetadata`: a falsy grade level defaults to `6`; the link is standardised
      as a path. Reading from `null`/`undefined` metadata throws. */
  /** `metadata.gradeLevel || "6"`. */
  function GradeOrSix(m: Value): (r: Value)
    requires !IsNullish(m)
    ensures Truthy(r)
    ensures Truthy(Get(m, "gradeLevel")) ==> r == Get(m, "gradeLevel")
  {
    var g := Get(m, "gradeLevel");
    if Truthy(g) then g else Str("6")
  }

  function StandardizeMetadata(m: Value): (r: Result<StdMetadata>)
    ensures IsNullish(m) ==> r.Fail?
    ensures r.Ok? ==> IsCanonicalPath(r.value.relativeLink)
    ensures r.Ok? ==> r.value.gradeLevel != ""
    ensures r.Fail? <==> IsNullish(m) || StandardizeGradeLevel(GradeOrSix(m)).Fail? || StandardizePath(Get(m, "relativeLink")).Fail?
    ensures r.Ok? ==> r.value.gradeLevel == StandardizeGradeLevel(GradeOrSix(m)).value
    ensures r.Ok? ==> r.value.relativeLink == StandardizePath(Get(m, "relativeLink")).value
  {
    if IsNullish(m) then Fail(ReadError(m, "gradeLevel"))
    else
      var grade :- StandardizeGradeLevel(GradeOrSix(m));
      var link :- StandardizePath(Get(m, "relativeLink"));
      Ok(StdMetadata(grade, link))
  }

  /** Metadata without a grade level is standardised to grade 6. */
  lemma MissingGradeIsSix(m: Value)
    requires !IsNullish(m) && !Truthy(Get(m, "gradeLevel"))
    requires StandardizeMetadata(m).Ok?
    ensures StandardizeMetadata(m).value.gradeLevel == "Grade 6"
  {
    SixGrade();
    var link := StandardizePath(Get(m, "relativeLink"));
    assert StandardizeMetadata(m) == Ok(StdMetadata("Grade 6", link.value));
  }

  lemma SixGrade()
    ensures StandardizeGradeLevel(Str("6")) == Ok("Grade 6")
  {
    var t := "6";
    assert IsDigitRun(t) by { assert IsDigit(t[0]); }
    NumberKey(t);
    TrimDigits(t);
    DigitRunIsDecimal(t);
    assert IsNumericText(t);
    assert GradeKey(Str(t)) == t;
    assert GradeLabel(t) == Some("Grade " + t);
    assert "Grade " + t == "Grade 6";
  }

  /** The invariant every standardised row satisfies. */
  predicate IsStandardRecord(r: StdRecord) {
    && IsTrimmed(r.loTitle)
    && IsCanonicalPath(r.imageSource)
    && IsTrimmed(r.generatedAltText)
    && IsTrimmed(r.editedAltText)
  }

  /** One element of `standardizeAltTextData`'s `map`. */
  function StandardizeItem(item: Value): (r: Result<StdRecord>)
    ensures IsNullish(item) ==> r.Fail?
    ensures r.Ok? ==> IsStandardRecord(r.value)
    ensures r.Ok? ==> r.value.isDecorative == StandardizeBoolean(Get(item, "isDecorative"))
    ensures r.Fail? <==> IsNullish(item) || StandardizePath(Get(item, "imageSource")).Fail?
    ensures r.Ok? ==>
      && r.value.loTitle == StandardizeString(Get(item, "loTitle"))
      && r.value.imageSource == StandardizePath(Get(item, "imageSource")).value
      && r.value.generatedAltText == StandardizeString(Get(item, "generatedAltText"))
      && r.value.editedAltText == StandardizeString(Get(item, "editedAltText"))
  {
    if IsNullish(item) then Fail(ReadError(item, "loTitle"))
    else
      var source :- StandardizePath(Get(item, "imageSource"));
      Ok(StdRecord(
        StandardizeString(Get(item, "loTitle")),
        source,
        StandardizeString(Get(item, "generatedAltText")),
        StandardizeString(Get(item, "editedAltText")),
        StandardizeBoolean(Get(item, "isDecorative"))))
  }

  /** A standard row, written back as an object, standardises to itself. */
  lemma StandardRecordRoundTrip(r: StdRecord)
    requires IsStandardRecord(r)
    ensures StandardizeItem(RecordValue(r)) == Ok(r)
  {
    var v := RecordValue(r);
    RecordFields(r);
    TrimmedStays(r.loTitle);
    TrimmedStays(r.generatedAltText);
    TrimmedStays(r.editedAltText);
    CanonicalStays(r.imageSource);
    ItemOfParts(v, r);
  }

  /** A row whose parts each standardise to the parts of `r` standardises to `r`. */
  lemma ItemOfParts(v: Value, r: StdRecord)
    requires !IsNullish(v)
    requires StandardizePath(Get(v, "imageSource")) == Ok(r.imageSource)
    requires StandardizeString(Get(v, "loTitle")) == r.loTitle
    requires StandardizeString(Get(v, "generatedAltText")) == r.generatedAltText
    requires StandardizeString(Get(v, "editedAltText")) == r.editedAltText
    requires StandardizeBoolean(Get(v, "isDecorative")) == r.isDecorative
    ensures StandardizeItem(v) == Ok(r)
  {
  }

  lemma RecordFields(r: StdRecord)
    ensures var v := RecordValue(r);
      && !IsNullish(v)
      && Get(v, "loTitle") == Str(r.loTitle)
      && Get(v, "imageSource") == Str(r.imageSource)
      && Get(v, "generatedAltText") == Str(r.generatedAltText)
      && Get(v, "editedAltText") == Str(r.editedAltText)
      && Get(v, "isDecorative") == Bool(r.isDecorative)
  {
  }

  lemma TrimmedStays(s: string)
    requires IsTrimmed(s)
    ensures StandardizeString(Str(s)) == s
  {
    TrimOfTrimmed(s);
  }

  lemma CanonicalStays(p: string)
    requires IsCanonicalPath(p)
    ensures StandardizePath(Str(p)) == Ok(p)
  {
    if p != [] {
      NormalizeCanonical(p);
    }
  }

  /** The `map` over the rows: one standardised row per input row, in order; the first
      row that throws aborts the whole map. */
  function StandardizeItems(items: seq<Value>): (r: Result<seq<StdRecord>>)
    ensures r.Ok? <==> forall i :: 0 <= i < |items| ==> StandardizeItem(items[i]).Ok?
    ensures r.Ok? ==> |r.value| == |items|
    ensures r.Ok? ==> forall i :: 0 <= i < |items| ==> r.value[i] == StandardizeItem(items[i]).value
  {
    if items == [] then Ok([])
    else
      var first :- StandardizeItem(items[0]);
      var rest :- StandardizeItems(items[1..]);
      assert forall i :: 1 <= i < |items| ==> items[i] == items[1..][i - 1];
      Ok([first] + rest)
  }

  /** `standardizeAltTextData`: a non-array becomes the empty list. */
  function StandardizeAltTextData(v: Value): (r: Result<seq<StdRecord>>)
    ensures !v.Arr? ==> r == Ok([])
    ensures v.Arr? ==> r == StandardizeItems(v.items)
    ensures r.Ok? ==> forall i :: 0 <= i < |r.value| ==> IsStandardRecord(r.value[i])
  {
    if v.Arr? then StandardizeItems(v.items) else Ok([])
  }

  /** The standardised metadata and rows of a successful parse. */
  function StandardizeParts(data: Value): (r: Result<(StdMetadata, seq<StdRecord>)>)
    requires !IsNullish(data)
  {
    var meta :- StandardizeMetadata(Get(data, "metadata"));
    var rows :- StandardizeAltTextData(Get(data, "altTextData"));
    Ok((meta, rows))
  }

  function MetadataValue(m: StdMetadata): Value {
    Obj(map["gradeLevel" := Str(m.gradeLevel), "relativeLink" := Str(m.relativeLink)])
  }

  function RecordValue(r: StdRecord): Value {
    Obj(map[
      "loTitle" := Str(r.loTitle),
      "imageSource" := Str(r.imageSource),
      "generatedAltText" := Str(r.generatedAltText),
      "editedAltText" := Str(r.editedAltText),
      "isDecorative" := Bool(r.isDecorative)])
  }

  /** Does `data` take the standardising branch (truthy, with a truthy `success`)? */
  predicate IsSuccessfulParse(data: Value) {
    Truthy(data) && Truthy(Get(data, "success"))
  }

  function RowsValue(rows: seq<StdRecord>): (r: Value)
    ensures r.Arr? && |r.items| == |rows|
    ensures forall i :: 0 <= i < |rows| ==> r.items[i] == RecordValue(rows[i])
  {
    Arr(seq(|rows|, i requires 0 <= i < |rows| => RecordValue(rows[i])))
  }

  /** `standardizeData`: a falsy input or one without a truthy `success` is returned as
      it is; otherwise `metadata` and `altTextData` are replaced by their standardised
      forms and every other property is kept. */
  function StandardizeData(data: Value): (r: Result<Value>)
    ensures !IsSuccessfulParse(data) ==> r == Ok(data)
    ensures IsSuccessfulParse(data) ==> (r.Ok? <==> StandardizeParts(data).Ok?)
    ensures IsSuccessfulParse(data) && r.Ok? ==>
      && data.Obj? && r.value.Obj?
      && r.value.fields.Keys == data.fields.Keys + {"metadata", "altTextData"}
      && forall k :: k in data.fields && k != "metadata" && k != "altTextData" ==> r.value.fields[k] == data.fields[k]
  {
    if !IsSuccessfulParse(data) then Ok(data)
    else
      var parts :- StandardizeParts(data);
      Ok(Obj(WithSections(data.fields, parts.0, parts.1)))
  }

  /** The object's properties with the two sections replaced. */
  function WithSections(fields: map<string, Value>, meta: StdMetadata, rows: seq<StdRecord>): (r: map<string, Value>)
    ensures r.Keys == fields.Keys + {"metadata", "altTextData"}
    ensures forall k :: k in fields && k != "metadata" && k != "altTextData" ==> r[k] == fields[k]
    ensures r["metadata"] == MetadataValue(meta) && r["altTextData"] == RowsValue(rows)
  {
    fields["metadata" := MetadataValue(meta)]["altTextData" := RowsValue(rows)]
  }

  /** The two sections a successful standardisation writes back. */
  lemma StandardizedSections(data: Value)
    requires IsSuccessfulParse(data) && StandardizeData(data).Ok?
    ensures var parts := StandardizeParts(data).value;
      && StandardizeData(data).value.fields["metadata"] == MetadataValue(parts.0)
      && StandardizeData(data).value.fields["altTextData"] == RowsValue(parts.1)
  {
  }
}

=== FILE: validation.dfy ===
/** The validator (backend/services/validationService.js): checks a standardised upload
    against the alt-text rule table and reports every problem as a message. A row whose
    rule check calls `trim` on a value that is not a string, and a row that is `null` or
    `undefined`, make the JavaScript throw; those are `Fail` results. */
module Validation {
  import opened Results
  import opened JsString
  import opened JsValue
  import opened Standardization
  import opened Sequences

  /** A reported problem: the row and structure checks report plain text, the metadata
      checks report an object with a message (its timestamp is not modelled). */
  datatype Violation = Text(text: string) | Structured(message: string)

  datatype ValidationResult = ValidationResult(valid: bool, errors: seq<Violation>)

  /** The `typeof` a rule demands. */
  datatype FieldType = TypeString | TypeBoolean

  function TypeName(t: FieldType): string {
    match t
    case TypeString => "string"
    case TypeBoolean => "boolean"
  }

  /** The rule-specific `validate` callbacks of the table. */
  datatype Check =
    | NoCheck
    | NonBlank              // `value.trim().length > 0`
    | AltTextOrDecorative   // `row.isDecorative === true || value.trim().length > 0`

  datatype Rule = Rule(field: string, required: bool, fieldType: FieldType, check: Check, message: Option<string>)

  /** The `altTextData` rules, in the order `Object.entries` visits them. */
  const AltTextRules: seq<Rule> := [LoTitleRule, ImageSourceRule, GeneratedAltTextRule, EditedAltTextRule, DecorativeRule]

  const ImageSourceMessage := "Image source is required"
  const AltTextMessage := "Either edited alt text or isDecorative must be provided"

  const LoTitleRule := Rule("loTitle", false, TypeString, NoCheck, None)
  const ImageSourceRule := Rule("imageSource", true, TypeString, NonBlank, Some(ImageSourceMessage))
  const GeneratedAltTextRule := Rule("generatedAltText", false, TypeString, NoCheck, None)
  const EditedAltTextRule := Rule("editedAltText", false, TypeString, AltTextOrDecorative, Some(AltTextMessage))
  const DecorativeRule := Rule("isDecorative", false, TypeBoolean, NoCheck, None)

  /** `value.trim().length > 0`, which throws when `value` is not a string. */
  function NonBlankText(value: Value): (r: Result<bool>)
    ensures r.Fail? <==> !value.Str?
    ensures r.Ok? ==> (r.value <==> !AllSpace(value.s))
  {
    if value.Str? then Ok(Trim(value.s) != []) else Fail(NotAFunction("value.trim"))
  }

  /** A rule's `validate` callback: the non-blank check passes exactly for a string that
      is not all white space, and the alt-text check also passes, without reading the
      value, when the row's `isDecorative` is `true`; `trim` on anything but a string
      throws. */
  function RunCheck(check: Check, value: Value, row: Value): (r: Result<bool>)
    requires !IsNullish(row)
    ensures check == NoCheck ==> r == Ok(true)
    ensures check == AltTextOrDecorative && Get(row, "isDecorative") == Bool(true) ==> r == Ok(true)
    ensures r.Fail? <==> !value.Str? && (check == NonBlank || (check == AltTextOrDecorative && Get(row, "isDecorative") != Bool(true)))
    ensures r.Ok? ==> (r.value <==>
      || check == NoCheck
      || (check == AltTextOrDecorative && Get(row, "isDecorative") == Bool(true))
      || (value.Str? && !AllSpace(value.s)))
  {
    match check
    case NoCheck => Ok(true)
    case NonBlank => NonBlankText(value)
    case AltTextOrDecorative => if Get(row, "isDecorative") == Bool(true) then Ok(true) else NonBlankText(value)
  }

  /** `prefix ? prefix + ": " : ""`. */
  function Lead(prefix: string): string {
    if prefix == "" then "" else prefix + ": "
  }

  /** A message with the row's lead in front starts with that lead. */
  lemma LeadStarts(prefix: string, text: string)
    ensures StartsWith(Lead(prefix) + text, Lead(prefix))
  {
    assert (Lead(prefix) + text)[..|Lead(prefix)|] == Lead(prefix);
  }

  /** `<field> must be of type <type>`. */
  function TypeMessage(rule: Rule): string {
    rule.field + " must be of type " + TypeName(rule.fieldType)
  }

  /** `rule.message || "Invalid <field>"`. */
  function CheckMessage(rule: Rule): string {
    if rule.message.Some? then rule.message.value else "Invalid " + rule.field
  }

  /** The messages one rule adds for one row: `required` for a missing required field,
      nothing for a missing optional one, otherwise a type message when `typeof` differs
      and then, when the check fails, the rule's message (or `Invalid <field>`). */
  function RuleErrors(row: Value, rule: Rule, prefix: string): (r: Result<seq<string>>)
    requires !IsNullish(row)
    ensures IsNullish(Get(row, rule.field)) ==> r == Ok(if rule.required then [Lead(prefix) + rule.field + " is required"] else [])
    ensures r.Ok? ==> |r.value| <= 2 && forall i :: 0 <= i < |r.value| ==> StartsWith(r.value[i], Lead(prefix))
    ensures r.Fail? ==> rule.check != NoCheck
    ensures r.Fail? <==> !IsNullish(Get(row, rule.field)) && RunCheck(rule.check, Get(row, rule.field), row).Fail?
    ensures !IsNullish(Get(row, rule.field)) && r.Ok? ==>
      var value := Get(row, rule.field);
      var mistyped := TypeOf(value) != TypeName(rule.fieldType);
      var failed := !RunCheck(rule.check, value, row).value;
      && |r.value| == (if mistyped then 1 else 0) + (if failed then 1 else 0)
      && (mistyped ==> r.value[0] == Lead(prefix) + TypeMessage(rule))
      && (failed ==> r.value[|r.value| - 1] == Lead(prefix) + CheckMessage(rule))
  {
    var value := Get(row, rule.field);
    if IsNullish(value) then
      LeadStarts(prefix, rule.field + " is required");
      assert Lead(prefix) + rule.field + " is required" == Lead(prefix) + (rule.field + " is required");
      Ok(if rule.required then [Lead(prefix) + rule.field + " is required"] else [])
    else
      PresentErrors(value, row, rule, prefix)
  }

  /** The messages for a field that is present: a type message, then the check's. */
  function PresentErrors(value: Value, row: Value, rule: Rule, prefix: string): (r: Result<seq<string>>)
    requires !IsNullish(row)
    ensures r.Ok? ==> |r.value| <= 2 && forall i :: 0 <= i < |r.value| ==> StartsWith(r.value[i], Lead(prefix))
    ensures r.Fail? ==> rule.check != NoCheck
    ensures r.Fail? <==> RunCheck(rule.check, value, row).Fail?
    ensures r.Ok? ==>
      var mistyped := TypeOf(value) != TypeName(rule.fieldType);
      var failed := !RunCheck(rule.check, value, row).value;
      && |r.value| == (if mistyped then 1 else 0) + (if failed then 1 else 0)
      && (mistyped ==> r.value[0] == Lead(prefix) + TypeMessage(rule))
      && (failed ==> r.value[|r.value| - 1] == Lead(prefix) + CheckMessage(rule))
  {
    var passes :- RunCheck(rule.check, value, row);
    var typeErrors := LabelledIf(TypeOf(value) != TypeName(rule.fieldType), prefix, TypeMessage(rule));
    var checkErrors := LabelledIf(!passes, prefix, CheckMessage(rule));
    JoinLabelled(typeErrors, checkErrors, prefix);
    Ok(typeErrors + checkErrors)
  }

  /** The one message `text` under the row's label when `cond` holds, else none. */
  function LabelledIf(cond: bool, prefix: string, text: string): (r: seq<string>)
    ensures |r| == (if cond then 1 else 0)
    ensures cond ==> r[0] == Lead(prefix) + text && StartsWith(r[0], Lead(prefix))
  {
    LeadStarts(prefix, text);
    if cond then [Lead(prefix) + text] else []
  }

  lemma JoinLabelled(a: seq<string>, b: seq<string>, prefix: string)
    requires |a| <= 1 && |b| <= 1
    requires forall i :: 0 <= i < |a| ==> StartsWith(a[i], Lead(prefix))
    requires forall i :: 0 <= i < |b| ==> StartsWith(b[i], Lead(prefix))
    ensures |a + b| == |a| + |b| <= 2
    ensures forall i :: 0 <= i < |a + b| ==> StartsWith((a + b)[i], Lead(prefix))
    ensures a != [] ==> (a + b)[0] == a[0]
    ensures b != [] ==> (a + b)[|a + b| - 1] == b[0]
  {
  }

  /** Each rule's outcome for one row, in table order. */
  function RuleOutcomes(row: Value, rules: seq<Rule>, prefix: string): (r: seq<Result<seq<string>>>)
    requires !IsNullish(row)
    ensures |r| == |rules| && forall i :: 0 <= i < |rules| ==> r[i] == RuleErrors(row, rules[i], prefix)
  {
    seq(|rules|, i requires 0 <= i < |rules| => RuleErrors(row, rules[i], prefix))
  }

  lemma OutcomesTail(row: Value, rules: seq<Rule>, prefix: string)
    requires !IsNullish(row) && rules != []
    ensures RuleOutcomes(row, rules, prefix)[0] == RuleErrors(row, rules[0], prefix)
    ensures RuleOutcomes(row, rules, prefix)[1..] == RuleOutcomes(row, rules[1..], prefix)
  {
  }

  /** The rules applied one after another to a row that is not nullish: the rules'
      messages gathered in table order, or the first rule that throws. */
  function SectionErrors(row: Value, rules: seq<Rule>, prefix: string): (r: Result<seq<string>>)
    requires !IsNullish(row)
    ensures r.Ok? <==> forall i :: 0 <= i < |rules| ==> RuleErrors(row, rules[i], prefix).Ok?
    ensures r.Ok? ==> |r.value| <= 2 * |rules|
    ensures r.Ok? ==> forall i :: 0 <= i < |r.value| ==> StartsWith(r.value[i], Lead(prefix))
  {
    if rules == [] then Ok([])
    else
      var first :- RuleErrors(row, rules[0], prefix);
      var rest :- SectionErrors(row, rules[1..], prefix);
      assert forall i :: 1 <= i < |rules| ==> rules[i] == rules[1..][i - 1];
      Ok(first + rest)
  }

  /** Applying the rules one after another is gathering their outcomes. */
  lemma {:induction false} SectionGathers(row: Value, rules: seq<Rule>, prefix: string)
    requires !IsNullish(row)
    ensures SectionErrors(row, rules, prefix) == Gather(RuleOutcomes(row, rules, prefix))
    decreases |rules|
  {
    if rules != [] {
      OutcomesTail(row, rules, prefix);
      SectionGathers(row, rules[1..], prefix);
    }
  }

  /** `validateSection`: reading the first field of a `null` or `undefined` row throws. */
  function ValidateSection(row: Value, rules: seq<Rule>, prefix: string): (r: Result<seq<string>>)
    ensures rules != [] && IsNullish(row) ==> r == Fail(ReadError(row, rules[0].field))
    ensures !IsNullish(row) ==> r == Gather(RuleOutcomes(row, rules, prefix))
    ensures r.Ok? ==> |r.value| <= 2 * |rules|
    ensures r.Ok? ==> forall i :: 0 <= i < |r.value| ==> StartsWith(r.value[i], Lead(prefix))
  {
    if rules == [] then Ok([])
    else if IsNullish(row) then Fail(ReadError(row, rules[0].field))
    else
      SectionGathers(row, rules, prefix);
      SectionErrors(row, rules, prefix)
  }

  // ---------------------------------------------------------------------------
  // Grade levels and metadata

  /** `isValidGradeLevel`: any number is valid; a string is valid when, lower-cased and
      with its first `grade` removed, it converts to a number; nothing else is valid. */
  function IsValidGradeLevel(grade: Value): (r: bool)
    ensures grade.Num? ==> r
    ensures !grade.Num? && !grade.Str? ==> !r
    ensures grade.Str? && r ==> IsNumericText(ReplaceFirst(ToLower(grade.s), "grade", ""))
    ensures grade.Str? ==> (r <==> IsNumericText(ReplaceFirst(ToLower(grade.s), "grade", "")))
  {
    match grade
    case Num(_) => true
    case Str(s) =>
      TrimIdempotent(ReplaceFirst(ToLower(s), "grade", ""));
      IsNumericText(Trim(ReplaceFirst(ToLower(s), "grade", "")))
    case _ => false
  }

  const GradeFormatMessage := "Invalid grade level format"
  const LinkMessage := "Project directory link is required"

  /** `validateMetadata`: a grade level that is present and invalid, and a missing link,
      are each reported once. */
  function ValidateMetadata(metadata: Value): (r: seq<Violation>)
    requires !IsNullish(metadata)
    ensures Structured(GradeFormatMessage) in r <==>
      Truthy(Get(metadata, "gradeLevel")) && !IsValidGradeLevel(Get(metadata, "gradeLevel"))
    ensures Structured(LinkMessage) in r <==> !Truthy(Get(metadata, "relativeLink"))
    ensures |r| <= 2
  {
    var grade := Get(metadata, "gradeLevel");
    (if Truthy(grade) && !IsValidGradeLevel(grade) then [Structured(GradeFormatMessage)] else [])
    + (if !Truthy(Get(metadata, "relativeLink")) then [Structured(LinkMessage)] else [])
  }

  // ---------------------------------------------------------------------------
  // Whole uploads

  /** The prefix of the messages about the row at (zero-based) `index`. */
  function RowLabel(index: nat): string {
    "Row " + NatText(index + 1)
  }

  /** The outcome of validating each row, numbered from `start`. */
  function RowOutcomes(rows: seq<Value>, rules: seq<Rule>, start: nat): (r: seq<Result<seq<string>>>)
    ensures |r| == |rows|
    ensures forall i :: 0 <= i < |rows| ==> r[i] == ValidateSection(rows[i], rules, RowLabel(start + i))
  {
    MapIndexed(rows, (row, index) => ValidateSection(row, rules, RowLabel(index)), start)
  }

  /** The messages of outcomes that all succeeded, one block per outcome. */
  function Messages(outcomes: seq<Result<seq<string>>>): (r: seq<seq<string>>)
    requires forall i :: 0 <= i < |outcomes| ==> outcomes[i].Ok?
    ensures |r| == |outcomes| && forall i :: 0 <= i < |outcomes| ==> r[i] == outcomes[i].value
  {
    seq(|outcomes|, i requires 0 <= i < |outcomes| && outcomes[i].Ok? => outcomes[i].value)
  }

  /** Index `i` holds the first failed outcome. */
  predicate FirstFailureAt(outcomes: seq<Result<seq<string>>>, i: int) {
    0 <= i < |outcomes| && outcomes[i].Fail? && forall j :: 0 <= j < i ==> outcomes[j].Ok?
  }

  /** The messages of a sequence of outcomes in order, or the first failure. */
  function Gather(outcomes: seq<Result<seq<string>>>): (r: Result<seq<string>>)
    ensures r.Ok? <==> forall i :: 0 <= i < |outcomes| ==> outcomes[i].Ok?
  {
    if outcomes == [] then Ok([])
    else
      var first :- outcomes[0];
      var rest :- Gather(outcomes[1..]);
      assert forall i :: 1 <= i < |outcomes| ==> outcomes[i] == outcomes[1..][i - 1];
      Ok(first + rest)
  }

  /** `errors.push(...messages)` for each outcome in turn: when nothing throws, every
      outcome's messages concatenated in order; otherwise the error of the first outcome
      that threw. */
  lemma {:induction false} GatherMeaning(outcomes: seq<Result<seq<string>>>)
    ensures Gather(outcomes).Ok? ==> Gather(outcomes).value == Flatten(Messages(outcomes))
    ensures Gather(outcomes).Fail? ==> exists i :: FirstFailureAt(outcomes, i) && Gather(outcomes).message == outcomes[i].message
    decreases |outcomes|
  {
    if outcomes != [] {
      var tail := outcomes[1..];
      GatherMeaning(tail);
      assert forall i :: 1 <= i < |outcomes| ==> outcomes[i] == tail[i - 1];
      if outcomes[0].Fail? {
        assert FirstFailureAt(outcomes, 0);
      } else if Gather(tail).Fail? {
        var i :| FirstFailureAt(tail, i) && Gather(tail).message == tail[i].message;
        assert FirstFailureAt(outcomes, i + 1);
      } else {
        assert Messages(outcomes) == [outcomes[0].value] + Messages(tail);
        FlattenCons(outcomes[0].value, Messages(tail));
      }
    }
  }

  lemma GatherSingle(x: Result<seq<string>>)
    ensures Gather([x]) == x
  {
    assert [x][1..] == [];
    if x.Ok? { assert x.value + [] == x.value; }
  }

  /** The first outcome's messages, then the rest's. */
  lemma GatherFirst(outcomes: seq<Result<seq<string>>>) returns (first: seq<string>, rest: seq<string>)
    requires outcomes != [] && Gather(outcomes).Ok?
    ensures outcomes[0] == Ok(first) && Gather(outcomes[1..]) == Ok(rest)
    ensures Gather(outcomes).value == first + rest
  {
    assert forall i :: 1 <= i < |outcomes| ==> outcomes[i] == outcomes[1..][i - 1];
    first, rest := outcomes[0].value, Gather(outcomes[1..]).value;
  }

  /** Gathering two blocks of outcomes one after the other is gathering them together. */
  lemma {:induction false} GatherAppend(a: seq<Result<seq<string>>>, b: seq<Result<seq<string>>>)
    requires Gather(a).Ok?
    ensures Gather(b).Ok? ==> Gather(a + b) == Ok(Gather(a).value + Gather(b).value)
    ensures Gather(b).Fail? ==> Gather(a + b) == Gather(b)
    decreases |a|
  {
    if a == [] {
      assert a + b == b;
      if Gather(b).Ok? {
        assert [] + Gather(b).value == Gather(b).value;
      }
    } else {
      assert (a + b)[0] == a[0];
      assert (a + b)[1..] == a[1..] + b;
      GatherAppend(a[1..], b);
      if Gather(b).Ok? {
        assert a[0].value + (Gather(a[1..]).value + Gather(b).value) == (a[0].value + Gather(a[1..]).value) + Gather(b).value;
      }
    }
  }

  /** Every message about the row at `index` starts with `Row `. */
  lemma RowMessages(row: Value, rules: seq<Rule>, index: nat)
    requires ValidateSection(row, rules, RowLabel(index)).Ok?
    ensures var messages := ValidateSection(row, rules, RowLabel(index)).value;
      forall i :: 0 <= i < |messages| ==> StartsWith(messages[i], "Row ")
  {
    var messages := ValidateSection(row, rules, RowLabel(index)).value;
    var lead := Lead(RowLabel(index));
    assert lead[..4] == "Row ";
    forall i | 0 <= i < |messages| ensures StartsWith(messages[i], "Row ") {
      assert messages[i][..|lead|] == lead;
      assert messages[i][..4] == lead[..4];
    }
  }

  /** The `forEach` over the rows, numbering them from `start`: every row's messages in
      order; the first row that throws aborts the whole validation. */
  function ValidateRows(rows: seq<Value>, rules: seq<Rule>, start: nat): (r: Result<seq<string>>)
    ensures r.Ok? <==> forall i :: 0 <= i < |rows| ==> ValidateSection(rows[i], rules, RowLabel(start + i)).Ok?
    ensures r.Ok? ==> forall i :: 0 <= i < |r.value| ==> StartsWith(r.value[i], "Row ")
    ensures |rows| == 1 ==> r == ValidateSection(rows[0], rules, RowLabel(start))
  {
    var outcomes := RowOutcomes(rows, rules, start);
    var r := Gather(outcomes);
    assert |rows| == 1 ==> r == ValidateSection(rows[0], rules, RowLabel(start)) by {
      if |rows| == 1 {
        assert outcomes == [ValidateSection(rows[0], rules, RowLabel(start))];
        GatherSingle(outcomes[0]);
      }
    }
    if r.Ok? then
      assert forall i :: 0 <= i < |outcomes| && outcomes[i].Ok? ==> AllStartWith(outcomes[i].value, "Row ") by {
        forall i | 0 <= i < |outcomes| && outcomes[i].Ok? ensures AllStartWith(outcomes[i].value, "Row ") {
          RowMessages(rows[i], rules, start + i);
        }
      }
      GatherAllStart(outcomes, "Row ");
      r
    else r
  }

  /** Every message starts with `p`. */
  predicate AllStartWith(messages: seq<string>, p: string) {
    forall j :: 0 <= j < |messages| ==> StartsWith(messages[j], p)
  }

  /** Gathering keeps a prefix every outcome's messages share. */
  lemma {:induction false} GatherAllStart(outcomes: seq<Result<seq<string>>>, p: string)
    requires forall i :: 0 <= i < |outcomes| && outcomes[i].Ok? ==> AllStartWith(outcomes[i].value, p)
    requires Gather(outcomes).Ok?
    ensures AllStartWith(Gather(outcomes).value, p)
    decreases |outcomes|
  {
    if outcomes != [] {
      var first, rest := GatherFirst(outcomes);
      assert forall i :: 1 <= i < |outcomes| ==> outcomes[1..][i - 1] == outcomes[i];
      GatherAllStart(outcomes[1..], p);
      forall j | 0 <= j < |first + rest| ensures StartsWith((first + rest)[j], p) {
        if j >= |first| { assert (first + rest)[j] == rest[j - |first|]; }
      }
    }
  }

  /** Validating two blocks of rows one after the other is validating them together. */
  lemma ValidateRowsAppend(a: seq<Value>, b: seq<Value>, rules: seq<Rule>, start: nat)
    requires ValidateRows(a, rules, start).Ok?
    ensures ValidateRows(b, rules, start + |a|).Ok? ==>
      ValidateRows(a + b, rules, start) == Ok(ValidateRows(a, rules, start).value + ValidateRows(b, rules, start + |a|).value)
    ensures ValidateRows(b, rules, start + |a|).Fail? ==> ValidateRows(a + b, rules, start) == ValidateRows(b, rules, start + |a|)
  {
    MapIndexedAppend(a, b, (row, index) => ValidateSection(row, rules, RowLabel(index)), start);
    GatherAppend(RowOutcomes(a, rules, start), RowOutcomes(b, rules, start + |a|));
  }

  function TextsOf(messages: seq<string>): (r: seq<Violation>)
    ensures |r| == |messages|
    ensures forall i :: 0 <= i < |messages| ==> r[i] == Text(messages[i])
  {
    seq(|messages|, i requires 0 <= i < |messages| => Text(messages[i]))
  }

  const StructureMessage := "Invalid data structure"
  const MissingMetadataMessage := "Missing metadata section"
  const NotArrayMessage := "Alt text data must be an array"
  const EmptyRowsMessage := "Alt text data array is empty"

  /** The problems with the `altTextData` section. */
  function RowSectionErrors(rows: Value): (r: Result<seq<Violation>>)
    ensures !rows.Arr? ==> r == Ok([Text(NotArrayMessage)])
    ensures rows.Arr? && rows.items == [] ==> r == Ok([Text(EmptyRowsMessage)])
    ensures rows.Arr? && rows.items != [] ==> (r.Ok? <==> ValidateRows(rows.items, AltTextRules, 0).Ok?)
    ensures rows.Arr? && rows.items != [] && r.Ok? ==> r.value == TextsOf(ValidateRows(rows.items, AltTextRules, 0).value)
    ensures rows.Arr? && rows.items != [] && r.Fail? ==> r.message == ValidateRows(rows.items, AltTextRules, 0).message
  {
    if !rows.Arr? then Ok([Text(NotArrayMessage)])
    else if rows.items == [] then Ok([Text(EmptyRowsMessage)])
    else
      var messages :- ValidateRows(rows.items, AltTextRules, 0);
      Ok(TextsOf(messages))
  }

  /** What the metadata section draws: one message when it is missing, otherwise the
      metadata checks' messages. */
  function MetadataErrors(metadata: Value): seq<Violation> {
    if !Truthy(metadata) then [Text(MissingMetadataMessage)] else ValidateMetadata(metadata)
  }

  /** `validateData`: anything that is not a truthy object is rejected with one message;
      otherwise the metadata and the rows are checked and the upload is valid exactly
      when nothing was reported. */
  function ValidateData(data: Value): (r: Result<ValidationResult>)
    ensures !Truthy(data) || TypeOf(data) != "object" ==> r == Ok(ValidationResult(false, [Text(StructureMessage)]))
    ensures r.Ok? ==> (r.value.valid <==> r.value.errors == [])
    ensures Truthy(data) && TypeOf(data) == "object" ==> (r.Ok? <==> RowSectionErrors(Get(data, "altTextData")).Ok?)
    ensures r.Ok? && Truthy(data) && TypeOf(data) == "object" ==>
      (Text(MissingMetadataMessage) in r.value.errors <==> !Truthy(Get(data, "metadata")))
    ensures r.Ok? && Truthy(data) && TypeOf(data) == "object" ==>
      r.value.errors == MetadataErrors(Get(data, "metadata")) + RowSectionErrors(Get(data, "altTextData")).value
  {
    if !Truthy(data) || TypeOf(data) != "object" then Ok(ValidationResult(false, [Text(StructureMessage)]))
    else
      var metadata := Get(data, "metadata");
      var metadataErrors := MetadataErrors(metadata);
      var rowErrors :- RowSectionErrors(Get(data, "altTextData"));
      assert Text(MissingMetadataMessage) !in rowErrors by {
        RowErrorsAreRowTexts(Get(data, "altTextData"));
      }
      var errors := metadataErrors + rowErrors;
      Ok(ValidationResult(|errors| == 0, errors))
  }

  /** The row section never reports the missing-metadata message. */
  lemma RowErrorsAreRowTexts(rows: Value)
    requires RowSectionErrors(rows).Ok?
    ensures Text(MissingMetadataMessage) !in RowSectionErrors(rows).value
  {
    if rows.Arr? && rows.items != [] {
      var messages := ValidateRows(rows.items, AltTextRules, 0).value;
      var r := RowSectionErrors(rows).value;
      forall i | 0 <= i < |r| ensures r[i] != Text(MissingMetadataMessage) {
        assert r[i] == Text(messages[i]);
        assert StartsWith(messages[i], "Row ");
        assert messages[i][..4][0] == messages[i][0] == 'R';
        assert MissingMetadataMessage[0] == 'M';
      }
    }
  }

  // ---------------------------------------------------------------------------
  // Validating what the standardiser produced

  /** The messages a standardised row draws: a blank image source, and blank edited alt
      text on a row that is not decorative. */
  function StandardRowMessages(rec: StdRecord, prefix: string): seq<string> {
    (if AllSpace(rec.imageSource) then [Lead(prefix) + ImageSourceMessage] else [])
    + (if !rec.isDecorative && AllSpace(rec.editedAltText) then [Lead(prefix) + AltTextMessage] else [])
  }

  /** A standardised row never throws and draws exactly the messages above. */
  lemma StandardRowErrors(rec: StdRecord, prefix: string)
    ensures ValidateSection(RecordValue(rec), AltTextRules, prefix) == Ok(StandardRowMessages(rec, prefix))
  {
    var v := RecordValue(rec);
    RecordFields(rec);
    var e1 := if AllSpace(rec.imageSource) then [Lead(prefix) + ImageSourceMessage] else [];
    var e3 := if !rec.isDecorative && AllSpace(rec.editedAltText) then [Lead(prefix) + AltTextMessage] else [];
    PresentFieldPasses(v, LoTitleRule, prefix);
    PresentFieldPasses(v, GeneratedAltTextRule, prefix);
    PresentFieldPasses(v, DecorativeRule, prefix);
    ImageSourceErrors(rec, prefix);
    EditedAltTextErrors(rec, prefix);
    RuleChain(v, prefix, e1, e3);
  }

  /** The rule table applied to a row whose five rules draw `[]`, `e1`, `[]`, `e3`, `[]`. */
  lemma RuleChain(v: Value, prefix: string, e1: seq<string>, e3: seq<string>)
    requires !IsNullish(v)
    requires RuleErrors(v, LoTitleRule, prefix) == Ok([])
    requires RuleErrors(v, ImageSourceRule, prefix) == Ok(e1)
    requires RuleErrors(v, GeneratedAltTextRule, prefix) == Ok([])
    requires RuleErrors(v, EditedAltTextRule, prefix) == Ok(e3)
    requires RuleErrors(v, DecorativeRule, prefix) == Ok([])
    ensures SectionErrors(v, AltTextRules, prefix) == Ok(e1 + e3)
  {
    var r4 := [DecorativeRule];
    var r3 := [EditedAltTextRule] + r4;
    var r2 := [GeneratedAltTextRule] + r3;
    var r1 := [ImageSourceRule] + r2;
    assert AltTextRules == [LoTitleRule] + r1;
    assert SectionErrors(v, [], prefix) == Ok([]);
    SectionCons(v, DecorativeRule, [], prefix, [], []);
    assert [DecorativeRule] + [] == r4;
    SectionCons(v, EditedAltTextRule, r4, prefix, e3, []);
    assert e3 + [] == e3;
    SectionCons(v, GeneratedAltTextRule, r3, prefix, [], e3);
    assert [] + e3 == e3;
    SectionCons(v, ImageSourceRule, r2, prefix, e1, e3);
    SectionCons(v, LoTitleRule, r1, prefix, [], e1 + e3);
    assert [] + (e1 + e3) == e1 + e3;
  }

  /** One rule, then the rest. */
  lemma SectionCons(row: Value, rule: Rule, rules: seq<Rule>, prefix: string, first: seq<string>, rest: seq<string>)
    requires !IsNullish(row)
    requires RuleErrors(row, rule, prefix) == Ok(first) && SectionErrors(row, rules, prefix) == Ok(rest)
    ensures SectionErrors(row, [rule] + rules, prefix) == Ok(first + rest)
  {
    assert ([rule] + rules)[1..] == rules;
  }

  /** A field that holds a value of the demanded type and has no check draws nothing. */
  lemma PresentFieldPasses(row: Value, rule: Rule, prefix: string)
    requires !IsNullish(row) && !IsNullish(Get(row, rule.field))
    requires TypeOf(Get(row, rule.field)) == TypeName(rule.fieldType) && rule.check == NoCheck
    ensures RuleErrors(row, rule, prefix) == Ok([])
  {
  }

  lemma ImageSourceErrors(rec: StdRecord, prefix: string)
    ensures RuleErrors(RecordValue(rec), ImageSourceRule, prefix) ==
      Ok(if AllSpace(rec.imageSource) then [Lead(prefix) + ImageSourceMessage] else [])
  {
    RecordFields(rec);
    var value := Get(RecordValue(rec), ImageSourceRule.field);
    assert value == Str(rec.imageSource);
    assert TypeOf(value) == TypeName(ImageSourceRule.fieldType);
    assert RunCheck(ImageSourceRule.check, value, RecordValue(rec)) == Ok(!AllSpace(rec.imageSource));
    var tail: seq<string> := if AllSpace(rec.imageSource) then [Lead(prefix) + ImageSourceMessage] else [];
    assert [] + tail == tail;
  }

  lemma EditedAltTextErrors(rec: StdRecord, prefix: string)
    ensures RuleErrors(RecordValue(rec), EditedAltTextRule, prefix) ==
      Ok(if !rec.isDecorative && AllSpace(rec.editedAltText) then [Lead(prefix) + AltTextMessage] else [])
  {
    RecordFields(rec);
    var value := Get(RecordValue(rec), EditedAltTextRule.field);
    assert value == Str(rec.editedAltText);
    assert TypeOf(value) == TypeName(EditedAltTextRule.fieldType);
    assert Get(RecordValue(rec), "isDecorative") == Bool(rec.isDecorative);
    assert RunCheck(EditedAltTextRule.check, value, RecordValue(rec)) == Ok(rec.isDecorative || !AllSpace(rec.editedAltText));
    var tail: seq<string> := if !rec.isDecorative && AllSpace(rec.editedAltText) then [Lead(prefix) + AltTextMessage] else [];
    assert [] + tail == tail;
  }

  /** The messages standardised metadata draws: a grade label the grade check rejects, and
      an empty link. */
  lemma StandardMetadataErrors(m: StdMetadata)
    ensures ValidateMetadata(MetadataValue(m)) ==
      (if m.gradeLevel != "" && !IsValidGradeLevel(Str(m.gradeLevel)) then [Structured(GradeFormatMessage)] else [])
      + (if m.relativeLink == "" then [Structured(LinkMessage)] else [])
  {
    var v := MetadataValue(m);
    assert Get(v, "gradeLevel") == Str(m.gradeLevel);
    assert Get(v, "relativeLink") == Str(m.relativeLink);
  }

  /** `Grade <n>`, the label the standardiser gives every numeric grade, passes the grade
      check. */
  lemma NumericLabelValid(n: nat)
    ensures IsValidGradeLevel(Str("Grade " + NatText(n)))
  {
    var t := NatText(n);
    LowerGradeLabel(t);
    ReplaceGradeWord(t);
    assert IsTrimmed(t) by {
      assert IsDigit(t[0]) && IsDigit(t[|t| - 1]);
    }
    TrimSpaceLed(t);
    NatTextIsNumeric(n);
  }

  lemma LowerGradeLabel(t: string)
    requires AllDigits(t)
    ensures ToLower("Grade " + t) == "grade " + t
  {
    LowerAppend("Grade ", t);
    LowerDigits(t);
    assert ToLower("Grade ") == "grade ";
  }

  lemma ReplaceGradeWord(t: string)
    ensures ReplaceFirst("grade " + t, "grade", "") == " " + t
  {
    var s := "grade " + t;
    assert OccursAt(s, "grade", 0) by {
      assert s[0..5] == "grade";
    }
    assert IndexOf(s, "grade") == Some(0);
    assert s[5..] == " " + t;
  }

  /** A grade text that starts with a letter other than `g` (in either case) fails the
      grade check: removing `grade` cannot reach its first letter, and no number starts
      with a lower-case letter. */
  lemma LetterLedGradeInvalid(s: string)
    requires s != [] && ('a' <= LowerChar(s[0]) <= 'z') && LowerChar(s[0]) != 'g'
    ensures !IsValidGradeLevel(Str(s))
  {
    var lowered := ToLower(s);
    var replaced := ReplaceFirst(lowered, "grade", "");
    assert replaced != [] && replaced[0] == lowered[0] by {
      match IndexOf(lowered, "grade")
      case None =>
      case Some(k) =>
        assert k != 0;
        assert replaced[0] == lowered[..k][0];
    }
    TrimKeepsLead(replaced);
    var t := Trim(replaced);
    if IsNumericText(t) {
      TrimIdempotent(replaced);
      NumericLead(t);
    }
  }

  /** The labels the standardiser gives kindergarten and pre-kindergarten grades fail the
      grade check, so a standardised upload with such a grade is always rejected. */
  lemma AliasLabelsRejected(link: string)
    ensures Structured(GradeFormatMessage) in ValidateMetadata(MetadataValue(StdMetadata("Kindergarten", link)))
    ensures Structured(GradeFormatMessage) in ValidateMetadata(MetadataValue(StdMetadata("Pre-K", link)))
  {
    LetterLedGradeInvalid("Kindergarten");
    LetterLedGradeInvalid("Pre-K");
    StandardMetadataErrors(StdMetadata("Kindergarten", link));
    StandardMetadataErrors(StdMetadata("Pre-K", link));
  }
}
